=== FILE: README.md ===
# geomet-mapfile in Dafny

A model of the document-generation core of geomet-mapfile, the service that
produces MapServer mapfiles for the MSC GeoMet weather layers, with proofs
about it. Two generations of the generator are covered:

- **geomet_mapfile**:
  - the layer time configuration read from the data registry (`layer_time_config`);
  - the LAYER compiler (`gen_layer` and `mcf2layer_metadata`);
  - the service metadata (`gen_web_metadata`);
  - the document generator (`generate_mapfile`);
  - the text patch that refreshes a layer's `wms_timedefault` (`find_replace_wms_timedefault`);
  - the `DATEFORMAT` timestamp codec, `str2bool` and `remove_prefix`;
  - the pure decisions of the WSGI handler: language, layer selection,
    mapfile routing, time parameters, the tile-index data id and the query-string filter.
- **geomet3_mapfile**:
  - the LAYER compiler with its tile-index layer (`gen_layer`);
  - the service metadata (`gen_web_metadata`);
  - the document generator (`generate`).

Modules, one per concern:

| module | file | what it holds |
|---|---|---|
| `Wrappers` | wrappers.dfy | `Option`, `Result` |
| `Seqs` | seqs.dfy | sub-sequences, and the order-and-count characterisation of filters |
| `Text` | text.dfy | the Python string operations the code uses: `split`, `join`, `strip`, `lower`, `startswith`, `in` on strings, `readlines`, `str(int)` |
| `Errors`, `Values` | values.dfy | the exceptions, and the YAML/JSON values of layer records and documents |
| `Rendering` | rendering.dfy | `str`, `repr` and iteration of values, with readers that take the spellings back |
| `Dicts` | dicts.dfy | insertion-ordered dictionaries with Python assignment semantics, and last-writer-wins lemmas |
| `Calendar` | calendar.dfy | the proleptic Gregorian calendar of `datetime`, instants as seconds since 0001-01-01 |
| `Timestamp` | timestamp.dfy | the `%Y-%m-%dT%H:%M:%SZ` codec |
| `Util` | util.dfy | `str2bool`, `remove_prefix` |
| `Temporal` | temporal.dfy | `layer_time_config`: registry lookup, ISO 8601 period regex, enumeration, nearest instant |
| `LayerConfig` | layerconfig.dfy | the layer record and the per-layer pieces both compilers share |
| `Layer` | layer.dfy | geomet_mapfile `gen_layer` and `mcf2layer_metadata` |
| `Layer3` | layer3.dfy | geomet3_mapfile `gen_layer` |
| `WebMetadata` | webmeta.dfy | `gen_web_metadata` of both packages |
| `Documents` | documents.dfy | artifacts, and the output-format and symbol narrowing of a mapfile copy |
| `Assembler` | assembler.dfy | geomet_mapfile `generate_mapfile` |
| `Assembler3` | assembler3.dfy | geomet3_mapfile `generate` |
| `Patcher` | patcher.dfy | `find_replace_wms_timedefault` |
| `Request` | request.dfy | the WSGI handler's decisions |

Modelling choices:

- **Dictionaries** are sequences of `(key, value)` pairs. Assigning an existing key
  keeps its position, as a Python `dict` does. Layers are built from the exact
  sequence of writes the code makes (`FromWrites`), because a configured
  `layer_params` entry may overwrite any key. Which write decides a key is then a
  lemma about the order of the writes.
- **Generators as plans.** A document generator returns the list of artifacts it
  writes (file path or store key, plus the document value) and its result.
  Serialisation by mappyfile is opaque: an artifact holds the document value.
  - geomet_mapfile catches only `LayerTimeConfigError`. Any other exception ends
    the run, and the artifacts written up to that point are kept.
  - geomet3 catches nothing.
- **Instants** are whole seconds since 0001-01-01T00:00:00, from 0 up to
  9999-12-31T23:59:59. Two different clocks are read, and both are parameters:
  - `layer_time_config` compares intervals against `NOW`, which is frozen at
    import (geomet_mapfile/mapfile.py:49). It is the parameter `nowMicros`, in
    microseconds, because `abs(t - NOW)` compares with microsecond precision.
  - `gen_web_metadata` and the patch read `utcnow()` at call time: the parameters
    `now`, `webNow` and `nowMicros`.
- **Resources** are maps passed in: the store, the resource files (projections,
  styles, MCF records) and the set of existing paths.
- **No memo, no month step.** `layer_time_config` keeps no memo: it enumerates
  the interval on every call. The group `(T?)` of its period regex always
  matches, possibly empty, so `group(1)` is never `None`. The relativedelta
  branch is therefore dead, and `M` means minutes with or without `T`.
- **`str` of a value** is CPython's: a string is itself, and every other value is
  written as its `repr` (`Rendering.Render`). Iterating a value follows Python as
  well: a list yields its elements, a string its characters, a dict its keys
  (`Rendering.Iterate`).
- **Store keys differ between the packages.**
  - The geomet_mapfile store prefixes every key with `geomet-mapfile_`
    (`Documents.StoreKey`). Registry reads use `raw=True` and are not prefixed.
  - The geomet3 store writes keys as given.

## Model

| member | source | states |
|---|---|---|
| Util.Str2Bool | geomet_mapfile/util.py:43-50 | A boolean is returned as is. A string is true exactly when its lower-cased form is one of `yes`, `true`, `t`, `1`, `on`. Any other value raises. |
| Util.Str2BoolCaseVariants | geomet_mapfile/util.py:48 | The true strings are exactly the upper/lower-case variants of the five true words. |
| Util.RemovePrefix | geomet_mapfile/util.py:62-64 | When the text starts with the prefix, the prefix followed by the result is the text. Otherwise the text is returned unchanged. The result is never longer than the text. |
| Util.RemovePrefixInverse | geomet_mapfile/util.py:62-64 | Removing a prefix that was prepended gives the rest back. The empty prefix changes nothing. |
| Timestamp.Parse | geomet_mapfile/util.py:30 | Text parses exactly when it has the `DATEFORMAT` shape and its fields form a valid date-time. The instant is within the `datetime` range. |
| Timestamp.ParseFormat | geomet_mapfile/util.py:30 | Formatting an instant and parsing the text gives the instant back. |
| Timestamp.FormatParse | geomet_mapfile/util.py:30 | Parsed text is the formatting of its instant: one spelling per instant. |
| Timestamp.FormatInjective | geomet_mapfile/util.py:30 | Distinct instants have distinct spellings. |
| Timestamp.FormatAlphabet | geomet_mapfile/util.py:30 | A formatted instant holds only digits, `-`, `T`, `:` and `Z`. |
| Temporal.LayerTimeConfig | geomet_mapfile/mapfile.py:116-187 | Fails with `LayerTimeConfigError` exactly when the registry's `time_extent` is missing or empty. Otherwise it returns that extent and the registry's model-run extent and default model run verbatim. Outside the stored-default shortcut, it succeeds exactly when the extent decodes and resolves, returns the resolved default and intervals, and raises the decoding error when decoding fails. |
| Temporal.SingleAxisShortcut | geomet_mapfile/mapfile.py:144-147 | With a stored default time, and not both model-run keys, the stored default is returned verbatim with no intervals. |
| Temporal.DecodeExtent | geomet_mapfile/mapfile.py:149-167 | Decoding succeeds exactly when: the extent splits into three parts at `/`; both ends parse; the period regex matches; the step fits a `timedelta`. The fields are the parsed values. |
| Temporal.MatchFromSpec | geomet_mapfile/mapfile.py:153-156 | For a fixed group 1, the match is the longest digit run the regex can take, giving back one digit when nothing else follows. No match exactly when no split matches. |
| Temporal.MatchPeriodSpec | geomet_mapfile/mapfile.py:153-156 | `re.search('^P(T?)(\d+)(.)')` fails exactly when no split of the text matches. Otherwise it prefers a `T` in group 1, then the longest group 2. |
| Temporal.PeriodStep | geomet_mapfile/mapfile.py:158-167 | Unit `H` gives hours and `M` gives minutes, whether or not `T` is present. Any other unit leaves the step unbound. A step past `timedelta.max` overflows. |
| Temporal.Delta | geomet_mapfile/mapfile.py:165-167 | `timedelta(seconds=n)` succeeds exactly up to `timedelta.max`. |
| Temporal.Enumerate | geomet_mapfile/mapfile.py:170-172 | A successful loop lists the arithmetic progression from start, up to the last term not after end. The only failure is `OverflowError`. |
| Temporal.EnumerateUnique | geomet_mapfile/mapfile.py:169-172 | For any progression, the loop succeeds exactly when the step after its last term stays within year 9999, and it then returns exactly that progression. |
| Temporal.FirstNearest | geomet_mapfile/mapfile.py:173-175 | The index `min(key=abs(t - NOW))` picks is at minimal distance, and every earlier index is strictly farther. |
| Temporal.DegenerateExtent | geomet_mapfile/mapfile.py:169-177 | With equal ends or a zero step, the default is the formatted end and there are no intervals, even when the unit left the step unbound. |
| Temporal.UnboundStep | geomet_mapfile/mapfile.py:158-169 | With distinct ends and a unit other than `H`/`M`, the code fails with `UnboundLocalError` on `relative_delta`. |
| Temporal.EnumeratedExtent | geomet_mapfile/mapfile.py:169-175 | A resolved extent with distinct ends and a positive step lists the whole non-empty progression. The default spells the interval nearest to `NOW`, the first of any tie. |
| Temporal.EnumeratedExtentFails | geomet_mapfile/mapfile.py:169-175 | Start after end raises `min()`'s `ValueError`. `OverflowError` occurs exactly when the enumeration overflows. Nothing else fails. |
| Temporal.EnumeratedConfig | geomet_mapfile/mapfile.py:149-187 | For a registry extent with distinct ends and a positive step: start after end raises `min()`'s `ValueError`; a success lists the whole non-empty progression, and its default spells the interval nearest to `NOW`. |
| Temporal.DegenerateConfig | geomet_mapfile/mapfile.py:149-187 | For a registry extent with equal ends or a zero step, the layer's default time is the formatted end and it has no intervals. |
| LayerConfig.ProjectionLines | geomet_mapfile/mapfile.py:329-331 | One line per `readlines` line: the line with its newlines and double quotes removed, every other character kept in order and as often as it occurs. A line without quotes is kept as it is. |
| LayerConfig.ReadProjection | geomet_mapfile/mapfile.py:327-331 | Reading the projection fails exactly when the file is missing. |
| LayerConfig.Processing | geomet_mapfile/mapfile.py:335-341 | The layer's directives come first, then the forecast model's, and nothing else. |
| LayerConfig.ParamPair | geomet_mapfile/mapfile.py:361 | `params.split()` unpacks exactly when there are two words, and they are the parameter and its value. |
| LayerConfig.ParamPairRoundTrip | geomet_mapfile/mapfile.py:360-362 | A `param value` entry of two words gives that parameter and value back. |
| LayerConfig.MetadataPair | geomet_mapfile/mapfile.py:391 | `md.split('=')` unpacks exactly when there is one `=`. |
| LayerConfig.MetadataPairRoundTrip | geomet_mapfile/mapfile.py:389-397 | A `key=value` entry with no other `=` gives that key and value back. |
| LayerConfig.PairWrites | geomet_mapfile/mapfile.py:389-397 | The loop writes every entry in order. Otherwise it raises the first failing entry's error. |
| LayerConfig.SizeWrites | geomet_mapfile/mapfile.py:399-404 | `ows_size` is the first two dimensions separated by a space. Fewer than two dimensions raise. No dimensions write nothing. |
| LayerConfig.ClassGroup | geomet_mapfile/mapfile.py:366 | The class group is the first style's last path piece with the given characters stripped from both ends. It holds no `/` and neither starts nor ends with a stripped character. No style raises `IndexError`. |
| LayerConfig.ClassGroupOfStyle | geomet_mapfile/mapfile.py:366 | A style path `dir/base` + suffix, or `base` + suffix, whose suffix consists of stripped characters gives `base` stripped: the directory and the suffix go, and so do any stripped characters at the ends of `base`. |
| LayerConfig.ConfigWrites | geomet_mapfile/mapfile.py:381-404 | The configuration metadata is the label writes, then both metadata loops, then `ows_size`. It fails exactly when one of them does. |
| LayerConfig.ModelMetadataWins | geomet_mapfile/mapfile.py:389-397 | Where the forecast model's metadata writes a key, its last value beats the layer's own. |
| LayerConfig.MaxAgeSeconds | geomet_mapfile/mapfile.py:428-435 | The cache lifetime is hours × 3600, else minutes × 60, else none. |
| LayerConfig.GenericWrites | geomet_mapfile/mapfile.py:437-449 | The generic block writes exactly its twelve keys, in order. |
| Layer.Mcf2LayerMetadata | geomet_mapfile/mapfile.py:66-103 | Exactly six keys, in order. They hold the record's abstracts and dataset URI, the keyword lists extended with `gc_cst` and joined by `, `, and the CSW link. |
| Layer.CswIdIsNone | geomet_mapfile/mapfile.py:69-101 | The CSW link is the same for every record and ends in `&id=None`: the identifier is never read. |
| Layer.IntervalsRoundTrip | geomet_mapfile/mapfile.py:416-422 | The `wms_available_intervals` text splits at commas into the formatted instants and parses back into the intervals. |
| Layer.TimeWrites | geomet_mapfile/mapfile.py:406-426 | The time block writes `wms_available_intervals` exactly when there are intervals, and `wms_reference_time_extent` exactly when the default model run is non-empty. |
| Layer.StyleClasses | geomet_mapfile/mapfile.py:368-374 | Succeeds exactly when every style file exists. The classes are then every file's class list joined end to end, in style order. Otherwise the first missing style file raises `FileNotFoundError`. |
| Layer.GenLayer | geomet_mapfile/mapfile.py:288-460 | The result is one layer dictionary with unique keys. It fails with `LayerTimeConfigError` exactly when the registry has no usable `time_extent`. |
| Layer.CompileLayer | geomet_mapfile/mapfile.py:307-460 | Once the time record is read, nothing else raises a time-configuration error. |
| Layer.OnlyTimeErrorIsCaught | geomet_mapfile/mapfile.py:305 | Without a `time_extent`, the layer fails with `LayerTimeConfigError` before anything else is read. |
| Layer.GenLayerParts | geomet_mapfile/mapfile.py:366-456 | A compiled layer's `classgroup`, `classes` and `metadata` are: the stripped first style; the style files' classes; the configuration, time block, cache lifetime, generic block and MCF record, applied in last-writer-wins order. |
| Layer.TailWritesWin | geomet_mapfile/mapfile.py:366-378 | No `layer_params` entry can displace `classgroup`, `classes` or `metadata`: they are written after it. |
| Layer.McfWins | geomet_mapfile/mapfile.py:456 | The MCF record's six keys hold its values, whatever was written before. |
| Layer.GenericWins | geomet_mapfile/mapfile.py:437-449 | The generic keys hold the generic values, with `default range` as the range-set label. |
| Layer.MaxAgeWins | geomet_mapfile/mapfile.py:428-435 | `geomet_ows_http_max_age` is hours × 3600, else minutes × 60, else `''`, whatever the configuration wrote. |
| Layer.TimeWins | geomet_mapfile/mapfile.py:406-426 | A time key holds the time block's value when the block writes it, and the configuration's otherwise. |
| Layer.AvailableIntervals | geomet_mapfile/mapfile.py:416-422 | With intervals, `wms_available_intervals` is their text and parses back to them. Without intervals, the configuration's value, if any, stays. |
| Layer.ReferenceTimeExtent | geomet_mapfile/mapfile.py:424-426 | `wms_reference_time_extent` is the model-run extent exactly when the default model run is non-empty. |
| Layer.ConfigSurvives | geomet_mapfile/mapfile.py:381-404 | A configured key that no later block writes keeps the configuration's last value. |
| Layer.ClassGroupOfJsonStyle | geomet_mapfile/mapfile.py:366 | `strip('.json')` of a `.json` style file name is the base name with `.`, `j`, `s`, `o`, `n` stripped from both ends: `styles/rain.json` gives `rai`. |
| WebMetadata.LangWrites | geomet_mapfile/mapfile.py:241-283 | One pass of the language loop writes each bilingual name, with the language's suffix, and that language's value. |
| Rendering.Render | geomet_mapfile/mapfile.py:214 | `str(v)`: a string is itself; `None`, `True`, `False` and integers are their Python spellings; a list is bracketed and a dict braced. It never fails. |
| Rendering.StrReprRoundTrip | geomet_mapfile/mapfile.py:214 | Reading back the quoted literal `repr` writes for a string, escapes included, gives the string. |
| Rendering.IntRoundTrip | geomet_mapfile/mapfile.py:214 | Reading back `str` of an integer gives the integer. |
| Rendering.Iterate | geomet_mapfile/mapfile.py:214 | `for x in v` visits a list's elements, a string's one-character strings and a dict's keys. It raises `TypeError` exactly for `None`, booleans and integers. |
| WebMetadata.RenderAll | geomet_mapfile/mapfile.py:214 | `str(x)` of every extent item, in order: strings as themselves, every other value as its `repr`. |
| WebMetadata.IntExtentRoundTrip | geomet_mapfile/mapfile.py:214 | An extent of integer bounds gives an `ows_extent` text that splits at commas into one piece per bound, each reading back as that bound. |
| WebMetadata.BaseFacts | geomet_mapfile/mapfile.py:214-219 | Succeeds exactly when the base mapfile is a dictionary whose `extent` is iterable and which has `web.metadata.ows_srs`. The extent text is the comma-join of `str` of every item; a missing `extent` raises `KeyError`, a scalar one `TypeError`. |
| WebMetadata.GenWebMetadata | geomet_mapfile/mapfile.py:190-285 | For a well-formed configuration, succeeds exactly when the base-mapfile reads succeed. The keys are unique, and `ows_updatesequence` is the clock's formatted instant. |
| WebMetadata.MetadataInWriteOrder | geomet_mapfile/mapfile.py:203-283 | No assignment overwrites an earlier one, so the dictionary is the writes in order. Its keys are the eleven identification keys, `ows_addresstype`, the eleven contact keys, the nineteen bilingual names, then those names with `_fr`. |
| WebMetadata.WrittenValue | geomet_mapfile/mapfile.py:203-283 | Every assignment's value is what its key reads in the finished dictionary. |
| WebMetadata.IdentificationValues | geomet_mapfile/mapfile.py:203-219 | `__type__` is `metadata` and the vocabulary is the Dublin Core terms URL. Fees, access constraints and role are the configuration's. The formats are `image/png,image/jpeg`, the encoding is `UTF-8`, and `ows_srs` is the base mapfile's `web.metadata.ows_srs`. |
| WebMetadata.ContactValues | geomet_mapfile/mapfile.py:223-239 | `ows_addresstype` is `postal`. Postcode, e-mail, telephones and the four logo keys are the configuration's. Both enable-request keys are `*`, and the feature-info formats are the fixed list. |
| WebMetadata.HeadValues | geomet_mapfile/mapfile.py:203-219 | In the dictionary the writes build, each identification key reads back the value written to it: the fixed texts, the configuration's fees, access constraints and role, and the given `ows_srs`. |
| WebMetadata.TailValues | geomet_mapfile/mapfile.py:223-239 | In the dictionary the writes build, `ows_addresstype` reads `postal` and each contact key reads back the configuration's value or the fixed text written to it. |
| WebMetadata.CommonWins | geomet_mapfile/mapfile.py:209-283 | A key outside the bilingual names keeps the value written before the language loop. |
| WebMetadata.Bilingual | geomet_mapfile/mapfile.py:241-283 | Each bilingual name holds the English value, and name + `_fr` holds the French one (including `url?lang=fr`). |
| WebMetadata.ExtentAndMaxAge | geomet_mapfile/mapfile.py:214-216 | `ows_extent` is the comma-join of `str` of every item the base extent iterates over, and the cache age is one week. |
| WebMetadata.UpdateSequence | geomet_mapfile/mapfile.py:217 | `ows_updatesequence` holds the stamp. |
| WebMetadata.DoubleAddressTypeHarmless | geomet3_mapfile/mapfile.py:56-57 | The repeated `ows_addresstype` assignment yields the same dictionary as a single one. |
| Documents.StoreKey | geomet_mapfile/store/redis_.py:73-88 | Stored keys are the key behind `geomet-mapfile_`, and the key can be read back. |
| Documents.SetIn | geomet_mapfile/mapfile.py:488-494 | `d[outer][inner] = v` succeeds exactly when `d[outer]` is a dictionary. Only that entry changes: the inner dictionary gains or updates `inner` alone, keeping its key order and appending a new key last, and the outer key order is kept. |
| Documents.IterField | geomet_mapfile/mapfile.py:512-529 | Iterating a missing field raises `KeyError`, and a list yields its items. |
| Documents.KeepBy | geomet_mapfile/mapfile.py:512-529 | The filter keeps exactly the items the test accepts, in order and with their multiplicities. When the test raises, the error is that of the first item it raises on. |
| Documents.SymbolListedIffContains | geomet_mapfile/mapfile.py:524-528 | A symbol with a string name is kept exactly when its name contains a listed string: the equality test is subsumed. |
| Documents.NarrowFormats | geomet_mapfile/mapfile.py:511-517 | Without a list, the copy is unchanged. With a list, only `outputformats` changes, to the kept formats. |
| Documents.NarrowSymbols | geomet_mapfile/mapfile.py:520-531 | Without a list, the symbols become empty. With a list, only `symbols` changes, to the kept symbols. |
| Documents.NarrowCopy | geomet_mapfile/mapfile.py:506-531 | The narrowing changes only `outputformats` and `symbols`. |
| Documents.FormatsNarrowed | geomet_mapfile/mapfile.py:511-517 | The kept formats are exactly the catalogue's formats whose name is listed, in catalogue order, each as often as the catalogue holds it. |
| Documents.SymbolsNarrowed | geomet_mapfile/mapfile.py:520-529 | The kept symbols are exactly the catalogue's symbols the test selects, in catalogue order, each as often as the catalogue holds it. |
| Seqs.SubSeqUnique | geomet_mapfile/mapfile.py:512-529 | Order and multiplicities determine a filter's result: two sub-sequences of a list that keep every accepted item as often as the list has it, and no other, are equal. |
| Assembler.Selected | geomet_mapfile/mapfile.py:482-485 | The named layer alone, or all layers. An unknown name raises `KeyError`. |
| Assembler.LayerStep | geomet_mapfile/mapfile.py:496-554 | An iteration goes through exactly when the layer compiles and narrows, or fails with a time error. It always writes the layer-only file first. |
| Assembler.TimeErrorStep | geomet_mapfile/mapfile.py:500-541 | A layer without a time extent writes an empty layer-only file and nothing else, and flags a time error. |
| Assembler.CompiledStep | geomet_mapfile/mapfile.py:506-554 | A compiled layer writes its layer-only file, then one of: the full mapfile; the two store keys; nothing more. With includes, the full mapfile is the global document with only `include` set, to the layer file's path. Otherwise it is narrowed. |
| Assembler.GlobalWrites | geomet_mapfile/mapfile.py:556-566 | The global mapfile is always written to disk, including every layer-only file, and also to the store for store output. |
| Assembler.Complete | geomet_mapfile/mapfile.py:556-573 | The run returns `not time_errors` exactly when no other exception stopped it. |
| Assembler.GenerateMapfile | geomet_mapfile/mapfile.py:463-573 | A completed run's artifacts are the layer loop's writes, followed by the global writes for a full run. |
| Assembler.IncludesAllLayers | geomet_mapfile/mapfile.py:533-539 | A completed loop includes every layer's layer-only path, in order, whether the layer compiled or not. |
| Assembler.TimeErrorsIff | geomet_mapfile/mapfile.py:500-504 | A completed loop met a time error exactly when some layer failed, and every failure was a time error. |
| Assembler.OtherErrorsAbort | geomet_mapfile/mapfile.py:500-504 | Any exception other than `LayerTimeConfigError` stops the loop. |
| Assembler.ResultIffTimeError | geomet_mapfile/mapfile.py:568-573 | A run that returns returns `False` exactly when some selected layer lacks time configuration. |
| Assembler.GlobalMapfile | geomet_mapfile/mapfile.py:556-566 | A full run ends with the global mapfile, including all layer-only paths, and for store output with the same document under `geomet-weather_mapfile`. |
| Assembler.PathsMatchHandler | geomet_mapfile/wsgi.py:238-255 | The files and store key the generator writes are the ones the WSGI handler reads. |
| Layer3.IniKeywords | geomet3_mapfile/mapfile.py:267-272 | The INI keywords, followed by `, ` and the `gc_cst` keywords when present. |
| Layer3.YamlKeywords | geomet3_mapfile/mapfile.py:287-293 | The YAML keyword list joined by `, `, followed by `, ` and the joined `gc_cst` list when present. |
| Layer3.YamlKeywordsAgree | geomet3_mapfile/mapfile.py:287-293 | For non-empty lists, the YAML keyword text equals geomet_mapfile's join of the extended list. |
| Layer3.YamlKeywordsLeadingSeparator | geomet3_mapfile/mapfile.py:287-293 | With an empty primary list the text starts with `, `, where geomet_mapfile's has none. |
| Layer3.McfWrites3 | geomet3_mapfile/mapfile.py:261-301 | The MCF is read as INI for `.mcf`, as YAML for `.yml`, and not at all for other names. It writes exactly six keys, and a missing file raises. |
| Layer3.MetadataUrlNamesRecord | geomet3_mapfile/mapfile.py:273-301 | The CSW link ends in the record's own identifier. |
| Layer3.Time3Writes | geomet3_mapfile/mapfile.py:241-248 | Exactly the seven time keys are written, and only for `yes`/`future`. They hold `reference_time`, `properties.reference_datetime`, `ISO8601`, then four empty placeholders. |
| Layer3.TimePlaceholders | geomet3_mapfile/mapfile.py:241-248 | A time-enabled layer ends with `reference_time`, the item `properties.reference_datetime`, the units `ISO8601` and empty time placeholders. Otherwise the configuration's values stay. |
| Layer3.GenericWins3 | geomet3_mapfile/mapfile.py:302-314 | The generic block is last, with `Default Range` as the range-set label. |
| Layer3.McfWins3 | geomet3_mapfile/mapfile.py:259-301 | The MCF keys hold the record's values over the configuration. |
| Layer3.MaxAgeWins3 | geomet3_mapfile/mapfile.py:250-257 | `geomet_ows_http_max_age` is the lifetime in seconds as text, or `''`. |
| Layer3.TileindexLayer | geomet3_mapfile/mapfile.py:135-158 | The tile-index layer is named `{name}_idx`, is switched off, and connects to the quoted tile-index URL. |
| Layer3.TileRefWrites | geomet3_mapfile/mapfile.py:175-178 | `tileindex`/`tileitem` are written exactly when the tile-index layer exists. |
| Layer3.Includes | geomet3_mapfile/mapfile.py:213 | One include path per style, under the data directory. |
| LayerConfig.PathJoin | geomet3_mapfile/mapfile.py:213 | `os.path.join` keeps an absolute name. Otherwise it puts the directory first, adding a `/` only when the directory does not already end in one. |
| Layer3.Gather3 | geomet3_mapfile/mapfile.py:181-241 | The reads succeed exactly when each read succeeds, and the parts are the values those reads give. A missing `type` raises `KeyError` first. Otherwise the error is that of the first failing read, in code order: projection file, layer params, class group, `extent`, configuration writes, `time_enabled`, MCF record. |
| Layer3.GenLayer3 | geomet3_mapfile/mapfile.py:123-318 | Two layers (tile index first) exactly when the layer is raster/uvraster/contour, else one. All have unique keys. A missing `type` raises `KeyError`. |
| Layer3.LayerOrder3 | geomet3_mapfile/mapfile.py:135-163 | The main layer is named after the layer unless a parameter overrides it. The tile-index layer is `{name}_idx` over the tile-index URL. |
| Layer3.TileindexReference | geomet3_mapfile/mapfile.py:146-178 | The main layer references `{name}_idx` exactly when the tile-index layer is used. |
| Layer3.GenLayer3Parts | geomet3_mapfile/mapfile.py:212-314 | The main layer's `classgroup`, `include` and `metadata` are the stripped first style, the style paths and the blocks in last-writer-wins order. |
| Layer3.TimeEnabledRequired | geomet3_mapfile/mapfile.py:241 | A layer without `time_enabled` raises `KeyError` once the earlier reads succeed. |
| Layer3.ClassGroupOfIncStyle | geomet3_mapfile/mapfile.py:212 | `strip(".inc")` of a `.inc` style path is the base name with `.`, `i`, `n`, `c` stripped from both ends: `cloud.inc` gives `loud`. |
| Assembler3.LayerWrites3 | geomet3_mapfile/mapfile.py:382-403 | One write per layer for `mapfile` or `store`, of the narrowed copy with `map_` or of the layers without. |
| Assembler3.LayerStep3 | geomet3_mapfile/mapfile.py:361-403 | An iteration raises the compiler's error, or collects its layers and writes once. |
| Assembler3.StepNarrows | geomet3_mapfile/mapfile.py:371-380 | An iteration succeeds exactly when the narrowing does. With `map_` it writes the narrowed copy. |
| Assembler3.GlobalWrites3 | geomet3_mapfile/mapfile.py:405-425 | The global document holds every collected layer. It is written to disk or to the store. |
| Assembler3.Complete3 | geomet3_mapfile/mapfile.py:405-425 | A stopped run keeps its writes. A completed full run adds the global write. |
| Assembler3.Generate | geomet3_mapfile/mapfile.py:333-428 | A completed run's artifacts are the loop's writes, followed by the global write for a full run. An unknown layer raises `KeyError`. |
| Assembler3.LoopCompletes | geomet3_mapfile/mapfile.py:361-369 | A completed loop ran every iteration and collected their layers in order. |
| Assembler3.ErrorStops | geomet3_mapfile/mapfile.py:361-365 | A raising iteration stops the loop with its own exception when it is the first one. |
| Assembler3.CompilerErrorAborts | geomet3_mapfile/mapfile.py:365 | Any compiler error, a time error included, stops `generate`. |
| Assembler3.CollectedAreCompiled | geomet3_mapfile/mapfile.py:365-369 | The layers collected are exactly the compiled layers, in order. |
| Assembler3.GlobalLayers | geomet3_mapfile/mapfile.py:405-425 | A full run ends with the global document holding every compiled layer, in configuration order. |
| Assembler3.OneWritePerLayer | geomet3_mapfile/mapfile.py:382-403 | Each configured layer is written once, in order, to its own file or store key. |
| Assembler3.MapPathsMatchHandler | geomet3_mapfile/wsgi.py:144-149 | The files written with `map_` are the ones the WSGI handlers look up. |
| Patcher.MatchIff | geomet_mapfile/mapfile.py:584-588 | A line matches `(.*"key".)(.*)(")` exactly when it holds the key, one more character and, later, a quote. |
| Patcher.MatchShape | geomet_mapfile/mapfile.py:584-588 | The groups split the line at its last quote and at the last key leaving room before that quote. |
| Patcher.FirstMatch | geomet_mapfile/mapfile.py:585-588 | The search finds the first matching line. |
| Patcher.ParseAll | geomet_mapfile/mapfile.py:591-594 | Every interval text parses, or `ValueError` is raised. |
| Patcher.ParsedSpellings | geomet_mapfile/mapfile.py:591-594 | Each parsed interval is spelled exactly as the text spelled it. |
| Patcher.Nearest | geomet_mapfile/mapfile.py:596 | The chosen interval is one of them, and none is nearer to now. |
| Patcher.NearestCoversTies | geomet_mapfile/mapfile.py:596 | Every nearest interval is the choice for some tie-break. |
| Patcher.Rewrite | geomet_mapfile/mapfile.py:604-611 | Each matching line becomes the replacement followed by its tail, and other lines stay. |
| Patcher.FindReplaceTimeDefault | geomet_mapfile/mapfile.py:576-619 | Without intervals the text is unchanged. Unparseable intervals raise `ValueError`. Otherwise it succeeds exactly when a `wms_timedefault` line exists. |
| Patcher.ChosenIsNearest | geomet_mapfile/mapfile.py:592-597 | The chosen instant is an available interval, spelled as in the text, and none is nearer to now. |
| Patcher.RefreshRewritesDefaults | geomet_mapfile/mapfile.py:604-611 | Every `wms_timedefault` line gets the first line's prefix, the chosen interval, a quote and its own tail. Other lines stay. |
| Patcher.RefreshReadsBack | geomet_mapfile/mapfile.py:584-611 | Reading `wms_timedefault` from the refreshed text gives the chosen interval, on the same line. |
| Request.Lang | geomet_mapfile/wsgi.py:206-209 | `fr` exactly for `f`, `fr` or `fra`. Otherwise `en`. |
| Request.SelectLayer | geomet_mapfile/wsgi.py:210-222 | `LAYERS`, else `LAYER`, else `COVERAGEID`. An empty value names no layer. |
| Request.Service | geomet_mapfile/wsgi.py:218-219 | `SERVICE`, or `WMS` when absent. |
| Request.CachedCapabilities | geomet_mapfile/wsgi.py:266-272 | For WMS the cached capabilities file is `{basedir}/mapfile/geomet-weather-1.3.0-capabilities-{lang}.xml`, with `os.path.join`'s handling of a trailing or empty base directory. Any other service reads an unbound variable. |
| Request.DataId | geomet_mapfile/wsgi.py:160-166 | The id is the layer, then the digit groups by dashes. A model run without digits is left out. |
| Request.DataIdTail | geomet_mapfile/wsgi.py:160-166 | The id's tail splits back into the digit groups. |
| Request.ResolveTimes | geomet_mapfile/wsgi.py:295-303 | An empty `TIME` or `DIM_REFERENCE_TIME` is an error. An absent one takes the layer's default. |
| Request.KeepTimeless | geomet_mapfile/wsgi.py:351 | Exactly the items not mentioning `time`, in order and with their multiplicities. |
| Request.StripTimeParamsIsFilter | geomet_mapfile/wsgi.py:349-354 | The whole-string test is only a shortcut: the result is always the time-free items, rejoined. |
| Request.MentionsTimeJoin | geomet_mapfile/wsgi.py:349-351 | An item mentioning time makes the joined string mention it. |
| Request.FileRoute | geomet_mapfile/wsgi.py:229-263 | `GODS` gives the banner. Otherwise a single layer's own file, else the global file, else a bad request. |
| Request.StoreGet | geomet_mapfile/store/redis_.py:60-73 | A lookup reads the key behind the `geomet-mapfile_` prefix. |
| Request.StoreRoute | geomet_mapfile/wsgi.py:229-263 | `GODS` gives the banner. A single layer with a stored mapfile gets that document, a bad request when it is empty. Otherwise the global stored mapfile is served when non-empty, and a missing or empty one is a bad request. |

## Left out

- `update_mapfile`, the click commands, `clean_style`, `metadata_lang`, `OWSDispatch`
  and the rest of the WSGI response path: they are I/O around the modelled decisions.
- The tile-index lookup of `get_data_path` and the data download: network calls. Only
  the data id is modelled.
- geomet3's WSGI handler: it is context only. Its file paths are checked against the
  generator's.
- The store wrappers: kept only as key namespacing and raw maps.
- `os.makedirs`, and geomet3's final copy of the EPSG file: filesystem effects outside the
  documents.
- mappyfile serialisation: opaque, so artifacts hold document values.
- Timestamp.Parse: accepts only the canonical zero-padded 20-character spelling.
  `strptime` also accepts, for example, one-digit months. The model's formatted
  texts are always canonical.
- Timestamp.Format: pads years below 1000 to four digits. glibc's `strftime` does not.
- Temporal.MatchPeriod: `\d` is ASCII digits only, where Python's also matches other
  Unicode digits.
- Text.AsciiLower: folds ASCII letters only.
- Text.Split: `\r\n` line ends are not treated specially.
- Floats anywhere in configuration values, extents or dimensions: values are
  integers, strings, lists and dictionaries.
- Layer.Mcf2LayerMetadata: `urlencode` of the fixed CSW parameters is the constant it
  produces.
- Patcher.FindReplaceTimeDefault: requires the first `wms_timedefault` prefix to hold no
  backslash, so `re.sub` takes the replacement literally. Escape processing is not
  modelled.
- Patcher.Nearest: `get_nearest` is not part of this model. A `tie` parameter chooses
  among the nearest intervals, and `Patcher.NearestCoversTies` shows it covers every choice.
- Documents.SymbolListed: the listed symbol names are assumed to be strings.
- Outputs other than those `click.Choice` admits are modelled as writing nothing extra.
- WebMetadata.ServiceConfig: the configuration is taken as well-formed. Its sections are a
  typed record, so some errors are not modelled: the `KeyError` of a missing configuration
  key (from mapfile.py:211, raised before `m['extent']` is read), and the `TypeError` of
  non-string keywords in `','.join` (mapfile.py:252, 283). The title may be any value and
  goes through `str`.
- LayerConfig.LayerInfo: a layer's configuration is taken as well-formed in the keys both
  generators read without a check. These are `styles`, `label_en`/`label_fr`, and the
  forecast model's `projection`, `mcf` and `label_en`/`label_fr` (geomet_mapfile/mapfile.py:326,
  366, 381-386). They are typed fields, so the `KeyError` of a missing one is not modelled.
  The forecast model's labels are strings, so the `str` the f-string applies at mapfile.py:384-385
  is the identity. Missing `type`, `extent` and `time_enabled` in geomet3 are modelled as
  `KeyError`.
- Rendering.Render: non-printable characters above U+00FF, which `repr` writes as
  `\u`/`\U` escapes, are kept as they are. Floats are not values of the model.
- Rendering.IntRoundTrip: CPython's limit of 4300 digits for `str(int)` is not modelled.

=== FILE: assembler.dfy ===
/** `generate_mapfile(layer, output, use_includes)` of
    geomet_mapfile/mapfile.py as an artifact plan: the files and store keys
    it writes, in order, and what it returns. */
module Assembler {
  import opened Wrappers
  import opened Text
  import opened Dicts
  import opened Errors
  import opened Values
  import opened Calendar
  import opened Timestamp
  import opened Temporal
  import opened LayerConfig
  import opened WebMetadata
  import opened Layer
  import opened Documents
  import Request

  /** Everything `generate_mapfile` reads: the base directory, the
      `proj_lib` path it sets, the service URL, the base mapfile and the
      symbol catalog, the configured layers (in configuration order) and
      service metadata, the data-registry store, the `NOW` the layer
      compiler uses, the clock reading `gen_web_metadata` takes, and the
      files the layer compiler opens. */
  datatype Setup = Setup(
    basedir: string,
    projLib: string,
    url: string,
    base: Dict<Value>,
    symbols: Value,
    layers: Dict<LayerInfo>,
    service: ServiceConfig,
    st: Store,
    nowMicros: int,
    webNow: int,
    res: Resources)

  /** What a run produced: the writes it made, in order, and either the
      boolean it returned or the exception that stopped it. */
  datatype Outcome = Outcome(artifacts: seq<Artifact>, result: Result<bool, Error>)

  function OutputDir(basedir: string): string {
    basedir + "/mapfile"
  }

  /** The LAYER-only mapfile of one layer. */
  function LayerPath(basedir: string, key: string): string {
    OutputDir(basedir) + "/geomet-weather-" + key + "_layer.map"
  }

  /** The full mapfile of one layer. */
  function DocPath(basedir: string, key: string): string {
    OutputDir(basedir) + "/geomet-weather-" + key + ".map"
  }

  /** The global mapfile. */
  function GlobalPath(basedir: string): string {
    OutputDir(basedir) + "/geomet-weather.map"
  }

  /** The layer-only paths of `keys`, in order. */
  function LayerPaths(basedir: string, items: Dict<LayerInfo>): (r: seq<string>)
    ensures |r| == |items|
    ensures forall i | 0 <= i < |items| :: r[i] == LayerPath(basedir, items[i].0)
  {
    seq(|items|, i requires 0 <= i < |items| => LayerPath(basedir, items[i].0))
  }

  lemma LayerPathsCons(basedir: string, items: Dict<LayerInfo>)
    requires items != []
    ensures LayerPaths(basedir, items) == [LayerPath(basedir, items[0].0)] + LayerPaths(basedir, items[1..])
  {
    assert forall i | 1 <= i < |items| :: items[i] == items[1..][i - 1];
  }

  /** The outcome of one layer's iteration: its writes, the global mapfile
      after it (file output with includes points `include` at the layer),
      and whether the layer's time configuration failed. */
  datatype Visit = Visit(artifacts: seq<Artifact>, mapfile: Dict<Value>, timeError: bool)

  /** What the layer compiler returns for each layer, in order. The
      compiler is pure here, so computing every result up front and then
      running the loop over them is the same as calling it in the loop. */
  function Compilations(s: Setup, items: Dict<LayerInfo>): (r: seq<Result<seq<Value>, Error>>)
    ensures |r| == |items|
    ensures forall i | 0 <= i < |items| :: r[i] == GenLayer(s.st, s.nowMicros, s.res, items[i].0, items[i].1)
  {
    seq(|items|, i requires 0 <= i < |items| => GenLayer(s.st, s.nowMicros, s.res, items[i].0, items[i].1))
  }

  /** One iteration of the layer loop, starting from the global mapfile,
      given what the layer compiler returned for the layer. */
  function LayerStep(basedir: string, output: string, useIncludes: bool, mapfile: Dict<Value>,
                     key: string, info: LayerInfo, compiled: Result<seq<Value>, Error>): (r: Result<Visit, Error>)
    ensures r.Ok? <==> (compiled.Ok? && (compiled.value == [] || NarrowCopy(Set(Set(mapfile, "layers", List([])), "layers",
                                                                           List(compiled.value)), info).Ok?))
                       || (compiled.Err? && compiled.error.LayerTimeConfigError?)
    ensures r.Err? && compiled.Err? ==> r.error == compiled.error
    ensures r.Ok? ==> (r.value.timeError <==> compiled.Err?)
    ensures r.Ok? ==> |r.value.artifacts| > 0 && r.value.artifacts[0].target == FileTarget(LayerPath(basedir, key))
  {
    if compiled.Err? && !compiled.error.LayerTimeConfigError? then Err(compiled.error)
    else
      var copy := Set(mapfile, "layers", List([]));
      var layers := if compiled.Ok? then compiled.value else [];
      if layers == [] then
        Ok(Visit([Artifact(FileTarget(LayerPath(basedir, key)), List([]))], mapfile, compiled.Err?))
      else
        var narrowed :- NarrowCopy(Set(copy, "layers", List(layers)), info);
        var layerFile := Artifact(FileTarget(LayerPath(basedir, key)), List(layers));
        if output == "file" then
          if useIncludes then
            var withInclude := Set(mapfile, "include", List([Str(LayerPath(basedir, key))]));
            Ok(Visit([layerFile, Artifact(FileTarget(DocPath(basedir, key)), Obj(withInclude))], withInclude, false))
          else
            Ok(Visit([layerFile, Artifact(FileTarget(DocPath(basedir, key)), Obj(narrowed))], mapfile, false))
        else if output == "store" then
          Ok(Visit([layerFile,
                   Artifact(StoreTarget(StoreKey(key + "_mapfile")), Obj(narrowed)),
                   Artifact(StoreTarget(StoreKey(key + "_layer")), List(layers))], mapfile, false))
        else
          Ok(Visit([layerFile], mapfile, false))
  }

  /** The loop's accumulated state: the writes so far, the include list,
      whether any time error occurred, the global mapfile, and the
      exception that stopped the loop, if any. */
  datatype Run = Run(artifacts: seq<Artifact>, includes: seq<string>, timeErrors: bool,
                     mapfile: Dict<Value>, failure: Option<Error>)

  /** The layer loop over `items`, in order, each with its compiler result. */
  function RunLayers(basedir: string, output: string, useIncludes: bool, mapfile: Dict<Value>,
                     items: Dict<LayerInfo>, compiled: seq<Result<seq<Value>, Error>>): (r: Run)
    requires |compiled| == |items|
    decreases |items|
  {
    if items == [] then Run([], [], false, mapfile, None)
    else
      var step := LayerStep(basedir, output, useIncludes, mapfile, items[0].0, items[0].1, compiled[0]);
      if step.Err? then Run([], [], false, mapfile, Some(step.error))
      else
        var rest := RunLayers(basedir, output, useIncludes, step.value.mapfile, items[1..], compiled[1..]);
        Run(step.value.artifacts + rest.artifacts, [LayerPath(basedir, items[0].0)] + rest.includes,
            step.value.timeError || rest.timeErrors, rest.mapfile, rest.failure)
  }

  /** The layers a run covers: the one named, or all of them. */
  function Selected(layers: Dict<LayerInfo>, layer: Option<string>): (r: Result<Dict<LayerInfo>, Error>)
    ensures layer.None? ==> r == Ok(layers)
    ensures layer.Some? ==> (r.Ok? <==> HasKey(layers, layer.value))
    ensures layer.Some? && r.Ok? ==> r.value == [(layer.value, Get(layers, layer.value).value)]
    ensures r.Err? ==> r.error == KeyError(layer.value)
  {
    match layer
    case None => Ok(layers)
    case Some(l) =>
      match Get(layers, l)
      case Some(info) => Ok([(l, info)])
      case None => Err(KeyError(l))
  }

  /** The global mapfile before the loop: the symbol catalog, `proj_lib`
      and the service metadata set on the base mapfile. */
  function Prepare(s: Setup): (r: Result<Dict<Value>, Error>)
    requires 0 <= s.webNow <= MaxInstant
  {
    var withSymbols := Set(s.base, "symbols", s.symbols);
    var withProj :- SetIn(withSymbols, "config", "proj_lib", Str(s.projLib));
    var web :- GenWebMetadata(Obj(withProj), s.service, s.url, Version1, s.webNow, false);
    SetIn(withProj, "web", "metadata", Obj(web))
  }

  /** The writes closing a full run: the global mapfile, its `include`
      pointing at every layer-only file, to disk and, for store output, to
      the store as well. */
  function GlobalWrites(basedir: string, output: string, run: Run): (r: seq<Artifact>)
    ensures |r| == if output == "store" then 2 else 1
    ensures r[0].target == FileTarget(GlobalPath(basedir)) && r[0].content.Obj?
    ensures Get(r[0].content.fields, "include") == Some(List(Strs(run.includes)))
    ensures output == "store" ==> r[1] == Artifact(StoreTarget(StoreKey("geomet-weather_mapfile")), r[0].content)
  {
    var global := Set(run.mapfile, "include", List(Strs(run.includes)));
    [Artifact(FileTarget(GlobalPath(basedir)), Obj(global))]
      + (if output == "store" then [Artifact(StoreTarget(StoreKey("geomet-weather_mapfile")), Obj(global))] else [])
  }

  /** The end of a run: the exception that stopped the loop, or the
      global writes of a full run and False exactly when a time error
      occurred. */
  function Complete(basedir: string, full: bool, output: string, run: Run): (r: Outcome)
    ensures r.result.Ok? <==> run.failure.None?
    ensures r.result.Err? ==> r == Outcome(run.artifacts, Err(run.failure.value))
    ensures r.result.Ok? ==> r.result.value == !run.timeErrors
    ensures r.result.Ok? ==> r.artifacts == run.artifacts + (if full then GlobalWrites(basedir, output, run) else [])
  {
    if run.failure.Some? then Outcome(run.artifacts, Err(run.failure.value))
    else if full then Outcome(run.artifacts + GlobalWrites(basedir, output, run), Ok(!run.timeErrors))
    else Outcome(run.artifacts, Ok(!run.timeErrors))
  }

  /** `generate_mapfile(layer, output, use_includes)`. */
  function GenerateMapfile(s: Setup, layer: Option<string>, output: string, useIncludes: bool): (r: Outcome)
    requires 0 <= s.webNow <= MaxInstant
    ensures Selected(s.layers, layer).Err? ==> r == Outcome([], Err(KeyError(layer.value)))
    ensures r.result.Ok? ==> Selected(s.layers, layer).Ok? && Prepare(s).Ok?
    ensures r.result.Ok? ==>
              var items := Selected(s.layers, layer).value;
              var run := RunLayers(s.basedir, output, useIncludes, Prepare(s).value, items, Compilations(s, items));
              && run.failure.None?
              && r.result.value == !run.timeErrors
              && r.artifacts == run.artifacts + (if layer.None? then GlobalWrites(s.basedir, output, run) else [])
  {
    match Selected(s.layers, layer)
    case Err(e) => Outcome([], Err(e))
    case Ok(items) =>
      match Prepare(s)
      case Err(e) => Outcome([], Err(e))
      case Ok(mapfile) =>
        Complete(s.basedir, layer.None?, output, RunLayers(s.basedir, output, useIncludes, mapfile, items, Compilations(s, items)))
  }

  // ---------------------------------------------------------------------
  // Properties

  /** A layer whose time configuration fails still gets its LAYER-only
      file, with no layers in it, and nothing else: no full document, no
      store keys, and the global mapfile is left as it was. */
  lemma TimeErrorStep(s: Setup, output: string, useIncludes: bool, mapfile: Dict<Value>, key: string, info: LayerInfo)
    requires !Truthy(RawGet(s.st, RegistryKey(key, "time_extent")))
    ensures LayerStep(s.basedir, output, useIncludes, mapfile, key, info, GenLayer(s.st, s.nowMicros, s.res, key, info))
            == Ok(Visit([Artifact(FileTarget(LayerPath(s.basedir, key)), List([]))], mapfile, true))
  {
    OnlyTimeErrorIsCaught(s.st, s.nowMicros, s.res, key, info);
  }

  /** A compiled layer's LAYER-only file holds its layers; the full
      document (file output) or the two store keys (store output) follow
      it, the store keys holding the narrowed copy and the layers. */
  lemma CompiledStep(basedir: string, output: string, useIncludes: bool, mapfile: Dict<Value>, key: string, info: LayerInfo,
                     layers: seq<Value>)
    requires layers != []
    requires LayerStep(basedir, output, useIncludes, mapfile, key, info, Ok(layers)).Ok?
    ensures var step := LayerStep(basedir, output, useIncludes, mapfile, key, info, Ok(layers)).value;
            var narrowed := NarrowCopy(Set(Set(mapfile, "layers", List([])), "layers", List(layers)), info);
            && narrowed.Ok?
            && !step.timeError
            && step.artifacts[0] == Artifact(FileTarget(LayerPath(basedir, key)), List(layers))
            && (output == "file" ==> |step.artifacts| == 2 && step.artifacts[1].target == FileTarget(DocPath(basedir, key)))
            && (output == "file" && useIncludes ==>
                  step.artifacts[1].content == Obj(step.mapfile)
                  && step.mapfile == Set(mapfile, "include", List([Str(LayerPath(basedir, key))]))
                  && Get(step.mapfile, "include") == Some(List([Str(LayerPath(basedir, key))]))
                  && forall k | k != "include" :: Get(step.mapfile, k) == Get(mapfile, k))
            && (output == "file" && !useIncludes ==> step.artifacts[1].content == Obj(narrowed.value) && step.mapfile == mapfile)
            && (output == "store" ==>
                  step.mapfile == mapfile
                  && step.artifacts[1..] == [Artifact(StoreTarget(StoreKey(key + "_mapfile")), Obj(narrowed.value)),
                                             Artifact(StoreTarget(StoreKey(key + "_layer")), List(layers))])
            && (output != "file" && output != "store" ==> |step.artifacts| == 1 && step.mapfile == mapfile)
  {
    var copy := Set(Set(mapfile, "layers", List([])), "layers", List(layers));
    var narrowed := NarrowCopy(copy, info);
    var layerFile := Artifact(FileTarget(LayerPath(basedir, key)), List(layers));
    var step := LayerStep(basedir, output, useIncludes, mapfile, key, info, Ok(layers)).value;
    if output == "file" {
      if useIncludes {
        var withInclude := Set(mapfile, "include", List([Str(LayerPath(basedir, key))]));
        assert step == Visit([layerFile, Artifact(FileTarget(DocPath(basedir, key)), Obj(withInclude))], withInclude, false);
      } else {
        assert step == Visit([layerFile, Artifact(FileTarget(DocPath(basedir, key)), Obj(narrowed.value))], mapfile, false);
      }
    } else if output == "store" {
      assert step == Visit([layerFile,
                            Artifact(StoreTarget(StoreKey(key + "_mapfile")), Obj(narrowed.value)),
                            Artifact(StoreTarget(StoreKey(key + "_layer")), List(layers))], mapfile, false);
    } else {
      assert step == Visit([layerFile], mapfile, false);
    }
  }

  /** A completed loop covered every layer: the include list is the
      layer-only path of every layer, in configuration order, whether or
      not the layer compiled. */
  lemma {:induction false} IncludesAllLayers(basedir: string, output: string, useIncludes: bool, mapfile: Dict<Value>,
                                             items: Dict<LayerInfo>, compiled: seq<Result<seq<Value>, Error>>)
    requires |compiled| == |items|
    requires RunLayers(basedir, output, useIncludes, mapfile, items, compiled).failure.None?
    ensures RunLayers(basedir, output, useIncludes, mapfile, items, compiled).includes == LayerPaths(basedir, items)
    decreases |items|
  {
    if items != [] {
      var step := LayerStep(basedir, output, useIncludes, mapfile, items[0].0, items[0].1, compiled[0]);
      IncludesAllLayers(basedir, output, useIncludes, step.value.mapfile, items[1..], compiled[1..]);
      LayerPathsCons(basedir, items);
    }
  }

  /** A completed loop met a time error exactly when some layer's time
      configuration failed; every other exception would have stopped it. */
  lemma {:induction false} TimeErrorsIff(basedir: string, output: string, useIncludes: bool, mapfile: Dict<Value>,
                                         items: Dict<LayerInfo>, compiled: seq<Result<seq<Value>, Error>>)
    requires |compiled| == |items|
    requires RunLayers(basedir, output, useIncludes, mapfile, items, compiled).failure.None?
    ensures RunLayers(basedir, output, useIncludes, mapfile, items, compiled).timeErrors
            <==> exists i | 0 <= i < |compiled| :: compiled[i].Err?
    ensures forall i | 0 <= i < |compiled| :: compiled[i].Ok? || compiled[i].error.LayerTimeConfigError?
    decreases |items|
  {
    if items != [] {
      var step := LayerStep(basedir, output, useIncludes, mapfile, items[0].0, items[0].1, compiled[0]);
      TimeErrorsIff(basedir, output, useIncludes, step.value.mapfile, items[1..], compiled[1..]);
      assert forall i | 1 <= i < |compiled| :: compiled[i] == compiled[1..][i - 1];
    }
  }

  /** A layer that raises anything but a time error stops the loop. */
  lemma OtherErrorsAbort(basedir: string, output: string, useIncludes: bool, mapfile: Dict<Value>,
                         items: Dict<LayerInfo>, compiled: seq<Result<seq<Value>, Error>>, i: int)
    requires |compiled| == |items|
    requires 0 <= i < |compiled| && compiled[i].Err? && !compiled[i].error.LayerTimeConfigError?
    ensures RunLayers(basedir, output, useIncludes, mapfile, items, compiled).failure.Some?
  {
    if RunLayers(basedir, output, useIncludes, mapfile, items, compiled).failure.None? {
      TimeErrorsIff(basedir, output, useIncludes, mapfile, items, compiled);
    }
  }

  /** `generate_mapfile` returns False exactly when some selected layer's
      time configuration failed, and completes only when no layer raised
      anything else. */
  lemma ResultIffTimeError(s: Setup, layer: Option<string>, output: string, useIncludes: bool)
    requires 0 <= s.webNow <= MaxInstant
    requires GenerateMapfile(s, layer, output, useIncludes).result.Ok?
    ensures var items := Selected(s.layers, layer).value;
            && (GenerateMapfile(s, layer, output, useIncludes).result == Ok(false)
                <==> exists i | 0 <= i < |items| :: GenLayer(s.st, s.nowMicros, s.res, items[i].0, items[i].1).Err?)
            && forall i | 0 <= i < |items| :: GenLayer(s.st, s.nowMicros, s.res, items[i].0, items[i].1).Ok?
                 || GenLayer(s.st, s.nowMicros, s.res, items[i].0, items[i].1).error.LayerTimeConfigError?
  {
    var items := Selected(s.layers, layer).value;
    TimeErrorsIff(s.basedir, output, useIncludes, Prepare(s).value, items, Compilations(s, items));
  }

  /** A full run ends with the global mapfile, whose `include` lists the
      layer-only file of every configured layer in configuration order,
      written to disk and, for store output, to the store too. */
  lemma GlobalMapfile(s: Setup, output: string, useIncludes: bool)
    requires 0 <= s.webNow <= MaxInstant
    requires GenerateMapfile(s, None, output, useIncludes).result.Ok?
    ensures var arts := GenerateMapfile(s, None, output, useIncludes).artifacts;
            var n := if output == "store" then 2 else 1;
            && |arts| >= n
            && arts[|arts| - n].target == FileTarget(GlobalPath(s.basedir))
            && arts[|arts| - n].content.Obj?
            && Get(arts[|arts| - n].content.fields, "include") == Some(List(Strs(LayerPaths(s.basedir, s.layers))))
            && (output == "store" ==> arts[|arts| - 1] == Artifact(StoreTarget(StoreKey("geomet-weather_mapfile")), arts[|arts| - 2].content))
  {
    var run := RunLayers(s.basedir, output, useIncludes, Prepare(s).value, s.layers, Compilations(s, s.layers));
    IncludesAllLayers(s.basedir, output, useIncludes, Prepare(s).value, s.layers, Compilations(s, s.layers));
    var arts := GenerateMapfile(s, None, output, useIncludes).artifacts;
    var tail := GlobalWrites(s.basedir, output, run);
    assert arts == run.artifacts + tail;
    assert arts[|arts| - |tail|..] == tail;
  }

  /** The paths and keys written are the ones the WSGI handler looks up:
      a layer's full mapfile, the global mapfile, and a layer's stored
      mapfile read back through the store's key prefix. */
  lemma PathsMatchHandler(basedir: string, key: string, doc: string)
    ensures DocPath(basedir, key) == Request.LayerMapfilePath(basedir, key)
    ensures GlobalPath(basedir) == Request.GlobalMapfilePath(basedir)
    ensures Request.StoreGet(map[StoreKey(key + "_mapfile") := doc], key + "_mapfile") == Some(doc)
  {
    DocPathMatches(basedir, key);
    GlobalPathMatches(basedir);
  }

  lemma DocPathMatches(basedir: string, key: string)
    ensures DocPath(basedir, key) == Request.LayerMapfilePath(basedir, key)
  {
  }

  lemma GlobalPathMatches(basedir: string)
    ensures GlobalPath(basedir) == Request.GlobalMapfilePath(basedir)
  {
  }
}

=== FILE: assembler3.dfy ===
/** `generate(layer, map_, output)` of geomet3_mapfile/mapfile.py as an
    artifact plan: the files and store keys it writes, in order. Unlike the
    first generation, any exception of the layer compiler stops the run,
    each layer is written once (a full document or its layers only), and
    the global mapfile holds the layers themselves rather than includes. */
module Assembler3 {
  import opened Wrappers
  import opened Dicts
  import opened Errors
  import opened Values
  import opened Calendar
  import opened LayerConfig
  import opened WebMetadata
  import opened Layer3
  import opened Documents
  import Assembler
  import Request

  /** Everything `generate` reads: the base directory, the service URL, the
      base mapfile and the symbol catalog, the configured layers (in
      configuration order) and service metadata, the clock reading
      `gen_web_metadata` takes, the environment and the files the layer
      compiler opens. */
  datatype Setup3 = Setup3(
    basedir: string,
    url: string,
    base: Dict<Value>,
    symbols: Value,
    layers: Dict<LayerInfo>,
    service: ServiceConfig,
    webNow: int,
    env: Env,
    res: Resources3)

  /** What a run produced: the writes it made, in order, and the exception
      that stopped it, if any (`generate` returns nothing). */
  datatype Outcome3 = Outcome3(artifacts: seq<Artifact>, failure: Option<Error>)

  /** The file a layer is written to: its full mapfile with `map_`, its
      layer-only mapfile without. */
  function LayerFile3(basedir: string, key: string, withMap: bool): string {
    Assembler.OutputDir(basedir) + "/geomet-weather-" + key + (if withMap then ".map" else "_layer.map")
  }

  /** The store key a layer is written to. The geomet3 store writes keys
      as given: unlike geomet_mapfile's, it adds no prefix. */
  function LayerKey3(key: string, withMap: bool): string {
    key + (if withMap then "_mapfile" else "_layer")
  }

  /** What the layer compiler returns for each layer, in order. The
      compiler is pure here, so computing every result up front and then
      running the loop over them is the same as calling it in the loop. */
  function Compilations3(s: Setup3, items: Dict<LayerInfo>): (r: seq<Result<seq<Value>, Error>>)
    ensures |r| == |items|
    ensures forall i | 0 <= i < |items| :: r[i] == GenLayer3(s.env, s.res, items[i].0, items[i].1)
  {
    seq(|items|, i requires 0 <= i < |items| => GenLayer3(s.env, s.res, items[i].0, items[i].1))
  }

  /** The one write of a layer, if the output is one `generate` knows. */
  function LayerWrites3(basedir: string, withMap: bool, output: string, key: string,
                        narrowed: Dict<Value>, layers: seq<Value>): (r: seq<Artifact>)
    ensures |r| == if output == "mapfile" || output == "store" then 1 else 0
    ensures |r| == 1 ==> r[0].content == if withMap then Obj(narrowed) else List(layers)
    ensures output == "mapfile" ==> r[0].target == FileTarget(LayerFile3(basedir, key, withMap))
    ensures output == "store" ==> r[0].target == StoreTarget(LayerKey3(key, withMap))
  {
    var content := if withMap then Obj(narrowed) else List(layers);
    if output == "mapfile" then [Artifact(FileTarget(LayerFile3(basedir, key, withMap)), content)]
    else if output == "store" then [Artifact(StoreTarget(LayerKey3(key, withMap)), content)]
    else []
  }

  /** What one layer's iteration leaves: its writes, and the layers it
      adds to the global list. */
  datatype Written3 = Written3(writes: seq<Artifact>, layers: seq<Value>)

  /** One iteration of the layer loop, given what the layer compiler
      returned: its writes, or the exception that stops the run. */
  function LayerStep3(basedir: string, withMap: bool, output: string, mapfile: Dict<Value>,
                      key: string, info: LayerInfo, compiled: Result<seq<Value>, Error>): (r: Result<Written3, Error>)
    ensures compiled.Err? ==> r == Err(compiled.error)
    ensures r.Ok? ==> compiled.Ok? && r.value.layers == compiled.value
    ensures r.Ok? ==> |r.value.writes| == if output == "mapfile" || output == "store" then 1 else 0
    ensures r.Ok? && output == "mapfile" ==> r.value.writes[0].target == FileTarget(LayerFile3(basedir, key, withMap))
    ensures r.Ok? && output == "store" ==> r.value.writes[0].target == StoreTarget(LayerKey3(key, withMap))
    ensures r.Ok? && !withMap && |r.value.writes| == 1 ==> r.value.writes[0].content == List(compiled.value)
  {
    var layers :- compiled;
    var narrowed :- NarrowCopy(Set(Set(mapfile, "layers", List([])), "layers", List(layers)), info);
    Ok(Written3(LayerWrites3(basedir, withMap, output, key, narrowed, layers), layers))
  }

  /** The iterations of every layer in order. The global mapfile each copy
      starts from does not change during the loop, so the iterations are
      independent of one another. */
  function Steps3(basedir: string, withMap: bool, output: string, mapfile: Dict<Value>,
                  items: Dict<LayerInfo>, compiled: seq<Result<seq<Value>, Error>>): (r: seq<Result<Written3, Error>>)
    requires |compiled| == |items|
    ensures |r| == |items|
    ensures forall i | 0 <= i < |items| :: r[i] == LayerStep3(basedir, withMap, output, mapfile, items[i].0, items[i].1, compiled[i])
  {
    seq(|items|, i requires 0 <= i < |items| => LayerStep3(basedir, withMap, output, mapfile, items[i].0, items[i].1, compiled[i]))
  }

  /** The loop's accumulated state: the writes so far, every layer
      compiled so far, and the exception that stopped the loop, if any. */
  datatype Run3 = Run3(artifacts: seq<Artifact>, all: seq<Value>, failure: Option<Error>)

  /** The layer loop: the iterations in order, up to the first that raised. */
  function RunLayers3(steps: seq<Result<Written3, Error>>): (r: Run3)
  {
    if steps == [] then Run3([], [], None)
    else if steps[0].Err? then Run3([], [], Some(steps[0].error))
    else
      var rest := RunLayers3(steps[1..]);
      Run3(steps[0].value.writes + rest.artifacts, steps[0].value.layers + rest.all, rest.failure)
  }

  /** The layers of every compiled layer, concatenated in order. */
  function Flatten(compiled: seq<Result<seq<Value>, Error>>): (r: seq<Value>)
  {
    if compiled == [] then []
    else (if compiled[0].Ok? then compiled[0].value else []) + Flatten(compiled[1..])
  }

  /** The global mapfile before the loop: the symbol catalog and the
      service metadata set on the base mapfile. */
  function Prepare3(s: Setup3): (r: Result<Dict<Value>, Error>)
    requires 0 <= s.webNow <= MaxInstant
    ensures r.Ok? ==> KeyList(r.value) == KeyList(Set(s.base, "symbols", s.symbols))
    ensures r.Ok? ==> Get(r.value, "symbols") == Some(s.symbols)
  {
    var withSymbols := Set(s.base, "symbols", s.symbols);
    var web :- GenWebMetadata(Obj(withSymbols), s.service, s.url, Version3, s.webNow, true);
    SetIn(withSymbols, "web", "metadata", Obj(web))
  }

  /** The writes closing a full run: the global mapfile holding every
      compiled layer, to disk for `mapfile` output or to the store for
      `store` output. */
  function GlobalWrites3(basedir: string, output: string, mapfile: Dict<Value>, all: seq<Value>): (r: seq<Artifact>)
    ensures |r| == if output == "mapfile" || output == "store" then 1 else 0
    ensures |r| == 1 ==> r[0].content.Obj? && Get(r[0].content.fields, "layers") == Some(List(all))
    ensures output == "mapfile" ==> r[0].target == FileTarget(Assembler.GlobalPath(basedir))
    ensures output == "store" ==> r[0].target == StoreTarget("geomet-weather_mapfile")
  {
    var global := Obj(Set(mapfile, "layers", List(all)));
    if output == "mapfile" then [Artifact(FileTarget(Assembler.GlobalPath(basedir)), global)]
    else if output == "store" then [Artifact(StoreTarget("geomet-weather_mapfile"), global)]
    else []
  }

  /** The end of a run: the exception that stopped the loop, or the global
      writes of a full run. */
  function Complete3(basedir: string, full: bool, output: string, mapfile: Dict<Value>, run: Run3): (r: Outcome3)
    ensures r.failure == run.failure
    ensures r.failure.Some? ==> r.artifacts == run.artifacts
    ensures r.failure.None? ==> r.artifacts == run.artifacts + (if full then GlobalWrites3(basedir, output, mapfile, run.all) else [])
  {
    if run.failure.Some? then Outcome3(run.artifacts, run.failure)
    else if full then Outcome3(run.artifacts + GlobalWrites3(basedir, output, mapfile, run.all), None)
    else Outcome3(run.artifacts, None)
  }

  /** `generate(layer, map_, output)`; the final copy of the EPSG file is
      not part of the plan. */
  function Generate(s: Setup3, layer: Option<string>, withMap: bool, output: string): (r: Outcome3)
    requires 0 <= s.webNow <= MaxInstant
    ensures Assembler.Selected(s.layers, layer).Err? ==> r == Outcome3([], Some(KeyError(layer.value)))
    ensures r.failure.None? ==> Assembler.Selected(s.layers, layer).Ok? && Prepare3(s).Ok?
    ensures r.failure.None? ==>
              var items := Assembler.Selected(s.layers, layer).value;
              var run := RunLayers3(Steps3(s.basedir, withMap, output, Prepare3(s).value, items, Compilations3(s, items)));
              && run.failure.None?
              && r.artifacts == run.artifacts + (if layer.None? then GlobalWrites3(s.basedir, output, Prepare3(s).value, run.all) else [])
  {
    match Assembler.Selected(s.layers, layer)
    case Err(e) => Outcome3([], Some(e))
    case Ok(items) =>
      match Prepare3(s)
      case Err(e) => Outcome3([], Some(e))
      case Ok(mapfile) =>
        Complete3(s.basedir, layer.None?, output, mapfile,
                  RunLayers3(Steps3(s.basedir, withMap, output, mapfile, items, Compilations3(s, items))))
  }

  // ---------------------------------------------------------------------
  // Properties

  /** A completed loop went through every iteration, and collected their
      layers in order, each iteration's list kept together. */
  lemma {:induction false} LoopCompletes(steps: seq<Result<Written3, Error>>)
    requires RunLayers3(steps).failure.None?
    ensures forall i | 0 <= i < |steps| :: steps[i].Ok?
    ensures RunLayers3(steps).artifacts == Writes(steps)
    ensures RunLayers3(steps).all == Flatten(seq(|steps|, i requires 0 <= i < |steps| => if steps[i].Ok? then Ok(steps[i].value.layers) else Err(IndexError)))
  {
    if steps != [] {
      LoopCompletes(steps[1..]);
      forall i | 0 <= i < |steps| ensures steps[i].Ok? {
        if i > 0 {
          assert steps[i] == steps[1..][i - 1];
        }
      }
      var lists := seq(|steps|, i requires 0 <= i < |steps| => if steps[i].Ok? then Ok(steps[i].value.layers) else Err(IndexError));
      var rest := seq(|steps[1..]|, i requires 0 <= i < |steps[1..]| => if steps[1..][i].Ok? then Ok(steps[1..][i].value.layers) else Err(IndexError));
      assert lists[1..] == rest;
    }
  }

  /** The writes of every iteration that went through, concatenated in
      order. */
  function Writes(steps: seq<Result<Written3, Error>>): (r: seq<Artifact>)
  {
    if steps == [] then []
    else (if steps[0].Ok? then steps[0].value.writes else []) + Writes(steps[1..])
  }

  /** An iteration that raised stops the loop; when every iteration before
      it went through, the loop stops with its exception. */
  lemma {:induction false} ErrorStops(steps: seq<Result<Written3, Error>>, i: int)
    requires 0 <= i < |steps| && steps[i].Err?
    ensures RunLayers3(steps).failure.Some?
    ensures (forall j | 0 <= j < i :: steps[j].Ok?) ==> RunLayers3(steps).failure == Some(steps[i].error)
  {
    if i > 0 && steps[0].Ok? {
      ErrorStops(steps[1..], i - 1);
      assert steps[1..][i - 1] == steps[i];
      if forall j | 0 <= j < i :: steps[j].Ok? {
        assert forall j | 0 <= j < i - 1 :: steps[1..][j] == steps[j + 1];
      }
    }
  }

  /** A layer whose compiler raised stops `generate` with an exception,
      and with its own exception when every layer before it went through. */
  lemma CompilerErrorAborts(s: Setup3, layer: Option<string>, withMap: bool, output: string, i: int)
    requires 0 <= s.webNow <= MaxInstant
    requires Assembler.Selected(s.layers, layer).Ok? && Prepare3(s).Ok?
    requires 0 <= i < |Assembler.Selected(s.layers, layer).value|
    requires var item := Assembler.Selected(s.layers, layer).value[i];
             GenLayer3(s.env, s.res, item.0, item.1).Err?
    ensures Generate(s, layer, withMap, output).failure.Some?
    ensures var items := Assembler.Selected(s.layers, layer).value;
            var steps := Steps3(s.basedir, withMap, output, Prepare3(s).value, items, Compilations3(s, items));
            (forall j | 0 <= j < i :: steps[j].Ok?)
            ==> Generate(s, layer, withMap, output).failure == Some(GenLayer3(s.env, s.res, items[i].0, items[i].1).error)
  {
    var items := Assembler.Selected(s.layers, layer).value;
    var steps := Steps3(s.basedir, withMap, output, Prepare3(s).value, items, Compilations3(s, items));
    ErrorStops(steps, i);
  }

  /** A compiled layer goes through exactly when narrowing its copy of
      the global mapfile succeeds; with `map_` its write holds the copy
      holding its layers, narrowed. */
  lemma StepNarrows(basedir: string, withMap: bool, output: string, mapfile: Dict<Value>, key: string, info: LayerInfo,
                    layers: seq<Value>)
    ensures var narrowed := NarrowCopy(Set(Set(mapfile, "layers", List([])), "layers", List(layers)), info);
            var step := LayerStep3(basedir, withMap, output, mapfile, key, info, Ok(layers));
            && (step.Ok? <==> narrowed.Ok?)
            && (step.Ok? && withMap && |step.value.writes| == 1 ==> step.value.writes[0].content == Obj(narrowed.value))
  {
  }

  /** The layers every iteration collects are the ones its compiler
      returned. */
  lemma {:induction false} CollectedAreCompiled(basedir: string, withMap: bool, output: string, mapfile: Dict<Value>,
                                                items: Dict<LayerInfo>, compiled: seq<Result<seq<Value>, Error>>)
    requires |compiled| == |items|
    requires forall i | 0 <= i < |items| :: Steps3(basedir, withMap, output, mapfile, items, compiled)[i].Ok?
    ensures var steps := Steps3(basedir, withMap, output, mapfile, items, compiled);
            Flatten(seq(|steps|, i requires 0 <= i < |steps| => if steps[i].Ok? then Ok(steps[i].value.layers) else Err(IndexError)))
            == Flatten(compiled)
  {
    var steps := Steps3(basedir, withMap, output, mapfile, items, compiled);
    var lists := seq(|steps|, i requires 0 <= i < |steps| => if steps[i].Ok? then Ok(steps[i].value.layers) else Err(IndexError));
    assert lists == compiled;
  }

  /** A full run ends with one global mapfile whose `layers` are the
      layers of every configured layer, concatenated in configuration
      order, after one write per layer. */
  lemma GlobalLayers(s: Setup3, withMap: bool, output: string)
    requires 0 <= s.webNow <= MaxInstant
    requires output == "mapfile" || output == "store"
    requires Generate(s, None, withMap, output).failure.None?
    ensures var arts := Generate(s, None, withMap, output).artifacts;
            var compiled := Compilations3(s, s.layers);
            && |arts| > 0
            && arts[|arts| - 1].target == (if output == "mapfile" then FileTarget(Assembler.GlobalPath(s.basedir))
                                           else StoreTarget("geomet-weather_mapfile"))
            && arts[|arts| - 1].content.Obj?
            && (forall i | 0 <= i < |compiled| :: compiled[i].Ok?)
            && Get(arts[|arts| - 1].content.fields, "layers") == Some(List(Flatten(compiled)))
  {
    var mapfile := Prepare3(s).value;
    var compiled := Compilations3(s, s.layers);
    var run := RunLayers3(Steps3(s.basedir, withMap, output, mapfile, s.layers, compiled));
    GlobalOfRun(s.basedir, withMap, output, mapfile, s.layers, compiled);
    var arts := Generate(s, None, withMap, output).artifacts;
    var tail := GlobalWrites3(s.basedir, output, mapfile, run.all);
    assert arts[|arts| - 1] == tail[0];
  }

  /** The global write after a completed loop holds every compiled
      layer, in order. */
  lemma GlobalOfRun(basedir: string, withMap: bool, output: string, mapfile: Dict<Value>,
                    items: Dict<LayerInfo>, compiled: seq<Result<seq<Value>, Error>>)
    requires |compiled| == |items|
    requires output == "mapfile" || output == "store"
    requires RunLayers3(Steps3(basedir, withMap, output, mapfile, items, compiled)).failure.None?
    ensures var tail := GlobalWrites3(basedir, output, mapfile, RunLayers3(Steps3(basedir, withMap, output, mapfile, items, compiled)).all);
            && |tail| == 1
            && (forall i | 0 <= i < |compiled| :: compiled[i].Ok?)
            && Get(tail[0].content.fields, "layers") == Some(List(Flatten(compiled)))
  {
    var steps := Steps3(basedir, withMap, output, mapfile, items, compiled);
    LoopCompletes(steps);
    CollectedAreCompiled(basedir, withMap, output, mapfile, items, compiled);
  }

  /** When every iteration wrote one document, the loop's writes are
      those documents, one per iteration, in order. */
  lemma {:induction false} SingleWrites(steps: seq<Result<Written3, Error>>)
    requires forall i | 0 <= i < |steps| :: steps[i].Ok? && |steps[i].value.writes| == 1
    ensures |Writes(steps)| == |steps|
    ensures forall i | 0 <= i < |steps| :: Writes(steps)[i] == steps[i].value.writes[0]
  {
    if steps != [] {
      assert forall i | 0 <= i < |steps[1..]| :: steps[1..][i] == steps[i + 1];
      SingleWrites(steps[1..]);
    }
  }

  /** Every configured layer of a completed run is written exactly once,
      in configuration order, to its own file or store key. */
  lemma OneWritePerLayer(basedir: string, withMap: bool, output: string, mapfile: Dict<Value>,
                         items: Dict<LayerInfo>, compiled: seq<Result<seq<Value>, Error>>)
    requires |compiled| == |items|
    requires output == "mapfile" || output == "store"
    requires forall i | 0 <= i < |items| :: Steps3(basedir, withMap, output, mapfile, items, compiled)[i].Ok?
    ensures var arts := Writes(Steps3(basedir, withMap, output, mapfile, items, compiled));
            && |arts| == |items|
            && forall i | 0 <= i < |items| ::
                 arts[i].target == (if output == "mapfile" then FileTarget(LayerFile3(basedir, items[i].0, withMap))
                                    else StoreTarget(LayerKey3(items[i].0, withMap)))
  {
    var steps := Steps3(basedir, withMap, output, mapfile, items, compiled);
    SingleWrites(steps);
  }

  /** With `map_`, the written files are the ones the WSGI handlers look
      up: a layer's own mapfile, then the global one. */
  lemma MapPathsMatchHandler(basedir: string, key: string)
    ensures LayerFile3(basedir, key, true) == Request.LayerMapfilePath(basedir, key)
    ensures Assembler.GlobalPath(basedir) == Request.GlobalMapfilePath(basedir)
  {
    Assembler.DocPathMatches(basedir, key);
    Assembler.GlobalPathMatches(basedir);
  }
}

=== FILE: calendar.dfy ===
/** The proleptic Gregorian calendar of Python's `datetime`, years 1 to 9999,
    and its bijection with instants counted in whole seconds from
    0001-01-01T00:00:00. */
module Calendar {

  const SecondsPerDay: int := 86400

  /** The last second `datetime` can represent, 9999-12-31T23:59:59. */
  const MaxInstant: int := 315537897599

  predicate IsLeapYear(y: int) {
    y % 4 == 0 && (y % 100 != 0 || y % 400 == 0)
  }

  function DaysInYear(y: int): int {
    if IsLeapYear(y) then 366 else 365
  }

  function DaysInMonth(y: int, m: int): (n: int)
    requires 1 <= m <= 12
    ensures 28 <= n <= 31
  {
    if m == 2 then (if IsLeapYear(y) then 29 else 28)
    else if m == 4 || m == 6 || m == 9 || m == 11 then 30
    else 31
  }

  /** Days from 0001-01-01 to January 1st of year `y`. */
  function DaysBeforeYear(y: int): int
    requires y >= 1
  {
    365 * (y - 1) + (y - 1) / 4 - (y - 1) / 100 + (y - 1) / 400
  }

  /** Days from January 1st to the first of month `m` of year `y`. */
  function DaysBeforeMonth(y: int, m: int): int
    requires 1 <= m <= 12
  {
    var common := if m == 1 then 0 else if m == 2 then 31 else if m == 3 then 59
      else if m == 4 then 90 else if m == 5 then 120 else if m == 6 then 151
      else if m == 7 then 181 else if m == 8 then 212 else if m == 9 then 243
      else if m == 10 then 273 else if m == 11 then 304 else 334;
    if m > 2 && IsLeapYear(y) then common + 1 else common
  }

  lemma DivStep4(x: int)
    ensures x / 4 - (x - 1) / 4 == if x % 4 == 0 then 1 else 0
  {
  }

  lemma DivStep100(x: int)
    ensures x / 100 - (x - 1) / 100 == if x % 100 == 0 then 1 else 0
  {
  }

  lemma DivStep400(x: int)
    ensures x / 400 - (x - 1) / 400 == if x % 400 == 0 then 1 else 0
  {
  }

  lemma DaysBeforeYearStep(y: int)
    requires y >= 1
    ensures DaysBeforeYear(y + 1) == DaysBeforeYear(y) + DaysInYear(y)
  {
    var a, b, c := y / 4 - (y - 1) / 4, y / 100 - (y - 1) / 100, y / 400 - (y - 1) / 400;
    assert DaysBeforeYear(y + 1) - DaysBeforeYear(y) == 365 + a - b + c;
    DivStep4(y);
    DivStep100(y);
    DivStep400(y);
    LeapDivisors(y);
  }

  lemma LeapDivisors(y: int)
    ensures y % 400 == 0 ==> y % 100 == 0
    ensures y % 100 == 0 ==> y % 4 == 0
  {
  }

  lemma DaysBeforeMonthStep(y: int, m: int)
    requires 1 <= m <= 12
    ensures DaysBeforeMonth(y, m) + DaysInMonth(y, m) == if m == 12 then DaysInYear(y) else DaysBeforeMonth(y, m + 1)
  {
  }

  /** Earlier years start earlier: the calendar never runs backwards. */
  lemma {:induction false} DaysBeforeYearMonotone(a: int, b: int)
    requires 1 <= a < b
    ensures DaysBeforeYear(a + 1) <= DaysBeforeYear(b)
    decreases b - a
  {
    DaysBeforeYearStep(a);
    if a + 1 < b {
      DaysBeforeYearMonotone(a + 1, b);
      DaysBeforeYearStep(a + 1);
    }
  }

  lemma {:induction false} DaysBeforeMonthMonotone(y: int, a: int, b: int)
    requires 1 <= a < b <= 12
    ensures DaysBeforeMonth(y, a + 1) <= DaysBeforeMonth(y, b)
    decreases b - a
  {
    DaysBeforeMonthStep(y, a);
    if a + 1 < b {
      DaysBeforeMonthMonotone(y, a + 1, b);
      DaysBeforeMonthStep(y, a + 1);
    }
  }

  /** A day inside month `m` is inside the year. */
  lemma DayOfYearBound(y: int, m: int)
    requires 1 <= m <= 12
    ensures DaysBeforeMonth(y, m) + DaysInMonth(y, m) <= DaysInYear(y)
  {
    DaysBeforeMonthStep(y, m);
    if m < 12 {
      DaysBeforeMonthMonotone(y, m, 12);
      DaysBeforeMonthStep(y, 12);
    }
  }

  /** Year `y` lies within the range `datetime` supports exactly when its
      days lie before the end of year 9999. */
  lemma YearBound(y: int)
    requires y >= 1
    ensures DaysBeforeYear(y + 1) == DaysBeforeYear(y) + DaysInYear(y)
    ensures y <= 9999 <==> DaysBeforeYear(y) < DaysBeforeYear(10000)
    ensures DaysBeforeYear(10000) * SecondsPerDay == MaxInstant + 1
  {
    DaysBeforeYearStep(y);
    if y < 9999 {
      DaysBeforeYearMonotone(y, 9999);
    } else if y > 10000 {
      DaysBeforeYearMonotone(10000, y);
    }
    DaysBeforeYearStep(9999);
    DaysBeforeYearStep(10000);
  }

  datatype DateTime = DateTime(year: int, month: int, day: int, hour: int, minute: int, second: int)

  /** What `datetime(...)` accepts (without microseconds). */
  predicate Valid(dt: DateTime) {
    && 1 <= dt.year <= 9999
    && 1 <= dt.month <= 12
    && 1 <= dt.day <= DaysInMonth(dt.year, dt.month)
    && 0 <= dt.hour < 24
    && 0 <= dt.minute < 60
    && 0 <= dt.second < 60
  }

  /** The instant of a valid date-time, in seconds since 0001-01-01T00:00:00. */
  function ToInstant(dt: DateTime): (t: int)
    requires Valid(dt)
    ensures 0 <= t <= MaxInstant
  {
    DayOfYearBound(dt.year, dt.month);
    YearBound(dt.year);
    var days := DaysBeforeYear(dt.year) + DaysBeforeMonth(dt.year, dt.month) + dt.day - 1;
    days * SecondsPerDay + dt.hour * 3600 + dt.minute * 60 + dt.second
  }

  /** The year containing day number `n`, searched upwards from year `y`. */
  function FindYear(y: int, n: int): (r: int)
    requires y >= 1 && DaysBeforeYear(y) <= n
    ensures r >= y && DaysBeforeYear(r) <= n < DaysBeforeYear(r + 1)
    decreases n - DaysBeforeYear(y)
  {
    DaysBeforeYearStep(y);
    if n < DaysBeforeYear(y + 1) then y else FindYear(y + 1, n)
  }

  /** The month of year `y` containing day `r` of the year, searched upwards from `m`. */
  function FindMonth(y: int, m: int, r: int): (res: int)
    requires 1 <= m <= 12 && DaysBeforeMonth(y, m) <= r < DaysInYear(y)
    ensures m <= res <= 12
    ensures DaysBeforeMonth(y, res) <= r < DaysBeforeMonth(y, res) + DaysInMonth(y, res)
    decreases 12 - m
  {
    DaysBeforeMonthStep(y, m);
    if m == 12 || r < DaysBeforeMonth(y, m + 1) then m else FindMonth(y, m + 1, r)
  }

  /** The date-time of an instant: the inverse of `ToInstant`. */
  function FromInstant(t: int): (dt: DateTime)
    requires 0 <= t <= MaxInstant
    ensures Valid(dt) && ToInstant(dt) == t
  {
    var days := t / SecondsPerDay;
    var secs := t % SecondsPerDay;
    var y := FindYear(1, days);
    YearBound(y);
    var m := FindMonth(y, 1, days - DaysBeforeYear(y));
    var d := days - DaysBeforeYear(y) - DaysBeforeMonth(y, m) + 1;
    DateTime(y, m, d, secs / 3600, secs % 3600 / 60, secs % 60)
  }

  /** A day number lies in exactly one year. */
  lemma YearUnique(y1: int, y2: int, n: int)
    requires y1 >= 1 && DaysBeforeYear(y1) <= n < DaysBeforeYear(y1 + 1)
    requires y2 >= 1 && DaysBeforeYear(y2) <= n < DaysBeforeYear(y2 + 1)
    ensures y1 == y2
  {
    if y1 < y2 {
      DaysBeforeYearMonotone(y1, y2);
    } else if y2 < y1 {
      DaysBeforeYearMonotone(y2, y1);
    }
  }

  /** A day of the year lies in exactly one month. */
  lemma MonthUnique(y: int, m1: int, m2: int, r: int)
    requires 1 <= m1 <= 12 && DaysBeforeMonth(y, m1) <= r < DaysBeforeMonth(y, m1) + DaysInMonth(y, m1)
    requires 1 <= m2 <= 12 && DaysBeforeMonth(y, m2) <= r < DaysBeforeMonth(y, m2) + DaysInMonth(y, m2)
    ensures m1 == m2
  {
    DaysBeforeMonthStep(y, m1);
    DaysBeforeMonthStep(y, m2);
    if m1 < m2 {
      DaysBeforeMonthMonotone(y, m1, m2);
    } else if m2 < m1 {
      DaysBeforeMonthMonotone(y, m2, m1);
    }
  }

  /** Splitting a number of seconds into days and seconds of the day. */
  lemma DaySplit(days: int, secs: int)
    requires 0 <= secs < SecondsPerDay
    ensures (days * SecondsPerDay + secs) / SecondsPerDay == days
    ensures (days * SecondsPerDay + secs) % SecondsPerDay == secs
  {
  }

  /** Splitting the seconds of a day into hours, minutes and seconds. */
  lemma ClockSplit(h: int, m: int, s: int)
    requires 0 <= h < 24 && 0 <= m < 60 && 0 <= s < 60
    ensures (h * 3600 + m * 60 + s) / 3600 == h
    ensures (h * 3600 + m * 60 + s) % 3600 / 60 == m
    ensures (h * 3600 + m * 60 + s) % 60 == s
  {
  }

  /** `ToInstant` is injective on valid date-times: the other half of the
      bijection `FromInstant` states. */
  lemma FromToInstant(dt: DateTime)
    requires Valid(dt)
    ensures FromInstant(ToInstant(dt)) == dt
  {
    var t := ToInstant(dt);
    var doy := DaysBeforeMonth(dt.year, dt.month) + dt.day - 1;
    var days := DaysBeforeYear(dt.year) + doy;
    var secs := dt.hour * 3600 + dt.minute * 60 + dt.second;
    assert t == days * SecondsPerDay + secs;
    DaySplit(days, secs);
    ClockSplit(dt.hour, dt.minute, dt.second);
    DayOfYearBound(dt.year, dt.month);
    YearBound(dt.year);
    var y := FindYear(1, days);
    YearUnique(dt.year, y, days);
    var m := FindMonth(y, 1, days - DaysBeforeYear(y));
    MonthUnique(dt.year, dt.month, m, doy);
  }
}

=== FILE: dicts.dfy ===
/** Python `dict` semantics on an association list: keys are kept in first
    insertion order, and assigning an existing key replaces its value in
    place (the last writer wins, the first writer fixes the position). */
module Dicts {
  import opened Wrappers

  type Dict<V> = seq<(string, V)>

  function KeyList<V>(d: Dict<V>): (ks: seq<string>)
    ensures |ks| == |d|
    ensures forall i | 0 <= i < |d| :: ks[i] == d[i].0
  {
    if |d| == 0 then [] else [d[0].0] + KeyList(d[1..])
  }

  predicate HasKey<V>(d: Dict<V>, k: string) {
    exists i | 0 <= i < |d| :: d[i].0 == k
  }

  predicate UniqueKeys<V>(d: Dict<V>) {
    forall i, j | 0 <= i < j < |d| :: d[i].0 != d[j].0
  }

  /** `d.get(k)`: the value stored under `k`, if any. */
  function Get<V>(d: Dict<V>, k: string): (r: Option<V>)
    ensures r.Some? <==> HasKey(d, k)
    ensures r.Some? ==> exists i | 0 <= i < |d| :: d[i] == (k, r.value)
  {
    if |d| == 0 then None
    else if d[0].0 == k then Some(d[0].1)
    else
      var r := Get(d[1..], k);
      assert forall i | 0 <= i < |d| - 1 :: d[1..][i] == d[i + 1];
      r
  }

  /** `d[k] = v` */
  function Set<V>(d: Dict<V>, k: string, v: V): (r: Dict<V>)
    ensures Get(r, k) == Some(v)
    ensures forall k' | k' != k :: Get(r, k') == Get(d, k')
    ensures HasKey(d, k) ==> KeyList(r) == KeyList(d)
    ensures !HasKey(d, k) ==> KeyList(r) == KeyList(d) + [k]
  {
    if |d| == 0 then [(k, v)]
    else if d[0].0 == k then [(k, v)] + d[1..]
    else
      var rest := Set(d[1..], k, v);
      SetCons(d, k, v, rest);
      [d[0]] + rest
  }

  /** The assignment's contract carries over from the tail of a
      dictionary whose first key is another one. */
  lemma SetCons<V>(d: Dict<V>, k: string, v: V, rest: Dict<V>)
    requires |d| > 0 && d[0].0 != k
    requires Get(rest, k) == Some(v)
    requires forall k' | k' != k :: Get(rest, k') == Get(d[1..], k')
    requires HasKey(d[1..], k) ==> KeyList(rest) == KeyList(d[1..])
    requires !HasKey(d[1..], k) ==> KeyList(rest) == KeyList(d[1..]) + [k]
    ensures var r := [d[0]] + rest;
            && Get(r, k) == Some(v)
            && (forall k' | k' != k :: Get(r, k') == Get(d, k'))
            && (HasKey(d, k) ==> KeyList(r) == KeyList(d))
            && (!HasKey(d, k) ==> KeyList(r) == KeyList(d) + [k])
  {
    var r := [d[0]] + rest;
    assert r[0] == d[0] && r[1..] == rest;
    forall k' | k' != k ensures Get(r, k') == Get(d, k') {
      GetCons(d, r, k');
    }
    GetCons(d, r, k);
    HasKeyTail(d, k);
    KeyListCons(d, rest);
  }

  /** The keys of a dictionary with its tail replaced. */
  lemma KeyListCons<V>(d: Dict<V>, rest: Dict<V>)
    requires |d| > 0
    ensures KeyList(d) == [d[0].0] + KeyList(d[1..])
    ensures KeyList([d[0]] + rest) == [d[0].0] + KeyList(rest)
    ensures forall k :: KeyList(rest) == KeyList(d[1..]) + [k] ==> KeyList([d[0]] + rest) == KeyList(d) + [k]
  {
    assert ([d[0]] + rest)[1..] == rest;
  }

  /** Two non-empty dictionaries with the same first entry look a key up
      alike in both when they do so in their tails. */
  lemma GetCons<V>(d: Dict<V>, r: Dict<V>, k: string)
    requires |d| > 0 && |r| > 0 && r[0] == d[0]
    ensures d[0].0 != k ==> Get(r, k) == Get(r[1..], k) && Get(d, k) == Get(d[1..], k)
  {
  }

  lemma HasKeyTail<V>(d: Dict<V>, k: string)
    requires |d| > 0 && d[0].0 != k
    ensures HasKey(d, k) <==> HasKey(d[1..], k)
  {
    if HasKey(d, k) {
      var i :| 0 <= i < |d| && d[i].0 == k;
      assert d[1..][i - 1].0 == k;
    }
  }

  /** `d[k] = v` keeps the keys of a dictionary unique. */
  lemma SetUnique<V>(d: Dict<V>, k: string, v: V)
    requires UniqueKeys(d)
    ensures UniqueKeys(Set(d, k, v))
  {
    var r := Set(d, k, v);
    var kd, kr := KeyList(d), KeyList(r);
    if HasKey(d, k) {
      assert kr == kd;
      SameKeysUnique(d, r);
    } else {
      KeyListHasKey(d, k);
      assert kr == kd + [k];
      forall i, j | 0 <= i < j < |r| ensures r[i].0 != r[j].0 {
        assert r[i].0 == kr[i] && r[j].0 == kr[j];
        if j < |d| {
          assert d[i].0 == kd[i] && d[j].0 == kd[j];
        } else {
          assert kd[i] in kd;
        }
      }
    }
  }

  lemma SameKeysUnique<V>(d: Dict<V>, r: Dict<V>)
    requires UniqueKeys(d)
    requires KeyList(r) == KeyList(d)
    ensures UniqueKeys(r)
  {
    var kd := KeyList(d);
    forall i, j | 0 <= i < j < |r| ensures r[i].0 != r[j].0 {
      assert r[i].0 == kd[i] && r[j].0 == kd[j];
      assert d[i].0 == kd[i] && d[j].0 == kd[j];
    }
  }

  lemma KeyListHasKey<V>(d: Dict<V>, k: string)
    ensures HasKey(d, k) <==> k in KeyList(d)
  {
    if HasKey(d, k) {
      var i :| 0 <= i < |d| && d[i].0 == k;
      assert KeyList(d)[i] == k;
    }
  }

  /** Assigning the same key twice keeps only the second value, at the
      position the key would get from a single assignment. */
  lemma {:induction false} SetSet<V>(d: Dict<V>, k: string, v1: V, v2: V)
    ensures Set(Set(d, k, v1), k, v2) == Set(d, k, v2)
  {
    if |d| != 0 && d[0].0 != k {
      SetSet(d[1..], k, v1, v2);
      assert Set(d, k, v1)[1..] == Set(d[1..], k, v1);
    }
  }

  /** The value the LAST write to `k` in `writes` stores, if any. */
  function LastWrite<V>(writes: Dict<V>, k: string): (r: Option<V>)
    ensures r.Some? <==> HasKey(writes, k)
    ensures r.Some? ==> exists i | 0 <= i < |writes| :: writes[i] == (k, r.value)
  {
    if |writes| == 0 then None
    else if writes[|writes| - 1].0 == k then Some(writes[|writes| - 1].1)
    else
      var r := LastWrite(writes[..|writes| - 1], k);
      assert HasKey(writes, k) ==> HasKey(writes[..|writes| - 1], k) by {
        if HasKey(writes, k) {
          var i :| 0 <= i < |writes| && writes[i].0 == k;
          assert writes[..|writes| - 1][i].0 == k;
        }
      }
      assert r.Some? ==> exists i | 0 <= i < |writes| :: writes[i] == (k, r.value) by {
        if r.Some? {
          var i :| 0 <= i < |writes| - 1 && writes[..|writes| - 1][i] == (k, r.value);
          assert writes[i] == (k, r.value);
        }
      }
      r
  }

  /** Apply `writes` to `d` in order, as successive `d[k] = v` statements. */
  function SetAll<V>(d: Dict<V>, writes: Dict<V>): Dict<V> {
    if |writes| == 0 then d
    else
      var last := writes[|writes| - 1];
      Set(SetAll(d, writes[..|writes| - 1]), last.0, last.1)
  }

  /** Last writer wins: after applying `writes`, a key holds the value of
      the last write to it, or its old value when nothing wrote it. */
  lemma {:induction false} LastWriterWins<V>(d: Dict<V>, writes: Dict<V>, k: string)
    ensures Get(SetAll(d, writes), k) == (if HasKey(writes, k) then LastWrite(writes, k) else Get(d, k))
  {
    if |writes| > 0 {
      LastWriterWins(d, writes[..|writes| - 1], k);
    }
  }

  /** Writes applied in two batches: the later batch takes precedence. */
  lemma {:induction false} LastWriteConcat<V>(a: Dict<V>, b: Dict<V>, k: string)
    ensures LastWrite(a + b, k) == (if HasKey(b, k) then LastWrite(b, k) else LastWrite(a, k))
  {
    if |b| > 0 {
      assert (a + b)[..|a + b| - 1] == a + b[..|b| - 1];
      LastWriteConcat(a, b[..|b| - 1], k);
    } else {
      assert a + b == a;
    }
  }

  /** The keys `SetAll` leaves in a dictionary with unique keys stay unique. */
  lemma {:induction false} SetAllUnique<V>(d: Dict<V>, writes: Dict<V>)
    requires UniqueKeys(d)
    ensures UniqueKeys(SetAll(d, writes))
  {
    if |writes| > 0 {
      SetAllUnique(d, writes[..|writes| - 1]);
      var last := writes[|writes| - 1];
      SetUnique(SetAll(d, writes[..|writes| - 1]), last.0, last.1);
    }
  }

  /** The dictionary built from `writes` alone (`dict(writes)` in order). */
  function FromWrites<V>(writes: Dict<V>): (r: Dict<V>)
    ensures UniqueKeys(r)
    ensures forall k :: Get(r, k) == LastWrite(writes, k)
  {
    SetAllUnique([], writes);
    forall k ensures Get(SetAll([], writes), k) == LastWrite(writes, k) {
      LastWriterWins([], writes, k);
    }
    SetAll([], writes)
  }

  /** Writes to distinct keys build the dictionary that lists them in
      order: nothing is overwritten. */
  lemma FromWritesDistinct<V>(writes: Dict<V>)
    requires UniqueKeys(writes)
    ensures FromWrites(writes) == writes
  {
    SetAllKeys(writes);
    forall k ensures Get(writes, k) == LastWrite(writes, k) {
      GetIsLastWrite(writes, k);
    }
    SameDict(FromWrites(writes), writes);
  }

  /** Distinct writes leave their keys in the order they were written. */
  lemma {:induction false} SetAllKeys<V>(writes: Dict<V>)
    requires UniqueKeys(writes)
    ensures KeyList(SetAll([], writes)) == KeyList(writes)
  {
    if |writes| > 0 {
      var n := |writes| - 1;
      var prefix := writes[..n];
      var k := writes[n].0;
      assert UniqueKeys(prefix);
      SetAllKeys(prefix);
      var d := SetAll([], prefix);
      assert !HasKey(d, k) by {
        assert k !in KeyList(prefix);
        KeyListHasKey(d, k);
      }
      assert prefix + [writes[n]] == writes;
      calc {
        KeyList(SetAll([], writes));
        KeyList(Set(d, k, writes[n].1));
        KeyList(d) + [k];
        KeyList(prefix) + [k];
        { KeyListSnoc(prefix, writes[n]); }
        KeyList(writes);
      }
    }
  }

  lemma KeyListSnoc<V>(d: Dict<V>, w: (string, V))
    ensures KeyList(d + [w]) == KeyList(d) + [w.0]
  {
  }

  /** With distinct writes, the one write to a key is the last. */
  lemma GetIsLastWrite<V>(writes: Dict<V>, k: string)
    requires UniqueKeys(writes)
    ensures Get(writes, k) == LastWrite(writes, k)
  {
    if HasKey(writes, k) {
      var i :| 0 <= i < |writes| && writes[i] == (k, Get(writes, k).value);
      var j :| 0 <= j < |writes| && writes[j] == (k, LastWrite(writes, k).value);
      assert i == j;
    }
  }

  /** Dictionaries with the same keys in the same order and the same
      values are equal. */
  lemma SameDict<V>(a: Dict<V>, b: Dict<V>)
    requires UniqueKeys(a) && UniqueKeys(b) && KeyList(a) == KeyList(b)
    requires forall k :: Get(a, k) == Get(b, k)
    ensures a == b
  {
    forall i | 0 <= i < |a| ensures a[i] == b[i] {
      assert a[i].0 == KeyList(a)[i] == KeyList(b)[i] == b[i].0;
      GetAt(a, i);
      GetAt(b, i);
    }
  }

  /** In a dictionary with unique keys, each entry is what its key reads. */
  lemma GetAt<V>(d: Dict<V>, i: int)
    requires UniqueKeys(d) && 0 <= i < |d|
    ensures Get(d, d[i].0) == Some(d[i].1)
  {
    var r := Get(d, d[i].0);
    assert HasKey(d, d[i].0);
    var j :| 0 <= j < |d| && d[j] == (d[i].0, r.value);
  }

  /** One key of `FromWrites`, stated for a single write sequence so that
      callers need not unfold the sequence. */
  lemma GetFromWrites<V>(writes: Dict<V>, k: string)
    ensures Get(FromWrites(writes), k) == LastWrite(writes, k)
  {
  }

  /** Applying two batches of writes is applying their concatenation. */
  lemma {:induction false} SetAllConcat<V>(d: Dict<V>, a: Dict<V>, b: Dict<V>)
    ensures SetAll(d, a + b) == SetAll(SetAll(d, a), b)
    decreases |b|
  {
    if |b| == 0 {
      assert a + b == a;
    } else {
      assert (a + b)[..|a + b| - 1] == a + b[..|b| - 1];
      SetAllConcat(d, a, b[..|b| - 1]);
    }
  }

  /** Repeating a write straight after itself changes nothing. */
  lemma RepeatedWrite<V>(d: Dict<V>, a: Dict<V>, w: (string, V), b: Dict<V>)
    ensures SetAll(d, a + [w, w] + b) == SetAll(d, a + [w] + b)
  {
    SetAllConcat(d, a + [w, w], b);
    SetAllConcat(d, a + [w], b);
    assert (a + [w, w])[..|a| + 1] == a + [w];
    assert (a + [w])[..|a|] == a;
    SetSet(SetAll(d, a), w.0, w.1, w.1);
  }

  /** A write that no later write overrides is the last write to its key. */
  lemma {:induction false} LastWriteAt<V>(writes: Dict<V>, i: int)
    requires 0 <= i < |writes|
    requires forall j | i < j < |writes| :: writes[j].0 != writes[i].0
    ensures LastWrite(writes, writes[i].0) == Some(writes[i].1)
    decreases |writes|
  {
    if i < |writes| - 1 {
      LastWriteAt(writes[..|writes| - 1], i);
    }
  }

  /** A write of the last block that the block does not repeat later
      decides its key. */
  lemma LastBlockWins<V>(before: Dict<V>, block: Dict<V>, i: int)
    requires 0 <= i < |block|
    requires forall j | i < j < |block| :: block[j].0 != block[i].0
    ensures Get(FromWrites(before + block), block[i].0) == Some(block[i].1)
  {
    LastWriteAt(block, i);
    assert HasKey(block, block[i].0);
    LastWriteConcat(before, block, block[i].0);
  }

  /** A key the last block does not write is decided by the block before. */
  lemma DecidedBefore<V>(a: Dict<V>, d: Dict<V>, e: Dict<V>, k: string)
    requires HasKey(d, k) && !HasKey(e, k)
    ensures Get(FromWrites(a + d + e), k) == LastWrite(d, k)
  {
    LastWriteConcat(a + d, e, k);
    LastWriteConcat(a, d, k);
  }

  /** A key that the last two blocks do not write is decided by the block
      before them. */
  lemma DecidedEarlier<V>(a: Dict<V>, c: Dict<V>, d: Dict<V>, e: Dict<V>, k: string)
    requires HasKey(c, k) && !HasKey(d, k) && !HasKey(e, k)
    ensures Get(FromWrites(a + c + d + e), k) == LastWrite(c, k)
  {
    LastWriteConcat(a + c + d, e, k);
    LastWriteConcat(a + c, d, k);
    LastWriteConcat(a, c, k);
  }

  /** A key that none of the last three blocks writes keeps the value the
      writes before them leave. */
  lemma DecidedFirst<V>(a: Dict<V>, c: Dict<V>, d: Dict<V>, e: Dict<V>, k: string)
    requires !HasKey(c, k) && !HasKey(d, k) && !HasKey(e, k)
    ensures Get(FromWrites(a + c + d + e), k) == LastWrite(a, k)
  {
    LastWriteConcat(a + c + d, e, k);
    LastWriteConcat(a + c, d, k);
    LastWriteConcat(a, c, k);
  }

  /** Two blocks that do not write a key leave its last write alone. */
  lemma SkippedTwice<V>(a: Dict<V>, c: Dict<V>, d: Dict<V>, k: string)
    requires !HasKey(c, k) && !HasKey(d, k)
    ensures LastWrite(a + c + d, k) == LastWrite(a, k)
  {
    LastWriteConcat(a + c, d, k);
    LastWriteConcat(a, c, k);
  }

  /** A single write decides its key. */
  lemma SingleWrite<V>(w: (string, V))
    ensures HasKey([w], w.0) && LastWrite([w], w.0) == Some(w.1)
  {
    assert [w][0].0 == w.0;
  }

  /** The writes `ks[i] = vs[i]`, in order. */
  function Zip<V>(ks: seq<string>, vs: seq<V>): (d: Dict<V>)
    requires |ks| == |vs|
    ensures |d| == |ks|
    ensures forall i | 0 <= i < |d| :: d[i] == (ks[i], vs[i])
    ensures forall k :: HasKey(d, k) <==> k in ks
  {
    seq(|ks|, i requires 0 <= i < |ks| => (ks[i], vs[i]))
  }

  /** A key is in a concatenation of writes iff it is in one of the parts. */
  lemma HasKeyConcat<V>(a: Dict<V>, b: Dict<V>, k: string)
    ensures HasKey(a + b, k) <==> HasKey(a, k) || HasKey(b, k)
  {
    if HasKey(a + b, k) {
      var i :| 0 <= i < |a + b| && (a + b)[i].0 == k;
      if i >= |a| { assert b[i - |a|].0 == k; }
    }
    if HasKey(a, k) {
      var i :| 0 <= i < |a| && a[i].0 == k;
      assert (a + b)[i] == a[i];
    }
    if HasKey(b, k) {
      var i :| 0 <= i < |b| && b[i].0 == k;
      assert (a + b)[|a| + i] == b[i];
    }
  }
}

=== FILE: documents.dfy ===
/** The pieces both document generators (`generate_mapfile` in
    geomet_mapfile/mapfile.py and `generate` in geomet3_mapfile/mapfile.py)
    share: the artifacts they write, and the per-layer narrowing of the
    output formats and symbols of a mapfile copy. */
module Documents {
  import opened Wrappers
  import opened Text
  import opened Dicts
  import opened Errors
  import opened Values
  import opened LayerConfig
  import opened Seqs

  /** Where a generated document goes: a file path, or a key of the
      mapfile store as it is stored (geomet_mapfile's store prefixes its
      keys, see `StoreKey`; geomet3's does not). */
  datatype Target = FileTarget(path: string) | StoreTarget(key: string)

  /** One write of a serialised document; the serialisation itself is
      opaque, so the content is the document value. */
  datatype Artifact = Artifact(target: Target, content: Value)

  /** The stored form of a store key: the store prefixes every key. */
  function StoreKey(key: string): (k: string)
    ensures StartsWith(k, "geomet-mapfile_") && k[|"geomet-mapfile_"|..] == key
  {
    assert ("geomet-mapfile_" + key)[..15] == "geomet-mapfile_";
    "geomet-mapfile_" + key
  }

  /** `d[outer][inner] = v`: the outer key must hold a dict. */
  function SetIn(d: Dict<Value>, outer: string, inner: string, v: Value): (r: Result<Dict<Value>, Error>)
    ensures r.Ok? <==> Lookup(Obj(d), outer).Ok? && Lookup(Obj(d), outer).value.Obj?
    ensures r.Ok? ==> KeyList(r.value) == KeyList(d)
    ensures r.Ok? ==> forall k :: k != outer ==> Get(r.value, k) == Get(d, k)
    ensures r.Ok? ==> var o := Get(r.value, outer); o.Some? && o.value.Obj? && Get(o.value.fields, inner) == Some(v)
    ensures r.Ok? ==> var before := Get(d, outer).value.fields;
                      var after := Get(r.value, outer).value.fields;
                      && (forall k | k != inner :: Get(after, k) == Get(before, k))
                      && KeyList(after) == if HasKey(before, inner) then KeyList(before) else KeyList(before) + [inner]
  {
    var o :- Lookup(Obj(d), outer);
    if !o.Obj? then Err(TypeError("object does not support item assignment"))
    else Ok(Set(d, outer, Obj(Set(o.fields, inner, v))))
  }

  /** The items `for x in d[key]` visits when each is then indexed by a
      string: a list's elements; an empty string or dict visits nothing;
      a non-empty string or dict yields strings, which cannot be indexed
      by `'name'`; anything else is not iterable. */
  function IterField(d: Dict<Value>, key: string): (r: Result<seq<Value>, Error>)
    ensures r.Ok? ==> Get(d, key).Some?
    ensures Get(d, key).None? ==> r == Err(KeyError(key))
    ensures (exists items :: Get(d, key) == Some(List(items))) ==> r == Ok(Get(d, key).value.items)
  {
    var v :- Lookup(Obj(d), key);
    match v
    case List(items) => Ok(items)
    case Str(s) => if s == "" then Ok([]) else Err(TypeError("string indices must be integers"))
    case Obj(fields) => if fields == [] then Ok([]) else Err(TypeError("string indices must be integers"))
    case _ => Err(TypeError("object is not iterable"))
  }

  /** `[x for x in items if keep(x)]`, stopping at the first test that
      raises. */
  function KeepBy(items: seq<Value>, keep: Value -> Result<bool, Error>): (r: Result<seq<Value>, Error>)
    ensures r.Ok? <==> forall i | 0 <= i < |items| :: keep(items[i]).Ok?
    ensures r.Ok? ==> forall x :: x in r.value <==> x in items && keep(x) == Ok(true)
    ensures r.Ok? ==> SubSeq(r.value, items) && KeptCounts(r.value, items, Rejected(keep))
    ensures r.Err? ==> exists i | 0 <= i < |items| ::
                         keep(items[i]) == Err(r.error) && forall j | 0 <= j < i :: keep(items[j]).Ok?
  {
    if |items| == 0 then Ok([])
    else
      var head := keep(items[0]);
      if head.Err? then Err(head.error)
      else
        var rest := KeepBy(items[1..], keep);
        if rest.Err? then
          var i :| 0 <= i < |items[1..]| && keep(items[1..][i]) == Err(rest.error)
                   && forall j | 0 <= j < i :: keep(items[1..][j]).Ok?;
          assert keep(items[i + 1]) == Err(rest.error);
          assert forall j | 1 <= j < i + 1 :: items[j] == items[1..][j - 1];
          Err(rest.error)
        else
          assert forall i | 0 <= i < |items[1..]| :: keep(items[1..][i]).Ok?;
          assert forall i | 1 <= i < |items| :: items[i] == items[1..][i - 1];
          assert forall x :: x in items <==> x == items[0] || x in items[1..];
          SubSeqCons(items[0], rest.value, items[1..]);
          assert items == [items[0]] + items[1..];
          if head.value then
            var r := [items[0]] + rest.value;
            assert r[1..] == rest.value;
            Ok(r)
          else
            Ok(rest.value)
  }

  /** The items a test does not accept: those it rejects or raises on. */
  function Rejected(keep: Value -> Result<bool, Error>): Value -> bool {
    x => keep(x) != Ok(true)
  }

  /** `format_['name'] in names`. */
  function FormatListed(names: seq<string>): Value -> Result<bool, Error> {
    (f: Value) => var n :- Lookup(f, "name"); Ok(n.Str? && n.s in names)
  }

  /** `symbol['name'] in symbols or any(s in symbol['name'] for s in
      symbols)`: `in` on a name tests a substring of a string, an element
      of a list and a key of a dict; on any other value it raises once
      there is a listed string to test. */
  function SymbolListed(symbols: seq<string>): Value -> Result<bool, Error> {
    (sym: Value) =>
      var n :- Lookup(sym, "name");
      match n
      case Str(s) => Ok(s in symbols || exists t | t in symbols :: Contains(s, t))
      case List(items) => Ok(exists t | t in symbols :: Str(t) in items)
      case Obj(fields) => Ok(exists t | t in symbols :: HasKey(fields, t))
      case _ => if symbols == [] then Ok(false) else Err(TypeError("argument is not iterable"))
  }

  /** A symbol with a string name is kept exactly when its name contains
      a listed string: a name equal to a listed string contains it. */
  lemma SymbolListedIffContains(symbols: seq<string>, sym: Value, name: string)
    requires Lookup(sym, "name") == Ok(Str(name))
    ensures SymbolListed(symbols)(sym) == Ok(exists t | t in symbols :: Contains(name, t))
  {
    if name in symbols {
      ContainsSelf(name);
    }
  }

  /** The output formats a compiled layer keeps: those the forecast
      model lists, when it lists any. */
  function NarrowFormats(copy: Dict<Value>, names: Option<seq<string>>): (r: Result<Dict<Value>, Error>)
    ensures names.None? ==> r == Ok(copy)
    ensures r.Ok? && names.Some? ==>
              && IterField(copy, "outputformats").Ok?
              && KeepBy(IterField(copy, "outputformats").value, FormatListed(names.value)).Ok?
              && r.value == Set(copy, "outputformats", List(KeepBy(IterField(copy, "outputformats").value, FormatListed(names.value)).value))
    ensures r.Ok? ==> forall k | k != "outputformats" :: Get(r.value, k) == Get(copy, k)
  {
    match names
    case None => Ok(copy)
    case Some(listed) =>
      var formats :- IterField(copy, "outputformats");
      var kept :- KeepBy(formats, FormatListed(listed));
      Ok(Set(copy, "outputformats", List(kept)))
  }

  /** The symbols a compiled layer keeps: those its list selects, or none
      when it has no list. */
  function NarrowSymbols(copy: Dict<Value>, listed: Option<seq<string>>): (r: Result<Dict<Value>, Error>)
    ensures listed.None? ==> r == Ok(Set(copy, "symbols", List([])))
    ensures r.Ok? && listed.Some? ==>
              && IterField(copy, "symbols").Ok?
              && KeepBy(IterField(copy, "symbols").value, SymbolListed(listed.value)).Ok?
              && r.value == Set(copy, "symbols", List(KeepBy(IterField(copy, "symbols").value, SymbolListed(listed.value)).value))
    ensures r.Ok? ==> forall k | k != "symbols" :: Get(r.value, k) == Get(copy, k)
  {
    match listed
    case None => Ok(Set(copy, "symbols", List([])))
    case Some(l) =>
      var symbols :- IterField(copy, "symbols");
      var kept :- KeepBy(symbols, SymbolListed(l));
      Ok(Set(copy, "symbols", List(kept)))
  }

  /** The narrowing a compiled layer applies to its mapfile copy: output
      formats first, then symbols. Nothing else in the copy changes. */
  function NarrowCopy(copy: Dict<Value>, info: LayerInfo): (r: Result<Dict<Value>, Error>)
    ensures r.Ok? ==> info.symbols.None? ==> Get(r.value, "symbols") == Some(List([]))
    ensures r.Ok? ==> info.forecastModel.outputFormats.None? ==> Get(r.value, "outputformats") == Get(copy, "outputformats")
    ensures r.Ok? ==> forall k :: k != "symbols" && k != "outputformats" ==> Get(r.value, k) == Get(copy, k)
  {
    var formatted :- NarrowFormats(copy, info.forecastModel.outputFormats);
    var r := NarrowSymbols(formatted, info.symbols);
    if r.Err? then r
    else
      NarrowFrame(copy, formatted, r.value);
      r
  }

  /** Two edits, each to one key, leave every other key alone. */
  lemma NarrowFrame(copy: Dict<Value>, formatted: Dict<Value>, narrowed: Dict<Value>)
    requires forall k | k != "outputformats" :: Get(formatted, k) == Get(copy, k)
    requires forall k | k != "symbols" :: Get(narrowed, k) == Get(formatted, k)
    ensures Get(narrowed, "outputformats") == Get(formatted, "outputformats")
    ensures forall k | k != "symbols" && k != "outputformats" :: Get(narrowed, k) == Get(copy, k)
  {
  }

  /** With a declared list, the output formats kept are exactly the
      catalog's formats whose name is listed, in catalog order. */
  lemma FormatsNarrowed(copy: Dict<Value>, names: seq<string>, formats: seq<Value>)
    requires NarrowFormats(copy, Some(names)).Ok?
    requires Get(copy, "outputformats") == Some(List(formats))
    ensures var kept := Get(NarrowFormats(copy, Some(names)).value, "outputformats");
            && kept.Some? && kept.value.List?
            && SubSeq(kept.value.items, formats)
            && (forall f :: f in kept.value.items <==>
                  f in formats && exists n | n in names :: Lookup(f, "name") == Ok(Str(n)))
            && forall f :: multiset(kept.value.items)[f] ==
                  if exists n | n in names :: Lookup(f, "name") == Ok(Str(n)) then multiset(formats)[f] else 0
  {
    assert IterField(copy, "outputformats") == Ok(formats);
    forall f ensures FormatListed(names)(f) == Ok(true) <==> exists n | n in names :: Lookup(f, "name") == Ok(Str(n)) {
      if FormatListed(names)(f) == Ok(true) {
        var n := Lookup(f, "name").value;
        assert n.Str? && n.s in names;
      }
    }
  }

  /** With a symbol list, the symbols kept are exactly the catalog's
      symbols the test selects, in catalog order. */
  lemma SymbolsNarrowed(copy: Dict<Value>, listed: seq<string>, symbols: seq<Value>)
    requires NarrowSymbols(copy, Some(listed)).Ok?
    requires Get(copy, "symbols") == Some(List(symbols))
    ensures var kept := Get(NarrowSymbols(copy, Some(listed)).value, "symbols");
            && kept.Some? && kept.value.List?
            && SubSeq(kept.value.items, symbols)
            && (forall x :: x in kept.value.items <==> x in symbols && SymbolListed(listed)(x) == Ok(true))
            && forall x :: multiset(kept.value.items)[x] == if SymbolListed(listed)(x) == Ok(true) then multiset(symbols)[x] else 0
  {
    assert IterField(copy, "symbols") == Ok(symbols);
  }
}

=== FILE: layer.dfy ===
/** `gen_layer` and `mcf2layer_metadata` of geomet_mapfile/mapfile.py: the
    single LAYER object of a layer, with its metadata built in
    last-writer-wins order. */
module Layer {
  import opened Wrappers
  import opened Text
  import opened Dicts
  import opened Errors
  import opened Values
  import opened Calendar
  import opened Timestamp
  import opened Temporal
  import opened LayerConfig
  import opened Seqs

  /** The files `gen_layer` opens, by the name the configuration gives:
      projection texts, style class lists and parsed MCF records. */
  datatype Resources = Resources(
    projections: map<string, string>,
    styles: map<string, seq<Value>>,
    mcf: map<string, McfRecord>)

  // ---------------------------------------------------------------------
  // mcf2layer_metadata

  /** The CSW record URL. `metadata_identifier` is initialised to `None`
      and never reassigned, so `urlencode` always renders `id=None`. */
  const CswUrl: string :=
    "https://csw.open.canada.ca/geonetwork/srv/csw?service=CSW&version=2.0.2&request=GetRecordById"
    + "&outputschema=csw%3AIsoRecord&elementsetname=full&id=None"

  /** The keys `mcf2layer_metadata` returns, in order. */
  const McfNames: seq<string> := [
    "ows_abstract", "ows_abstract_fr", "ows_identifier_value",
    "ows_keywordlist", "ows_keywordlist_fr", "ows_metadataurl_href"]

  /** A keyword list extended with the `gc_cst` keywords when present. */
  function Keywords(primary: seq<string>, extra: Option<seq<string>>): (r: seq<string>)
    ensures extra.None? ==> r == primary
    ensures extra.Some? ==> |r| == |primary| + |extra.value| && r[..|primary|] == primary && r[|primary|..] == extra.value
  {
    match extra
    case None => primary
    case Some(e) => primary + e
  }

  /** `mcf2layer_metadata(mcf_file)` on the parsed record. */
  function Mcf2LayerMetadata(m: McfRecord): (d: Dict<Value>)
    ensures |d| == |McfNames| == 6
    ensures forall i | 0 <= i < |d| :: d[i].0 == McfNames[i]
    ensures forall k :: HasKey(d, k) <==> k in McfNames
    ensures d[0].1 == m.abstractEn && d[1].1 == m.abstractFr && d[2].1 == m.datasetUri
    ensures d[3].1 == Str(Join(Keywords(m.keywordsEn, if m.gcCst.Some? then Some(m.gcCst.value.0) else None), ", "))
    ensures d[4].1 == Str(Join(Keywords(m.keywordsFr, if m.gcCst.Some? then Some(m.gcCst.value.1) else None), ", "))
    ensures d[5].1 == Str(CswUrl)
  {
    var gcEn := if m.gcCst.Some? then Some(m.gcCst.value.0) else None;
    var gcFr := if m.gcCst.Some? then Some(m.gcCst.value.1) else None;
    Zip(McfNames,
        [m.abstractEn, m.abstractFr, m.datasetUri,
         Str(Join(Keywords(m.keywordsEn, gcEn), ", ")),
         Str(Join(Keywords(m.keywordsFr, gcFr), ", ")),
         Str(CswUrl)])
  }

  /** The CSW link does not depend on the record: every layer's
      `ows_metadataurl_href` asks for `id=None`. */
  lemma CswIdIsNone(m1: McfRecord, m2: McfRecord)
    ensures Mcf2LayerMetadata(m1)[5] == Mcf2LayerMetadata(m2)[5]
    ensures CswUrl[|CswUrl| - 8..] == "&id=None"
  {
  }

  // ---------------------------------------------------------------------
  // The time block

  /** A store value as it lands in the metadata: the string, or `None`. */
  function OptStr(v: Option<string>): (r: Value)
    ensures v.Some? <==> r.Str?
    ensures v.Some? ==> r.s == v.value
  {
    match v
    case Some(s) => Str(s)
    case None => Null
  }

  /** `[dt.strftime(DATEFORMAT) for dt in xs]` */
  function FormatAll(xs: seq<int>): (r: seq<string>)
    requires forall i | 0 <= i < |xs| :: 0 <= xs[i] <= MaxInstant
    ensures |r| == |xs|
    ensures forall i | 0 <= i < |xs| :: r[i] == Format(xs[i])
  {
    seq(|xs|, i requires 0 <= i < |xs| && 0 <= xs[i] <= MaxInstant => Format(xs[i]))
  }

  /** `[strptime(s, DATEFORMAT) for s in ss]`, `None` if any fails. */
  function ParseAll(ss: seq<string>): (r: Option<seq<int>>)
    ensures r.Some? <==> forall i | 0 <= i < |ss| :: Parse(ss[i]).Some?
    ensures r.Some? ==> |r.value| == |ss| && forall i | 0 <= i < |ss| :: Parse(ss[i]) == Some(r.value[i])
  {
    if |ss| == 0 then Some([])
    else
      match (Parse(ss[0]), ParseAll(ss[1..]))
      case (Some(t), Some(ts)) => Some([t] + ts)
      case (None, _) => None
      case (_, None) =>
        assert forall i | 1 <= i < |ss| :: ss[i] == ss[1..][i - 1];
        None
  }

  /** The text of `wms_available_intervals`. */
  function IntervalsText(xs: seq<int>): string
    requires forall i | 0 <= i < |xs| :: 0 <= xs[i] <= MaxInstant
  {
    Join(FormatAll(xs), ",")
  }

  /** The `wms_available_intervals` text splits at its commas and parses
      back into the intervals it was built from. */
  lemma IntervalsRoundTrip(xs: seq<int>)
    requires |xs| > 0
    requires forall i | 0 <= i < |xs| :: 0 <= xs[i] <= MaxInstant
    ensures Split(IntervalsText(xs), ',') == FormatAll(xs)
    ensures ParseAll(Split(IntervalsText(xs), ',')) == Some(xs)
  {
    var ss := FormatAll(xs);
    forall i | 0 <= i < |ss| ensures ',' !in ss[i] {
      FormatHasNoComma(xs[i]);
    }
    SplitJoin(ss, ',');
    ParseFormatAll(xs);
  }

  lemma FormatHasNoComma(t: int)
    requires 0 <= t <= MaxInstant
    ensures ',' !in Format(t)
  {
    FormatAlphabet(t);
  }

  /** Parsing the formatted instants gives the instants back. */
  lemma ParseFormatAll(xs: seq<int>)
    requires forall i | 0 <= i < |xs| :: 0 <= xs[i] <= MaxInstant
    ensures ParseAll(FormatAll(xs)) == Some(xs)
  {
    forall i | 0 <= i < |xs| ensures Parse(FormatAll(xs)[i]) == Some(xs[i]) {
      ParseFormat(xs[i]);
    }
    ParseAllOf(FormatAll(xs), xs);
  }

  /** Texts that each parse to the matching instant parse to the list. */
  lemma ParseAllOf(ss: seq<string>, xs: seq<int>)
    requires |ss| == |xs|
    requires forall i | 0 <= i < |ss| :: Parse(ss[i]) == Some(xs[i])
    ensures ParseAll(ss) == Some(xs)
  {
    assert forall i | 0 <= i < |ss| :: Parse(ss[i]).Some?;
    var r := ParseAll(ss).value;
    forall i | 0 <= i < |ss| ensures r[i] == xs[i] {
      assert Parse(ss[i]) == Some(r[i]);
    }
    assert r == xs;
  }

  /** The keys the time block always writes. */
  const TimeFixedNames: seq<string> := [
    "wms_dimensionlist", "wms_reference_time_item", "wms_reference_time_units",
    "wms_timeextent", "wms_reference_time_default", "wms_timedefault"]

  /** Every key the time block may write. */
  const TimeNames: seq<string> := TimeFixedNames + ["wms_available_intervals", "wms_reference_time_extent"]

  /** `wms_available_intervals`, written only when there are intervals. */
  function IntervalsWrite(t: TimeConfig): (w: Dict<Value>)
    requires forall i | 0 <= i < |t.availableIntervals| :: 0 <= t.availableIntervals[i] <= MaxInstant
    ensures forall k :: HasKey(w, k) ==> k == "wms_available_intervals"
    ensures HasKey(w, "wms_available_intervals") <==> |t.availableIntervals| > 0
  {
    if |t.availableIntervals| > 0 then
      var w := [("wms_available_intervals", Str(IntervalsText(t.availableIntervals)))];
      assert w[0].0 == "wms_available_intervals";
      w
    else []
  }

  /** `wms_reference_time_extent`, written only when the default model run
      is set and non-empty. */
  function ReferenceWrite(t: TimeConfig): (w: Dict<Value>)
    ensures forall k :: HasKey(w, k) ==> k == "wms_reference_time_extent"
    ensures HasKey(w, "wms_reference_time_extent") <==> Truthy(t.defaultModelRun)
  {
    if Truthy(t.defaultModelRun) then
      var w := [("wms_reference_time_extent", OptStr(t.modelRunExtent))];
      assert w[0].0 == "wms_reference_time_extent";
      w
    else []
  }

  /** The writes of the `if time_dict:` block (a returned time record is a
      non-empty dictionary, so the block always runs). */
  function TimeWrites(t: TimeConfig): (w: Dict<Value>)
    requires forall i | 0 <= i < |t.availableIntervals| :: 0 <= t.availableIntervals[i] <= MaxInstant
    ensures forall k :: HasKey(w, k) ==> k in TimeNames
    ensures HasKey(w, "wms_available_intervals") <==> |t.availableIntervals| > 0
    ensures HasKey(w, "wms_reference_time_extent") <==> Truthy(t.defaultModelRun)
  {
    TimeWritesKeys(TimeFixedPart(t), IntervalsWrite(t), ReferenceWrite(t));
    TimeFixedPart(t) + IntervalsWrite(t) + ReferenceWrite(t)
  }

  /** The six writes the time block always makes. */
  function TimeFixedPart(t: TimeConfig): (w: Dict<Value>)
    ensures forall k :: HasKey(w, k) <==> k in TimeFixedNames
  {
    Zip(TimeFixedNames,
        [Str("reference_time"), Str("reference_datetime"), Str("ISO8601"),
         Str(t.timeExtent), OptStr(t.defaultModelRun), Str(t.defaultTime)])
  }

  lemma TimeWritesKeys(fixed: Dict<Value>, intervals: Dict<Value>, reference: Dict<Value>)
    requires forall k :: HasKey(fixed, k) <==> k in TimeFixedNames
    requires forall k :: HasKey(intervals, k) ==> k == "wms_available_intervals"
    requires forall k :: HasKey(reference, k) ==> k == "wms_reference_time_extent"
    ensures forall k :: HasKey(fixed + intervals + reference, k) ==> k in TimeNames
    ensures HasKey(fixed + intervals + reference, "wms_available_intervals") <==> HasKey(intervals, "wms_available_intervals")
    ensures HasKey(fixed + intervals + reference, "wms_reference_time_extent") <==> HasKey(reference, "wms_reference_time_extent")
  {
    forall k ensures HasKey(fixed + intervals + reference, k) <==> HasKey(fixed, k) || HasKey(intervals, k) || HasKey(reference, k) {
      HasKeyConcat(fixed + intervals, reference, k);
      HasKeyConcat(fixed, intervals, k);
    }
    BlockKeysDisjoint();
  }

  /** The key lists of the metadata blocks are disjoint, so a later block
      overrides an earlier one only where the configuration is involved. */
  lemma BlockKeysDisjoint()
    ensures forall i | 0 <= i < |McfNames| :: McfNames[i] !in GenericNames
    ensures forall i | 0 <= i < |TimeNames| ::
              TimeNames[i] !in GenericNames && TimeNames[i] !in McfNames && TimeNames[i] != "geomet_ows_http_max_age"
    ensures "geomet_ows_http_max_age" !in GenericNames && "geomet_ows_http_max_age" !in McfNames
    ensures "wms_available_intervals" !in TimeFixedNames && "wms_reference_time_extent" !in TimeFixedNames
    ensures forall i, j | 0 <= i < j < |McfNames| :: McfNames[i] != McfNames[j]
  {
  }

  /** `geomet_ows_http_max_age`: seconds as a number, or `''`. */
  function MaxAgeWrite(fm: ForecastModel): (string, Value) {
    ("geomet_ows_http_max_age", match MaxAgeSeconds(fm)
                                case Some(n) => Int(n)
                                case None => Str(""))
  }

  /** Everything written to `layer['metadata']` after it is reset, in
      order: the configuration's writes, the time block, the cache
      lifetime, the generic block, then the MCF record. */
  function MetadataWritesAll(config: Dict<Value>, t: TimeConfig, fm: ForecastModel, m: McfRecord): Dict<Value>
    requires forall i | 0 <= i < |t.availableIntervals| :: 0 <= t.availableIntervals[i] <= MaxInstant
  {
    config + TimeWrites(t) + [MaxAgeWrite(fm)] + GenericWrites("default range") + Mcf2LayerMetadata(m)
  }

  // ---------------------------------------------------------------------
  // The layer

  /** The class lists of the style files, concatenated in order; the first
      missing file raises. */
  function StyleClasses(files: map<string, seq<Value>>, styles: seq<string>): (r: Result<seq<Value>, Error>)
    ensures r.Ok? <==> forall i | 0 <= i < |styles| :: styles[i] in files
    ensures r.Err? ==> exists i | 0 <= i < |styles| :: && styles[i] !in files && r.error == FileNotFoundError(styles[i])
                                                     && forall j | 0 <= j < i :: styles[j] in files
    ensures r.Ok? ==> r.value == Concat(seq(|styles|, i requires 0 <= i < |styles| => files[styles[i]]))
  {
    if |styles| == 0 then Ok([])
    else if styles[0] !in files then Err(FileNotFoundError(styles[0]))
    else
      var rest := StyleClasses(files, styles[1..]);
      if rest.Err? then
        var i :| && 0 <= i < |styles[1..]| && styles[1..][i] !in files && rest.error == FileNotFoundError(styles[1..][i])
                 && forall j | 0 <= j < i :: styles[1..][j] in files;
        assert styles[i + 1] == styles[1..][i];
        assert forall j | 1 <= j < i + 1 :: styles[j] == styles[1..][j - 1];
        Err(rest.error)
      else
        assert forall i | 1 <= i < |styles| :: styles[i] == styles[1..][i - 1];
        var all := seq(|styles|, i requires 0 <= i < |styles| => files[styles[i]]);
        assert all[1..] == seq(|styles[1..]|, i requires 0 <= i < |styles[1..]| => files[styles[1..][i]]);
        Ok(files[styles[0]] + rest.value)
  }

  /** `connectiontype`, and `extent` for a `uvraster` layer whose forecast
      model declares one. */
  function ConnectionWrites(info: LayerInfo): Dict<Value> {
    match info.conntype
    case None => []
    case Some(c) =>
      [("connectiontype", Str(c))]
      + (if c == "uvraster" && info.forecastModel.extent.Some? then [("extent", info.forecastModel.extent.value)] else [])
  }

  /** The writes to the layer dictionary before the final three, in order. */
  function LayerHeadWrites(name: string, info: LayerInfo, projection: seq<string>, params: Dict<Value>): Dict<Value> {
    [("__type__", Str("layer")), ("tolerance", Int(15)), ("template", Str("ttt.html")),
     ("name", Str(name)), ("debug", Int(5)), ("data", List([Str("")])), ("type", Str("RASTER")),
     ("template", Str("ttt.html")), ("tolerance", Int(15)),
     ("metadata", Obj([("__type__", Str("metadata")), ("gml_include_items", Str("all")), ("ows_include_items", Str("all"))])),
     ("projection", List(Strs(projection))), ("processing", List(Processing(info)))]
    + (if info.layerType.Some? then [("type", info.layerType.value)] else [])
    + ConnectionWrites(info)
    + params
  }

  /** The final three writes: `classgroup`, `classes` and the metadata. */
  function LayerTailWrites(classgroup: string, classes: seq<Value>, metadata: Dict<Value>): (w: Dict<Value>)
    ensures w == [("classgroup", Str(classgroup)), ("classes", List(classes)), ("metadata", Obj(metadata))]
  {
    [("classgroup", Str(classgroup)), ("classes", List(classes)), ("metadata", Obj(metadata))]
  }

  /** `gen_layer(layer_name, layer_info)` against store `st` at `NOW`: one
      layer, or the first exception the code raises, in the order it
      raises them. */
  function GenLayer(st: Store, nowMicros: int, res: Resources, name: string, info: LayerInfo): (r: Result<seq<Value>, Error>)
    ensures r.Ok? ==> |r.value| == 1 && r.value[0].Obj? && UniqueKeys(r.value[0].fields)
    ensures r.Err? && r.error.LayerTimeConfigError? <==> !Truthy(RawGet(st, RegistryKey(name, "time_extent")))
  {
    var time :- LayerTimeConfig(st, name, nowMicros);
    CompileLayer(time, res, name, info)
  }

  /** The rest of `gen_layer` once the time record is read: it raises no
      time-configuration error of its own. */
  function CompileLayer(time: TimeConfig, res: Resources, name: string, info: LayerInfo): (r: Result<seq<Value>, Error>)
    requires forall i | 0 <= i < |time.availableIntervals| :: 0 <= time.availableIntervals[i] <= MaxInstant
    ensures r.Ok? ==> |r.value| == 1 && r.value[0].Obj? && UniqueKeys(r.value[0].fields)
    ensures r.Err? ==> !r.error.LayerTimeConfigError?
  {
    var projection :- ReadProjection(res.projections, info.forecastModel.projection);
    var params :- ParamWrites(info);
    var classgroup :- ClassGroup(info.styles, JsonChars);
    var classes :- StyleClasses(res.styles, info.styles);
    AssembleLayer(time, res, info, LayerHeadWrites(name, info, projection, params), classgroup, classes)
  }

  /** The metadata and the closing writes, after the opening writes `head`
      and the style files are read. */
  function AssembleLayer(time: TimeConfig, res: Resources, info: LayerInfo, head: Dict<Value>,
                         classgroup: string, classes: seq<Value>): (r: Result<seq<Value>, Error>)
    requires forall i | 0 <= i < |time.availableIntervals| :: 0 <= time.availableIntervals[i] <= MaxInstant
    ensures r.Ok? ==> |r.value| == 1 && r.value[0].Obj? && UniqueKeys(r.value[0].fields)
    ensures r.Err? ==> !r.error.LayerTimeConfigError?
  {
    var extent :- if info.forecastModel.extent.Some? then Ok(info.forecastModel.extent.value) else Err(KeyError("extent"));
    var config :- ConfigWrites(info, extent);
    var mcf :- ReadMcf(res.mcf, info.forecastModel.mcf);
    var metadata := FromWrites(MetadataWritesAll(config, time, info.forecastModel, mcf));
    Ok([Obj(FromWrites(head + LayerTailWrites(classgroup, classes, metadata)))])
  }

  // ---------------------------------------------------------------------
  // Properties

  /** The layer's final `classgroup`, `classes` and `metadata` are the
      values written last: nothing in the configuration can displace them. */
  lemma TailWritesWin(head: Dict<Value>, classgroup: string, classes: seq<Value>, metadata: Dict<Value>)
    ensures var layer := FromWrites(head + LayerTailWrites(classgroup, classes, metadata));
            && Get(layer, "classgroup") == Some(Str(classgroup))
            && Get(layer, "classes") == Some(List(classes))
            && Get(layer, "metadata") == Some(Obj(metadata))
  {
    var w := head + LayerTailWrites(classgroup, classes, metadata);
    var n := |w|;
    assert w[n - 3] == ("classgroup", Str(classgroup));
    assert w[n - 2] == ("classes", List(classes));
    assert w[n - 1] == ("metadata", Obj(metadata));
    LastWriteAt(w, n - 3);
    LastWriteAt(w, n - 2);
    LastWriteAt(w, n - 1);
  }

  /** The MCF record is written last: its six keys hold its values. */
  lemma McfWins(config: Dict<Value>, t: TimeConfig, fm: ForecastModel, m: McfRecord, i: int)
    requires forall j | 0 <= j < |t.availableIntervals| :: 0 <= t.availableIntervals[j] <= MaxInstant
    requires 0 <= i < |McfNames|
    ensures Get(FromWrites(MetadataWritesAll(config, t, fm, m)), McfNames[i]) == Some(Mcf2LayerMetadata(m)[i].1)
  {
    McfLast(config + TimeWrites(t) + [MaxAgeWrite(fm)] + GenericWrites("default range"), m, i);
  }

  /** The MCF record's keys hold its values once it is written last. */
  lemma McfLast(before: Dict<Value>, m: McfRecord, i: int)
    requires 0 <= i < |McfNames|
    ensures Get(FromWrites(before + Mcf2LayerMetadata(m)), McfNames[i]) == Some(Mcf2LayerMetadata(m)[i].1)
  {
    McfNamesUnique();
    LastBlockWins(before, Mcf2LayerMetadata(m), i);
  }

  lemma McfNamesUnique()
    ensures forall i, j | 0 <= i < j < |McfNames| :: McfNames[i] != McfNames[j]
  {
  }

  /** The generic block overrides the configuration, the time block and the
      cache lifetime; the MCF record does not touch its keys. */
  lemma GenericWins(config: Dict<Value>, t: TimeConfig, fm: ForecastModel, m: McfRecord, i: int)
    requires forall j | 0 <= j < |t.availableIntervals| :: 0 <= t.availableIntervals[j] <= MaxInstant
    requires 0 <= i < |GenericNames|
    ensures Get(FromWrites(MetadataWritesAll(config, t, fm, m)), GenericNames[i]) == Some(GenericWrites("default range")[i].1)
  {
    GenericNotMcf(i, m);
    GenericLast("default range", i);
    DecidedBefore(config + TimeWrites(t) + [MaxAgeWrite(fm)], GenericWrites("default range"), Mcf2LayerMetadata(m), GenericNames[i]);
  }

  /** The generic block writes each of its keys once. */
  lemma GenericLast(rangeLabel: string, i: int)
    requires 0 <= i < |GenericNames|
    ensures HasKey(GenericWrites(rangeLabel), GenericNames[i])
    ensures LastWrite(GenericWrites(rangeLabel), GenericNames[i]) == Some(GenericWrites(rangeLabel)[i].1)
  {
    GenericNamesUnique();
    LastWriteAt(GenericWrites(rangeLabel), i);
  }

  /** The MCF record writes none of the generic block's keys. */
  lemma GenericNotMcf(i: int, m: McfRecord)
    requires 0 <= i < |GenericNames|
    ensures !HasKey(Mcf2LayerMetadata(m), GenericNames[i])
  {
    BlockKeysDisjoint();
  }

  /** `geomet_ows_http_max_age` is hours × 3600, else minutes × 60, else
      `''`, whatever the configuration wrote under that key. */
  lemma MaxAgeWins(config: Dict<Value>, t: TimeConfig, fm: ForecastModel, m: McfRecord)
    requires forall j | 0 <= j < |t.availableIntervals| :: 0 <= t.availableIntervals[j] <= MaxInstant
    ensures var md := FromWrites(MetadataWritesAll(config, t, fm, m));
            && (fm.forecastHourInterval.Some? ==> Get(md, "geomet_ows_http_max_age") == Some(Int(3600 * fm.forecastHourInterval.value)))
            && (fm.forecastHourInterval.None? && fm.observationsIntervalMin.Some? ==>
                  Get(md, "geomet_ows_http_max_age") == Some(Int(60 * fm.observationsIntervalMin.value)))
            && (fm.forecastHourInterval.None? && fm.observationsIntervalMin.None? ==>
                  Get(md, "geomet_ows_http_max_age") == Some(Str("")))
  {
    MaxAgeNotLater(m);
    SingleWrite(MaxAgeWrite(fm));
    DecidedEarlier(config + TimeWrites(t), [MaxAgeWrite(fm)], GenericWrites("default range"), Mcf2LayerMetadata(m),
                   "geomet_ows_http_max_age");
  }

  /** Neither the generic block nor the MCF record writes the cache
      lifetime. */
  lemma MaxAgeNotLater(m: McfRecord)
    ensures !HasKey(GenericWrites("default range"), "geomet_ows_http_max_age")
    ensures !HasKey(Mcf2LayerMetadata(m), "geomet_ows_http_max_age")
  {
    BlockKeysDisjoint();
  }

  /** The time block's keys are written after the configuration and are
      not touched afterwards. */
  lemma TimeWins(config: Dict<Value>, t: TimeConfig, fm: ForecastModel, m: McfRecord, k: string)
    requires forall j | 0 <= j < |t.availableIntervals| :: 0 <= t.availableIntervals[j] <= MaxInstant
    requires k in TimeNames
    ensures var md := FromWrites(MetadataWritesAll(config, t, fm, m));
            Get(md, k) == (if HasKey(TimeWrites(t), k) then LastWrite(TimeWrites(t), k) else LastWrite(config, k))
  {
    BlockKeysDisjoint();
    assert k !in GenericNames && k !in McfNames && k != "geomet_ows_http_max_age";
    LaterBlocksSkip(config + TimeWrites(t), t, fm, m, k);
    LastWriteConcat(config, TimeWrites(t), k);
  }

  /** A key outside the cache lifetime, the generic block and the MCF keys
      is decided before those blocks. */
  lemma LaterBlocksSkip(early: Dict<Value>, t: TimeConfig, fm: ForecastModel, m: McfRecord, k: string)
    requires k !in GenericNames && k !in McfNames && k != "geomet_ows_http_max_age"
    ensures LastWrite(early + [MaxAgeWrite(fm)] + GenericWrites("default range") + Mcf2LayerMetadata(m), k) == LastWrite(early, k)
  {
    LastWriteConcat(early + [MaxAgeWrite(fm)] + GenericWrites("default range"), Mcf2LayerMetadata(m), k);
    LastWriteConcat(early + [MaxAgeWrite(fm)], GenericWrites("default range"), k);
    LastWriteConcat(early, [MaxAgeWrite(fm)], k);
    assert !HasKey([MaxAgeWrite(fm)], k);
  }

  /** `wms_available_intervals` is set exactly when there are intervals;
      it then holds their comma-joined `DATEFORMAT` strings, which parse
      back to the intervals. Without intervals the configuration's value,
      if any, stays. */
  lemma AvailableIntervals(config: Dict<Value>, t: TimeConfig, fm: ForecastModel, m: McfRecord)
    requires forall j | 0 <= j < |t.availableIntervals| :: 0 <= t.availableIntervals[j] <= MaxInstant
    ensures var md := FromWrites(MetadataWritesAll(config, t, fm, m));
            && (|t.availableIntervals| > 0 ==>
                  && Get(md, "wms_available_intervals") == Some(Str(IntervalsText(t.availableIntervals)))
                  && ParseAll(Split(IntervalsText(t.availableIntervals), ',')) == Some(t.availableIntervals))
            && (|t.availableIntervals| == 0 ==> Get(md, "wms_available_intervals") == LastWrite(config, "wms_available_intervals"))
  {
    TimeWins(config, t, fm, m, "wms_available_intervals");
    if |t.availableIntervals| > 0 {
      TimeBlockIntervals(t);
      IntervalsRoundTrip(t.availableIntervals);
    }
  }

  /** Within the time block, the intervals are written once. */
  lemma TimeBlockIntervals(t: TimeConfig)
    requires forall j | 0 <= j < |t.availableIntervals| :: 0 <= t.availableIntervals[j] <= MaxInstant
    requires |t.availableIntervals| > 0
    ensures LastWrite(TimeWrites(t), "wms_available_intervals") == Some(Str(IntervalsText(t.availableIntervals)))
  {
    var k := "wms_available_intervals";
    BlockKeysDisjoint();
    LastWriteConcat(TimeFixedPart(t) + IntervalsWrite(t), ReferenceWrite(t), k);
    LastWriteConcat(TimeFixedPart(t), IntervalsWrite(t), k);
    assert IntervalsWrite(t)[0].0 == k;
  }

  /** `wms_reference_time_extent` comes from the time record exactly when
      the default model run is set and non-empty. */
  lemma ReferenceTimeExtent(config: Dict<Value>, t: TimeConfig, fm: ForecastModel, m: McfRecord)
    requires forall j | 0 <= j < |t.availableIntervals| :: 0 <= t.availableIntervals[j] <= MaxInstant
    ensures var md := FromWrites(MetadataWritesAll(config, t, fm, m));
            && (Truthy(t.defaultModelRun) ==> Get(md, "wms_reference_time_extent") == Some(OptStr(t.modelRunExtent)))
            && (!Truthy(t.defaultModelRun) ==> Get(md, "wms_reference_time_extent") == LastWrite(config, "wms_reference_time_extent"))
  {
    var k := "wms_reference_time_extent";
    TimeWins(config, t, fm, m, k);
    if Truthy(t.defaultModelRun) {
      LastWriteConcat(TimeFixedPart(t) + IntervalsWrite(t), ReferenceWrite(t), k);
      assert ReferenceWrite(t)[0].0 == k;
    }
  }

  /** A configuration key that no later block writes keeps the
      configuration's last value: together with `ModelMetadataWins`, the
      forecast model's entries override the layer's own. */
  lemma ConfigSurvives(config: Dict<Value>, t: TimeConfig, fm: ForecastModel, m: McfRecord, k: string)
    requires forall j | 0 <= j < |t.availableIntervals| :: 0 <= t.availableIntervals[j] <= MaxInstant
    requires k !in TimeNames && k !in GenericNames && k !in McfNames && k != "geomet_ows_http_max_age"
    ensures Get(FromWrites(MetadataWritesAll(config, t, fm, m)), k) == LastWrite(config, k)
  {
    LaterBlocksSkip(config + TimeWrites(t), t, fm, m, k);
    LastWriteConcat(config, TimeWrites(t), k);
  }

  /** The characters `strip('.json')` removes. */
  const JsonChars: set<char> := {'.', 'j', 's', 'o', 'n'}

  /** A compiled layer's `classgroup`, `classes` and `metadata` are the
      stripped first style, the styles' classes in order, and the metadata
      built from the configuration, the store's time record and the MCF
      record in last-writer-wins order. */
  lemma GenLayerParts(st: Store, nowMicros: int, res: Resources, name: string, info: LayerInfo)
    requires GenLayer(st, nowMicros, res, name, info).Ok?
    ensures LayerTimeConfig(st, name, nowMicros).Ok?
    ensures info.forecastModel.extent.Some? && ConfigWrites(info, info.forecastModel.extent.value).Ok?
    ensures info.forecastModel.mcf in res.mcf
    ensures ClassGroup(info.styles, JsonChars).Ok? && StyleClasses(res.styles, info.styles).Ok?
    ensures var layer := GenLayer(st, nowMicros, res, name, info).value[0].fields;
            && Get(layer, "classgroup") == Some(Str(ClassGroup(info.styles, JsonChars).value))
            && Get(layer, "classes") == Some(List(StyleClasses(res.styles, info.styles).value))
            && Get(layer, "metadata") == Some(Obj(FromWrites(MetadataWritesAll(
                 ConfigWrites(info, info.forecastModel.extent.value).value,
                 LayerTimeConfig(st, name, nowMicros).value, info.forecastModel, res.mcf[info.forecastModel.mcf]))))
  {
    var time := LayerTimeConfig(st, name, nowMicros).value;
    var projection := ReadProjection(res.projections, info.forecastModel.projection).value;
    var params := ParamWrites(info).value;
    var classgroup := ClassGroup(info.styles, JsonChars).value;
    var classes := StyleClasses(res.styles, info.styles).value;
    var config := ConfigWrites(info, info.forecastModel.extent.value).value;
    var metadata := FromWrites(MetadataWritesAll(config, time, info.forecastModel, res.mcf[info.forecastModel.mcf]));
    TailWritesWin(LayerHeadWrites(name, info, projection, params), classgroup, classes, metadata);
  }

  /** `strip('.json')` strips characters, not the suffix: the class group
      of `dir/base.json` is `base` with `.`, `j`, `s`, `o`, `n` stripped
      from both ends, so `styles/rain.json` gives `rai`. */
  lemma ClassGroupOfJsonStyle(dir: string, base: string, rest: seq<string>)
    requires '/' !in base
    ensures ClassGroup([dir + "/" + base + ".json"] + rest, JsonChars) == Ok(Strip(base, JsonChars))
    ensures ClassGroup([base + ".json"] + rest, JsonChars) == Ok(Strip(base, JsonChars))
  {
    ClassGroupOfStyle(dir, base, ".json", rest, JsonChars);
  }

  /** `gen_layer` fails with `LayerTimeConfigError` exactly when the layer
      has no usable `time_extent`: the check happens before anything else. */
  lemma OnlyTimeErrorIsCaught(st: Store, nowMicros: int, res: Resources, name: string, info: LayerInfo)
    requires !Truthy(RawGet(st, RegistryKey(name, "time_extent")))
    ensures GenLayer(st, nowMicros, res, name, info) == Err(LayerTimeConfigError(name))
  {
  }
}

=== FILE: layer3.dfy ===
/** `gen_layer` of geomet3_mapfile/mapfile.py: a main LAYER object,
    preceded by a tile-index LAYER for raster, `uvraster` and `contour`
    layers, with the time dimension left as empty placeholders for the
    server to fill per request. */
module Layer3 {
  import opened Wrappers
  import opened Text
  import opened Dicts
  import opened Errors
  import opened Values
  import opened LayerConfig
  import Layer

  /** The deployment settings the generator reads from its environment. */
  datatype Env = Env(dataDir: string, tileindexUrl: string)

  /** An MCF record in the INI form: every entry is a single string, and
      each `gc_cst` keyword entry is optional on its own. */
  datatype IniMcf = IniMcf(
    abstractEn: string,
    abstractFr: string,
    keywordsEn: string,
    keywordsFr: string,
    gcCstEn: Option<string>,
    gcCstFr: Option<string>,
    datasetUri: string,
    identifier: string)

  /** The files `gen_layer` opens, by the name the configuration gives:
      projection texts, INI MCF records (`.mcf`) and YAML MCF records
      (`.yml`). */
  datatype Resources3 = Resources3(
    projections: map<string, string>,
    iniMcf: map<string, IniMcf>,
    yamlMcf: map<string, McfRecord>)

  // ---------------------------------------------------------------------
  // The MCF block

  /** The keys the MCF block writes, in order. */
  const McfNames3: seq<string> := [
    "ows_abstract", "ows_abstract_fr", "ows_keywordlist", "ows_keywordlist_fr",
    "ows_identifier_value", "ows_metadataurl_href"]

  /** The CSW record URL up to the identifier, which is appended as is. */
  const CswBase3: string :=
    "https://csw.open.canada.ca/geonetwork/srv/csw?service=CSW&version=2.0.2&request=GetRecordById"
    + "&outputschema=csw:IsoRecord&elementsetname=full&id="

  /** An INI keyword entry, then `, ` and the `gc_cst` entry when present. */
  function IniKeywords(primary: string, gcCst: Option<string>): (r: string)
    ensures gcCst.None? ==> r == primary
    ensures gcCst.Some? ==> r == primary + ", " + gcCst.value
  {
    match gcCst
    case None => primary
    case Some(g) => primary + ", " + g
  }

  /** A YAML keyword list joined with `, `, then `, ` and the joined
      `gc_cst` list when present. */
  function YamlKeywords(primary: seq<string>, gcCst: Option<seq<string>>): (r: string)
    ensures gcCst.None? ==> r == Join(primary, ", ")
    ensures gcCst.Some? ==> r == Join(primary, ", ") + ", " + Join(gcCst.value, ", ")
  {
    match gcCst
    case None => Join(primary, ", ")
    case Some(g) => Join(primary, ", ") + ", " + Join(g, ", ")
  }

  /** The MCF block: read as INI for a `.mcf` name, as YAML for a `.yml`
      name, and nothing at all (no file opened) for any other name. */
  function McfWrites3(res: Resources3, name: string): (r: Result<Dict<Value>, Error>)
    ensures !EndsWith(name, ".mcf") && !EndsWith(name, ".yml") ==> r == Ok([])
    ensures EndsWith(name, ".mcf") ==> (r.Ok? <==> name in res.iniMcf)
    ensures !EndsWith(name, ".mcf") && EndsWith(name, ".yml") ==> (r.Ok? <==> name in res.yamlMcf)
    ensures r.Err? ==> r.error == FileNotFoundError(name)
    ensures r.Ok? && r.value != [] ==> |r.value| == 6 && forall i | 0 <= i < 6 :: r.value[i].0 == McfNames3[i]
    ensures r.Ok? && r.value != [] ==> forall k :: HasKey(r.value, k) <==> k in McfNames3
  {
    if EndsWith(name, ".mcf") then
      if name !in res.iniMcf then Err(FileNotFoundError(name))
      else
        var m := res.iniMcf[name];
        Ok(Zip(McfNames3,
               [Str(m.abstractEn), Str(m.abstractFr),
                Str(IniKeywords(m.keywordsEn, m.gcCstEn)), Str(IniKeywords(m.keywordsFr, m.gcCstFr)),
                Str(m.datasetUri), Str(CswBase3 + m.identifier)]))
    else if EndsWith(name, ".yml") then
      if name !in res.yamlMcf then Err(FileNotFoundError(name))
      else
        var m := res.yamlMcf[name];
        var gcEn := if m.gcCst.Some? then Some(m.gcCst.value.0) else None;
        var gcFr := if m.gcCst.Some? then Some(m.gcCst.value.1) else None;
        Ok(Zip(McfNames3,
               [m.abstractEn, m.abstractFr,
                Str(YamlKeywords(m.keywordsEn, gcEn)), Str(YamlKeywords(m.keywordsFr, gcFr)),
                m.datasetUri, Str(CswBase3 + m.identifier)]))
    else Ok([])
  }

  /** Unlike geomet_mapfile, the CSW link names the record's own
      identifier, which can be read back from it. */
  lemma MetadataUrlNamesRecord(res: Resources3, name: string)
    requires McfWrites3(res, name).Ok? && McfWrites3(res, name).value != []
    ensures var href := McfWrites3(res, name).value[5].1;
            && href.Str? && StartsWith(href.s, CswBase3)
            && href.s[|CswBase3|..] == (if EndsWith(name, ".mcf") then res.iniMcf[name].identifier
                                        else res.yamlMcf[name].identifier)
  {
    var href := McfWrites3(res, name).value[5].1;
    var id := if EndsWith(name, ".mcf") then res.iniMcf[name].identifier else res.yamlMcf[name].identifier;
    assert href == Str(CswBase3 + id);
    assert (CswBase3 + id)[..|CswBase3|] == CswBase3;
    assert (CswBase3 + id)[|CswBase3|..] == id;
  }

  /** With a non-empty keyword list, the YAML keyword text is the same as
      geomet_mapfile's join of the extended list. */
  lemma YamlKeywordsAgree(primary: seq<string>, gcCst: Option<seq<string>>)
    requires |primary| > 0
    requires gcCst.Some? ==> |gcCst.value| > 0
    ensures YamlKeywords(primary, gcCst) == Join(Layer.Keywords(primary, gcCst), ", ")
  {
    if gcCst.Some? {
      JoinAppend(primary, gcCst.value, ", ");
    }
  }

  /** With an empty primary list the YAML keyword text starts with the
      separator: `[]` and `gc_cst` `["a"]` give `, a`. */
  lemma YamlKeywordsLeadingSeparator()
    ensures YamlKeywords([], Some(["a"])) == ", a"
    ensures Join(Layer.Keywords([], Some(["a"])), ", ") == "a"
  {
    assert [] + ["a"] == ["a"];
  }

  // ---------------------------------------------------------------------
  // The metadata

  /** The keys the time block writes. */
  const Time3Names: seq<string> := [
    "wms_dimensionlist", "wms_reference_time_item", "wms_reference_time_units",
    "wms_timeextent", "wms_timedefault", "wms_reference_time_extent", "wms_reference_time_default"]

  /** `time_enabled in ['yes', 'future']`. */
  predicate TimeEnabled(v: Value) {
    v == Str("yes") || v == Str("future")
  }

  /** The time block: the `reference_time` dimension and empty
      placeholders for the extents and defaults, written only for
      time-enabled layers. */
  function Time3Writes(enabled: Value): (w: Dict<Value>)
    ensures !TimeEnabled(enabled) ==> w == []
    ensures TimeEnabled(enabled) ==> |w| == 7 && forall i | 0 <= i < 7 :: w[i].0 == Time3Names[i]
    ensures TimeEnabled(enabled) ==> && w[0].1 == Str("reference_time")
                                     && w[1].1 == Str("properties.reference_datetime")
                                     && w[2].1 == Str("ISO8601")
                                     && forall i | 3 <= i < 7 :: w[i].1 == Str("")
    ensures forall k :: HasKey(w, k) <==> TimeEnabled(enabled) && k in Time3Names
  {
    if TimeEnabled(enabled) then
      Zip(Time3Names,
          [Str("reference_time"), Str("properties.reference_datetime"), Str("ISO8601"),
           Str(""), Str(""), Str(""), Str("")])
    else []
  }

  /** `geomet_ows_http_max_age`: seconds as a decimal string, or `''`. */
  function MaxAgeWrite3(fm: ForecastModel): (string, Value) {
    ("geomet_ows_http_max_age", match MaxAgeSeconds(fm)
                                case Some(n) => Str(IntToString(n))
                                case None => Str(""))
  }

  /** Everything written to `layer['metadata']` after it is reset, in
      order: the configuration, the time block, the cache lifetime, the
      MCF block, then the generic block. */
  function MetadataWrites3(config: Dict<Value>, enabled: Value, fm: ForecastModel, mcf: Dict<Value>): Dict<Value> {
    config + Time3Writes(enabled) + [MaxAgeWrite3(fm)] + mcf + GenericWrites("Default Range")
  }

  /** The key lists of the metadata blocks are disjoint. */
  lemma BlockKeysDisjoint3()
    ensures forall i | 0 <= i < |McfNames3| :: McfNames3[i] !in GenericNames && McfNames3[i] != "geomet_ows_http_max_age"
    ensures forall i | 0 <= i < |Time3Names| ::
              Time3Names[i] !in GenericNames && Time3Names[i] !in McfNames3 && Time3Names[i] != "geomet_ows_http_max_age"
    ensures "geomet_ows_http_max_age" !in GenericNames
    ensures forall i, j | 0 <= i < j < |Time3Names| :: Time3Names[i] != Time3Names[j]
    ensures forall i, j | 0 <= i < j < |McfNames3| :: McfNames3[i] != McfNames3[j]
  {
  }

  /** The generic block is written last: its keys hold its values, with
      the range-set label spelled `Default Range`. */
  lemma GenericWins3(config: Dict<Value>, enabled: Value, fm: ForecastModel, mcf: Dict<Value>, i: int)
    requires 0 <= i < |GenericNames|
    ensures Get(FromWrites(MetadataWrites3(config, enabled, fm, mcf)), GenericNames[i]) == Some(GenericWrites("Default Range")[i].1)
    ensures GenericWrites("Default Range")[9].1 == Str("Default Range")
  {
    var generic := GenericWrites("Default Range");
    LastWriteConcat(config + Time3Writes(enabled) + [MaxAgeWrite3(fm)] + mcf, generic, GenericNames[i]);
    GenericNamesUnique();
    LastWriteAt(generic, i);
  }

  /** The MCF block overrides the configuration for its keys; when no MCF
      block is read, the configuration's values stay. */
  lemma McfWins3(config: Dict<Value>, enabled: Value, fm: ForecastModel, mcf: Dict<Value>, i: int)
    requires |mcf| == 6 && forall j | 0 <= j < 6 :: mcf[j].0 == McfNames3[j]
    requires 0 <= i < 6
    ensures Get(FromWrites(MetadataWrites3(config, enabled, fm, mcf)), McfNames3[i]) == Some(mcf[i].1)
  {
    var k := McfNames3[i];
    BlockKeysDisjoint3();
    assert k !in GenericNames;
    LastWriteConcat(config + Time3Writes(enabled) + [MaxAgeWrite3(fm)] + mcf, GenericWrites("Default Range"), k);
    LastWriteConcat(config + Time3Writes(enabled) + [MaxAgeWrite3(fm)], mcf, k);
    LastWriteAt(mcf, i);
  }

  /** `geomet_ows_http_max_age` is the cache lifetime in seconds as a
      string, or `''`, whatever the configuration wrote under that key. */
  lemma MaxAgeWins3(config: Dict<Value>, enabled: Value, fm: ForecastModel, mcf: Dict<Value>)
    requires forall k :: HasKey(mcf, k) ==> k in McfNames3
    ensures var md := FromWrites(MetadataWrites3(config, enabled, fm, mcf));
            && (MaxAgeSeconds(fm).Some? ==> Get(md, "geomet_ows_http_max_age") == Some(Str(IntToString(MaxAgeSeconds(fm).value))))
            && (MaxAgeSeconds(fm).None? ==> Get(md, "geomet_ows_http_max_age") == Some(Str("")))
  {
    var k := "geomet_ows_http_max_age";
    BlockKeysDisjoint3();
    assert !HasKey(mcf, k);
    LastWriteConcat(config + Time3Writes(enabled) + [MaxAgeWrite3(fm)] + mcf, GenericWrites("Default Range"), k);
    LastWriteConcat(config + Time3Writes(enabled) + [MaxAgeWrite3(fm)], mcf, k);
    LastWriteConcat(config + Time3Writes(enabled), [MaxAgeWrite3(fm)], k);
    assert [MaxAgeWrite3(fm)][0].0 == k;
  }

  /** For a time-enabled layer the `reference_time` dimension is declared
      and the four extents and defaults are empty placeholders; otherwise
      the configuration's values for those keys, if any, stay. */
  lemma TimePlaceholders(config: Dict<Value>, enabled: Value, fm: ForecastModel, mcf: Dict<Value>, i: int)
    requires forall k :: HasKey(mcf, k) ==> k in McfNames3
    requires 0 <= i < |Time3Names|
    ensures var md := FromWrites(MetadataWrites3(config, enabled, fm, mcf));
            && (TimeEnabled(enabled) && i >= 3 ==> Get(md, Time3Names[i]) == Some(Str("")))
            && (TimeEnabled(enabled) && i == 0 ==> Get(md, Time3Names[i]) == Some(Str("reference_time")))
            && (TimeEnabled(enabled) && i == 1 ==> Get(md, Time3Names[i]) == Some(Str("properties.reference_datetime")))
            && (TimeEnabled(enabled) && i == 2 ==> Get(md, Time3Names[i]) == Some(Str("ISO8601")))
            && (!TimeEnabled(enabled) ==> Get(md, Time3Names[i]) == LastWrite(config, Time3Names[i]))
  {
    TimeKeyNotLater3(fm, mcf, i);
    DecidedFirst(config + Time3Writes(enabled), [MaxAgeWrite3(fm)], mcf, GenericWrites("Default Range"), Time3Names[i]);
    TimeBlockDecides3(config, enabled, i);
  }

  /** No block after the time block writes one of its keys. */
  lemma TimeKeyNotLater3(fm: ForecastModel, mcf: Dict<Value>, i: int)
    requires forall k :: HasKey(mcf, k) ==> k in McfNames3
    requires 0 <= i < |Time3Names|
    ensures !HasKey([MaxAgeWrite3(fm)], Time3Names[i])
    ensures !HasKey(mcf, Time3Names[i])
    ensures !HasKey(GenericWrites("Default Range"), Time3Names[i])
  {
    BlockKeysDisjoint3();
    assert [MaxAgeWrite3(fm)][0].0 == "geomet_ows_http_max_age";
  }

  /** After the configuration and the time block, a time key holds the
      time block's value when time is enabled and the configured value
      otherwise. */
  lemma TimeBlockDecides3(config: Dict<Value>, enabled: Value, i: int)
    requires 0 <= i < |Time3Names|
    ensures var w := LastWrite(config + Time3Writes(enabled), Time3Names[i]);
            && (TimeEnabled(enabled) && i >= 3 ==> w == Some(Str("")))
            && (TimeEnabled(enabled) && i == 0 ==> w == Some(Str("reference_time")))
            && (TimeEnabled(enabled) && i == 1 ==> w == Some(Str("properties.reference_datetime")))
            && (TimeEnabled(enabled) && i == 2 ==> w == Some(Str("ISO8601")))
            && (!TimeEnabled(enabled) ==> w == LastWrite(config, Time3Names[i]))
  {
    var k := Time3Names[i];
    LastWriteConcat(config, Time3Writes(enabled), k);
    if TimeEnabled(enabled) {
      BlockKeysDisjoint3();
      LastWriteAt(Time3Writes(enabled), i);
    }
  }

  // ---------------------------------------------------------------------
  // The layers

  /** The connection types that call for a tile index, compared in lower case. */
  const TileindexConnTypes: seq<string> := ["uvraster", "contour"]

  /** A layer gets a tile index when its type is `raster` or its
      connection type is `uvraster` or `contour` in any letter case. */
  predicate UsesTileindex(layerType: Value, conntype: Option<string>) {
    layerType == Str("raster") || (conntype.Some? && AsciiLower(conntype.value) in TileindexConnTypes)
  }

  /** The tile-index LAYER: an OGR polygon layer over the tile-index URL,
      switched off and hidden from every OWS request. */
  function TileindexLayer(name: string, url: string): (d: Dict<Value>)
    ensures UniqueKeys(d)
    ensures Get(d, "name") == Some(Str(name + "_idx"))
    ensures Get(d, "CONNECTION") == Some(Str("\"" + url + "\""))
    ensures Get(d, "status") == Some(Str("OFF"))
  {
    var w := [("__type__", Str("layer")), ("name", Str(name + "_idx")), ("type", Str("POLYGON")),
              ("status", Str("OFF")), ("CONNECTIONTYPE", Str("OGR")), ("CONNECTION", Str("\"" + url + "\"")),
              ("metadata", Obj([("__type__", Str("metadata")), ("ows_enable_request", Str("!*"))])),
              ("filter", Str(""))];
    LastWriteAt(w, 1);
    LastWriteAt(w, 3);
    LastWriteAt(w, 5);
    FromWrites(w)
  }

  /** The nine writes that open the main layer, up to the placeholder
      metadata. */
  function MainFixedWrites(name: string): (w: Dict<Value>)
    ensures |w| == 9 && w[3] == ("name", Str(name))
    ensures forall j | 3 < j < 9 :: w[j].0 != "name"
  {
    [("__type__", Str("layer")), ("tolerance", Int(15)), ("template", Str("ttt.html")),
     ("name", Str(name)), ("debug", Int(5)), ("type", Str("RASTER")),
     ("template", Str("ttt.html")), ("tolerance", Int(15)),
     ("metadata", Obj([("__type__", Str("metadata")), ("gml_include_items", Str("all")), ("ows_include_items", Str("all"))]))]
  }

  /** `tileindex` and `tileitem`, written when the tile-index layer exists. */
  function TileRefWrites(name: string, tiled: bool): (w: Dict<Value>)
    ensures !tiled ==> w == []
    ensures tiled ==> w == [("tileindex", Str(name + "_idx")), ("tileitem", Str("properties.filepath"))]
  {
    if tiled then [("tileindex", Str(name + "_idx")), ("tileitem", Str("properties.filepath"))] else []
  }

  /** `CONNECTIONTYPE`, and `extent` for a connection type that is exactly
      `uvraster` (no case folding here) when the forecast model declares one. */
  function ConnectionWrites3(info: LayerInfo): (w: Dict<Value>)
    ensures forall k :: HasKey(w, k) ==> k == "CONNECTIONTYPE" || k == "extent"
  {
    match info.conntype
    case None => []
    case Some(c) =>
      var w := [("CONNECTIONTYPE", Str(c))]
               + (if c == "uvraster" && info.forecastModel.extent.Some? then [("extent", info.forecastModel.extent.value)] else []);
      assert forall j | 0 <= j < |w| :: w[j].0 == "CONNECTIONTYPE" || w[j].0 == "extent";
      w
  }

  /** The projection, processing and configured type. */
  function MiddleWrites(projection: seq<string>, info: LayerInfo, layerType: Value): (w: Dict<Value>)
    ensures forall k :: HasKey(w, k) ==> k in ["projection", "processing", "type"]
  {
    var w := [("projection", List(Strs(projection))), ("processing", List(Processing(info))), ("type", layerType)];
    assert forall j | 0 <= j < 3 :: w[j].0 in ["projection", "processing", "type"];
    w
  }

  /** The main layer's writes before the final three, in order. */
  function MainHeadWrites(name: string, tiled: bool, projection: seq<string>, info: LayerInfo, layerType: Value, params: Dict<Value>): Dict<Value> {
    MainFixedWrites(name) + TileRefWrites(name, tiled) + MiddleWrites(projection, info, layerType)
    + ConnectionWrites3(info) + params
  }

  /** `layer['include']`: each style's path under the data directory. */
  function Includes(dataDir: string, styles: seq<string>): (r: seq<string>)
    ensures |r| == |styles|
    ensures forall i | 0 <= i < |styles| :: r[i] == PathJoin(dataDir, styles[i])
  {
    seq(|styles|, i requires 0 <= i < |styles| => PathJoin(dataDir, styles[i]))
  }

  /** The final three writes: `classgroup`, `include` and the metadata. */
  function MainTailWrites(classgroup: string, includes: seq<string>, metadata: Dict<Value>): (w: Dict<Value>)
    ensures forall k :: HasKey(w, k) ==> k in ["classgroup", "include", "metadata"]
  {
    var w := [("classgroup", Str(classgroup)), ("include", List(Strs(includes))), ("metadata", Obj(metadata))];
    assert forall j | 0 <= j < 3 :: w[j].0 in ["classgroup", "include", "metadata"];
    w
  }

  /** The characters `strip(".inc")` removes. */
  const IncChars: set<char> := {'.', 'i', 'n', 'c'}

  /** The configured value of a key the code reads with `[]`. */
  function Required(v: Option<Value>, key: string): (r: Result<Value, Error>)
    ensures r.Ok? <==> v.Some?
    ensures r.Ok? ==> r.value == v.value
    ensures r.Err? ==> r.error == KeyError(key)
  {
    if v.Some? then Ok(v.value) else Err(KeyError(key))
  }

  /** What `gen_layer` reads and checks before it assembles anything. */
  datatype Parts3 = Parts3(
    layerType: Value,
    projection: seq<string>,
    params: Dict<Value>,
    classgroup: string,
    config: Dict<Value>,
    enabled: Value,
    mcf: Dict<Value>)

  /** The reads of `gen_layer`, in the order the code makes them, stopping
      at the first exception. */
  function Gather3(res: Resources3, info: LayerInfo): (r: Result<Parts3, Error>)
    ensures info.layerType.None? ==> r == Err(KeyError("type"))
    ensures r.Ok? ==> && info.layerType == Some(r.value.layerType)
                      && ReadProjection(res.projections, info.forecastModel.projection) == Ok(r.value.projection)
                      && ParamWrites(info) == Ok(r.value.params)
                      && ClassGroup(info.styles, IncChars) == Ok(r.value.classgroup)
                      && info.forecastModel.extent.Some?
                      && ConfigWrites(info, info.forecastModel.extent.value) == Ok(r.value.config)
                      && info.timeEnabled == Some(r.value.enabled)
                      && McfWrites3(res, info.forecastModel.mcf) == Ok(r.value.mcf)
    ensures r.Ok? <== && info.layerType.Some?
                      && ReadProjection(res.projections, info.forecastModel.projection).Ok?
                      && ParamWrites(info).Ok?
                      && ClassGroup(info.styles, IncChars).Ok?
                      && info.forecastModel.extent.Some?
                      && ConfigWrites(info, info.forecastModel.extent.value).Ok?
                      && info.timeEnabled.Some?
                      && McfWrites3(res, info.forecastModel.mcf).Ok?
    ensures var proj := ReadProjection(res.projections, info.forecastModel.projection);
            var params := ParamWrites(info);
            var group := ClassGroup(info.styles, IncChars);
            var extent := info.forecastModel.extent;
            var mcf := McfWrites3(res, info.forecastModel.mcf);
            info.layerType.Some? ==>
              if proj.Err? then r == Err(proj.error)
              else if params.Err? then r == Err(params.error)
              else if group.Err? then r == Err(group.error)
              else if extent.None? then r == Err(KeyError("extent"))
              else if ConfigWrites(info, extent.value).Err? then r == Err(ConfigWrites(info, extent.value).error)
              else if info.timeEnabled.None? then r == Err(KeyError("time_enabled"))
              else if mcf.Err? then r == Err(mcf.error)
              else r.Ok?
  {
    var layerType :- Required(info.layerType, "type");
    var projection :- ReadProjection(res.projections, info.forecastModel.projection);
    var params :- ParamWrites(info);
    var classgroup :- ClassGroup(info.styles, IncChars);
    var extent :- Required(info.forecastModel.extent, "extent");
    var config :- ConfigWrites(info, extent);
    var enabled :- Required(info.timeEnabled, "time_enabled");
    var mcf :- McfWrites3(res, info.forecastModel.mcf);
    Ok(Parts3(layerType, projection, params, classgroup, config, enabled, mcf))
  }

  /** The main layer's metadata. */
  function Metadata3(info: LayerInfo, p: Parts3): Dict<Value> {
    FromWrites(MetadataWrites3(p.config, p.enabled, info.forecastModel, p.mcf))
  }

  /** The main layer's writes, in order. */
  function MainWrites3(env: Env, name: string, info: LayerInfo, p: Parts3): Dict<Value> {
    MainHeadWrites(name, UsesTileindex(p.layerType, info.conntype), p.projection, info, p.layerType, p.params)
    + MainTailWrites(p.classgroup, Includes(env.dataDir, info.styles), Metadata3(info, p))
  }

  /** `gen_layer(layer_name, layer_info)`: the tile-index layer when one is
      needed, then the main layer, or the first exception the code raises,
      in the order it raises them. */
  function GenLayer3(env: Env, res: Resources3, name: string, info: LayerInfo): (r: Result<seq<Value>, Error>)
    ensures info.layerType.None? ==> r == Err(KeyError("type"))
    ensures r.Ok? <==> Gather3(res, info).Ok?
    ensures r.Ok? ==> info.layerType.Some?
                      && |r.value| == (if UsesTileindex(info.layerType.value, info.conntype) then 2 else 1)
    ensures r.Ok? ==> forall i | 0 <= i < |r.value| :: r.value[i].Obj? && UniqueKeys(r.value[i].fields)
    ensures r.Ok? ==> r.value[|r.value| - 1] == Obj(FromWrites(MainWrites3(env, name, info, Gather3(res, info).value)))
    ensures r.Ok? && |r.value| == 2 ==> r.value[0] == Obj(TileindexLayer(name, env.tileindexUrl))
  {
    var p :- Gather3(res, info);
    Ok(LayerList(UsesTileindex(p.layerType, info.conntype), TileindexLayer(name, env.tileindexUrl),
                 FromWrites(MainWrites3(env, name, info, p))))
  }

  /** The layers `gen_layer` returns: the tile-index layer when used, then
      the main layer. */
  function LayerList(tiled: bool, tileindex: Dict<Value>, main: Dict<Value>): (r: seq<Value>)
    requires UniqueKeys(tileindex) && UniqueKeys(main)
    ensures |r| == (if tiled then 2 else 1)
    ensures r[|r| - 1] == Obj(main)
    ensures tiled ==> r[0] == Obj(tileindex)
    ensures forall i | 0 <= i < |r| :: r[i].Obj? && UniqueKeys(r[i].fields)
  {
    if tiled then [Obj(tileindex), Obj(main)] else [Obj(main)]
  }

  // ---------------------------------------------------------------------
  // Properties

  /** A compiled main layer's `classgroup`, `include` and `metadata` are
      the values written last. */
  lemma MainTailWins(head: Dict<Value>, classgroup: string, includes: seq<string>, metadata: Dict<Value>)
    ensures var layer := FromWrites(head + MainTailWrites(classgroup, includes, metadata));
            && Get(layer, "classgroup") == Some(Str(classgroup))
            && Get(layer, "include") == Some(List(Strs(includes)))
            && Get(layer, "metadata") == Some(Obj(metadata))
  {
    var w := head + MainTailWrites(classgroup, includes, metadata);
    var n := |w|;
    assert w[n - 3] == ("classgroup", Str(classgroup));
    assert w[n - 2] == ("include", List(Strs(includes)));
    assert w[n - 1] == ("metadata", Obj(metadata));
    LastWriteAt(w, n - 3);
    LastWriteAt(w, n - 2);
    LastWriteAt(w, n - 1);
  }

  /** A key the configured parameters, the connection, the middle writes
      and the tail leave alone keeps the value the opening writes gave it. */
  lemma HeadKeySurvives(name: string, tiled: bool, projection: seq<string>, info: LayerInfo, layerType: Value,
                        params: Dict<Value>, tail: Dict<Value>, k: string)
    requires !HasKey(params, k) && !HasKey(tail, k)
    requires k !in ["projection", "processing", "type", "CONNECTIONTYPE", "extent"]
    ensures LastWrite(MainHeadWrites(name, tiled, projection, info, layerType, params) + tail, k)
            == LastWrite(MainFixedWrites(name) + TileRefWrites(name, tiled), k)
  {
    var a := MainFixedWrites(name) + TileRefWrites(name, tiled);
    var m := MiddleWrites(projection, info, layerType);
    var c := ConnectionWrites3(info);
    LastWriteConcat(a + m + c + params, tail, k);
    LastWriteConcat(a + m + c, params, k);
    LastWriteConcat(a + m, c, k);
    LastWriteConcat(a, m, k);
  }

  /** In the main layer built from the opening writes, the name comes from
      the configuration unless a layer parameter overrides it. */
  lemma MainName(name: string, tiled: bool, projection: seq<string>, info: LayerInfo, layerType: Value,
                 params: Dict<Value>, tail: Dict<Value>)
    requires forall k :: HasKey(tail, k) ==> k in ["classgroup", "include", "metadata"]
    requires !HasKey(params, "name")
    ensures LastWrite(MainHeadWrites(name, tiled, projection, info, layerType, params) + tail, "name") == Some(Str(name))
  {
    var fixed := MainFixedWrites(name);
    var refs := TileRefWrites(name, tiled);
    HeadKeySurvives(name, tiled, projection, info, layerType, params, tail, "name");
    LastWriteConcat(fixed, refs, "name");
    assert !HasKey(refs, "name");
    LastWriteAt(fixed, 3);
  }

  /** In the main layer built from the opening writes, `tileindex` names
      the tile-index layer exactly when there is one, unless a layer
      parameter overrides it. */
  lemma MainTileindex(name: string, tiled: bool, projection: seq<string>, info: LayerInfo, layerType: Value,
                      params: Dict<Value>, tail: Dict<Value>)
    requires forall k :: HasKey(tail, k) ==> k in ["classgroup", "include", "metadata"]
    requires !HasKey(params, "tileindex")
    ensures LastWrite(MainHeadWrites(name, tiled, projection, info, layerType, params) + tail, "tileindex")
            == if tiled then Some(Str(name + "_idx")) else None
  {
    HeadKeySurvives(name, tiled, projection, info, layerType, params, tail, "tileindex");
    OpeningTileindex(name, tiled);
  }

  /** Among the opening writes, only the tile-index reference writes
      `tileindex`. */
  lemma OpeningTileindex(name: string, tiled: bool)
    ensures LastWrite(MainFixedWrites(name) + TileRefWrites(name, tiled), "tileindex")
            == if tiled then Some(Str(name + "_idx")) else None
  {
    var fixed := MainFixedWrites(name);
    var refs := TileRefWrites(name, tiled);
    LastWriteConcat(fixed, refs, "tileindex");
    assert !HasKey(fixed, "tileindex") by {
      assert forall j | 0 <= j < |fixed| :: fixed[j].0 != "tileindex";
    }
    if tiled {
      LastWriteAt(refs, 0);
    }
  }

  /** The main layer comes last and, unless a layer parameter renames it,
      carries the layer's name. When a tile index is used, it comes first
      under the name `{name}_idx`, over the tile-index URL. */
  lemma LayerOrder3(env: Env, res: Resources3, name: string, info: LayerInfo)
    requires GenLayer3(env, res, name, info).Ok?
    ensures var layers := GenLayer3(env, res, name, info).value;
            && (!HasKey(ParamWrites(info).value, "name") ==> Get(layers[|layers| - 1].fields, "name") == Some(Str(name)))
            && (|layers| == 2 ==> Get(layers[0].fields, "name") == Some(Str(name + "_idx"))
                                  && Get(layers[0].fields, "CONNECTION") == Some(Str("\"" + env.tileindexUrl + "\"")))
  {
    var p := Gather3(res, info).value;
    var tail := MainTailWrites(p.classgroup, Includes(env.dataDir, info.styles), Metadata3(info, p));
    if !HasKey(p.params, "name") {
      MainName(name, UsesTileindex(p.layerType, info.conntype), p.projection, info, p.layerType, p.params, tail);
    }
  }

  /** The main layer refers to the tile-index layer by its name exactly
      when there is one, unless a layer parameter sets `tileindex`
      (`GenLayer3` returns the main layer built from these parts last, and
      the tile-index layer first exactly when it is used). */
  lemma TileindexReference(env: Env, name: string, info: LayerInfo, p: Parts3)
    requires !HasKey(p.params, "tileindex")
    ensures Get(FromWrites(MainWrites3(env, name, info, p)), "tileindex")
            == if UsesTileindex(p.layerType, info.conntype) then Some(Str(name + "_idx")) else None
  {
    var tiled := UsesTileindex(p.layerType, info.conntype);
    var head := MainHeadWrites(name, tiled, p.projection, info, p.layerType, p.params);
    var tail := MainTailWrites(p.classgroup, Includes(env.dataDir, info.styles), Metadata3(info, p));
    MainTileindex(name, tiled, p.projection, info, p.layerType, p.params, tail);
    GetFromWrites(head + tail, "tileindex");
  }

  /** A compiled main layer's `classgroup`, `include` and `metadata` are
      the stripped first style, the styles' paths under the data
      directory, and the metadata built in last-writer-wins order. */
  lemma GenLayer3Parts(env: Env, res: Resources3, name: string, info: LayerInfo)
    requires GenLayer3(env, res, name, info).Ok?
    ensures info.forecastModel.extent.Some? && ConfigWrites(info, info.forecastModel.extent.value).Ok?
    ensures info.timeEnabled.Some? && McfWrites3(res, info.forecastModel.mcf).Ok?
    ensures ClassGroup(info.styles, IncChars).Ok?
    ensures var layers := GenLayer3(env, res, name, info).value;
            var main := layers[|layers| - 1].fields;
            && Get(main, "classgroup") == Some(Str(ClassGroup(info.styles, IncChars).value))
            && Get(main, "include") == Some(List(Strs(Includes(env.dataDir, info.styles))))
            && Get(main, "metadata") == Some(Obj(FromWrites(MetadataWrites3(
                 ConfigWrites(info, info.forecastModel.extent.value).value, info.timeEnabled.value,
                 info.forecastModel, McfWrites3(res, info.forecastModel.mcf).value))))
  {
    var p := Gather3(res, info).value;
    MainTailWins(MainHeadWrites(name, UsesTileindex(p.layerType, info.conntype), p.projection, info, p.layerType, p.params),
                 p.classgroup, Includes(env.dataDir, info.styles), Metadata3(info, p));
  }

  /** A layer whose configuration lacks `time_enabled` fails with
      `KeyError` once everything read before it is well-formed. */
  lemma TimeEnabledRequired(env: Env, res: Resources3, name: string, info: LayerInfo)
    requires info.layerType.Some? && info.timeEnabled.None?
    requires info.forecastModel.projection in res.projections
    requires ParamWrites(info).Ok? && info.styles != []
    requires info.forecastModel.extent.Some? && ConfigWrites(info, info.forecastModel.extent.value).Ok?
    ensures GenLayer3(env, res, name, info) == Err(KeyError("time_enabled"))
  {
  }

  /** `strip(".inc")` strips characters, not the suffix: the class group
      of `dir/base.inc` or `base.inc` is `base` with `.`, `i`, `n`, `c`
      stripped from both ends, so `cloud.inc` gives `loud`. */
  lemma ClassGroupOfIncStyle(dir: string, base: string, rest: seq<string>)
    requires '/' !in base
    ensures ClassGroup([dir + "/" + base + ".inc"] + rest, IncChars) == Ok(Strip(base, IncChars))
    ensures ClassGroup([base + ".inc"] + rest, IncChars) == Ok(Strip(base, IncChars))
  {
    ClassGroupOfStyle(dir, base, ".inc", rest, IncChars);
  }
}

=== FILE: layerconfig.dfy ===
/** What both `gen_layer` implementations (geomet_mapfile/mapfile.py and
    geomet3_mapfile/mapfile.py) read from a layer's configuration, and the
    pieces of the LAYER object they build the same way. */
module LayerConfig {
  import opened Wrappers
  import opened Text
  import opened Seqs
  import opened Dicts
  import opened Errors
  import opened Values

  /** The `forecast_model` section of a layer's configuration. Keys the code
      tests with `in` are `Option`s; `extent` is read unconditionally for
      `ows_extent` and raises `KeyError` when absent. */
  datatype ForecastModel = ForecastModel(
    projection: string,
    processing: Option<seq<Value>>,
    extent: Option<Value>,
    labelEn: string,
    labelFr: string,
    metadata: Option<seq<string>>,
    dimensions: Option<seq<int>>,
    forecastHourInterval: Option<int>,
    observationsIntervalMin: Option<int>,
    mcf: string,
    outputFormats: Option<seq<string>>)

  /** A layer's configuration. geomet3 reads `type` and `time_enabled`
      unconditionally; geomet_mapfile tests `type` and never reads
      `time_enabled`. */
  datatype LayerInfo = LayerInfo(
    labelEn: Value,
    labelFr: Value,
    styles: seq<string>,
    processing: Option<seq<Value>>,
    layerType: Option<Value>,
    conntype: Option<string>,
    layerParams: Option<seq<string>>,
    metadata: Option<seq<string>>,
    timeEnabled: Option<Value>,
    symbols: Option<seq<string>>,
    forecastModel: ForecastModel)

  /** The lines of a projection file, with `\n` and `"` removed from each. */
  function ProjectionLines(text: string): (lines: seq<string>)
    ensures forall i | 0 <= i < |lines| :: '\n' !in lines[i] && '"' !in lines[i]
    ensures |lines| == |ReadLines(text)|
    ensures forall i | 0 <= i < |lines| :: '"' !in ReadLines(text)[i] ==> lines[i] == ReadLines(text)[i]
    ensures forall i | 0 <= i < |lines| ::
              SubSeq(lines[i], ReadLines(text)[i]) && KeptCounts(lines[i], ReadLines(text)[i], InSet({'\n', '"'}))
  {
    var raw := ReadLines(text);
    seq(|raw|, i requires 0 <= i < |raw| => RemoveChars(raw[i], {'\n', '"'}))
  }

  /** The file contents a projection name stands for; a missing file raises. */
  function ReadProjection(files: map<string, string>, name: string): (r: Result<seq<string>, Error>)
    ensures r.Ok? <==> name in files
    ensures r.Ok? ==> r.value == ProjectionLines(files[name])
  {
    if name in files then Ok(ProjectionLines(files[name])) else Err(FileNotFoundError(name))
  }

  /** `layer['processing']`: the layer's directives, then the forecast model's. */
  function Processing(info: LayerInfo): (r: seq<Value>)
    ensures |r| == |info.processing.GetOr([])| + |info.forecastModel.processing.GetOr([])|
    ensures r[..|info.processing.GetOr([])|] == info.processing.GetOr([])
    ensures r[|info.processing.GetOr([])|..] == info.forecastModel.processing.GetOr([])
  {
    info.processing.GetOr([]) + info.forecastModel.processing.GetOr([])
  }

  /** `param, value = params.split()`: exactly two words, else `ValueError`. */
  function ParamPair(params: string): (r: Result<(string, Value), Error>)
    ensures r.Ok? <==> |SplitWhitespace(params)| == 2
    ensures r.Ok? ==> r.value == (SplitWhitespace(params)[0], Str(SplitWhitespace(params)[1]))
  {
    var words := SplitWhitespace(params);
    if |words| == 2 then Ok((words[0], Str(words[1])))
    else Err(ValueError("not enough or too many values to unpack"))
  }

  /** `md_key, md_value = md.split('=')`: exactly one `=`, else `ValueError`. */
  function MetadataPair(md: string): (r: Result<(string, Value), Error>)
    ensures r.Ok? <==> |Split(md, '=')| == 2
    ensures r.Ok? ==> r.value == (Split(md, '=')[0], Str(Split(md, '=')[1]))
  {
    var parts := Split(md, '=');
    if |parts| == 2 then Ok((parts[0], Str(parts[1])))
    else Err(ValueError("not enough or too many values to unpack"))
  }

  /** The writes of a loop over `items` that stops at the first item `pair`
      rejects, raising its error. */
  function PairWrites(items: seq<string>, pair: string -> Result<(string, Value), Error>): (r: Result<Dict<Value>, Error>)
    ensures r.Ok? <==> forall i | 0 <= i < |items| :: pair(items[i]).Ok?
    ensures r.Ok? ==> |r.value| == |items| && forall i | 0 <= i < |items| :: r.value[i] == pair(items[i]).value
    ensures r.Err? ==> exists i | 0 <= i < |items| :: pair(items[i]) == Err(r.error)
                                                    && forall j | 0 <= j < i :: pair(items[j]).Ok?
  {
    if |items| == 0 then Ok([])
    else
      var head := pair(items[0]);
      if head.Err? then Err(head.error)
      else
        var rest := PairWrites(items[1..], pair);
        if rest.Err? then
          var i :| 0 <= i < |items[1..]| && pair(items[1..][i]) == Err(rest.error)
                   && forall j | 0 <= j < i :: pair(items[1..][j]).Ok?;
          assert pair(items[i + 1]) == Err(rest.error);
          assert forall j | 0 <= j < i + 1 :: pair(items[j]).Ok? by {
            forall j | 0 <= j < i + 1 ensures pair(items[j]).Ok? {
              if j > 0 { assert items[j] == items[1..][j - 1]; }
            }
          }
          Err(rest.error)
        else
          Ok([head.value] + rest.value)
  }

  /** The `layer_params` loop. */
  function ParamWrites(info: LayerInfo): Result<Dict<Value>, Error> {
    PairWrites(info.layerParams.GetOr([]), ParamPair)
  }

  /** The two `metadata` loops, the layer's then the forecast model's. */
  function MetadataWrites(info: LayerInfo): (r: Result<Dict<Value>, Error>)
    ensures r.Ok? ==> PairWrites(info.metadata.GetOr([]), MetadataPair).Ok?
                      && PairWrites(info.forecastModel.metadata.GetOr([]), MetadataPair).Ok?
                      && r.value == PairWrites(info.metadata.GetOr([]), MetadataPair).value
                                    + PairWrites(info.forecastModel.metadata.GetOr([]), MetadataPair).value
  {
    var own :- PairWrites(info.metadata.GetOr([]), MetadataPair);
    var model :- PairWrites(info.forecastModel.metadata.GetOr([]), MetadataPair);
    Ok(own + model)
  }

  /** A `key=value` entry with no other `=` gives back its key and value. */
  lemma MetadataPairRoundTrip(key: string, value: string)
    requires '=' !in key && '=' !in value
    ensures MetadataPair(key + "=" + value) == Ok((key, Str(value)))
  {
    SplitJoin([key, value], '=');
    assert Join([key, value], "=") == key + "=" + Join([value], "=");
  }

  /** A `param value` entry of two words gives back the parameter and value. */
  lemma ParamPairRoundTrip(param: string, value: string)
    requires |param| > 0 && |value| > 0
    requires forall k | 0 <= k < |param| :: !IsSpace(param[k])
    requires forall k | 0 <= k < |value| :: !IsSpace(value[k])
    ensures ParamPair(param + " " + value) == Ok((param, Str(value)))
  {
    SplitTwoWords(param, value);
  }

  /** `ows_size`: the first two dimensions separated by a space; fewer than
      two raise `IndexError`. */
  function SizeWrites(fm: ForecastModel): (r: Result<Dict<Value>, Error>)
    ensures fm.dimensions.None? ==> r == Ok([])
    ensures fm.dimensions.Some? ==> (r.Ok? <==> |fm.dimensions.value| >= 2)
    ensures r.Ok? && fm.dimensions.Some? ==>
              r.value == [("ows_size", Str(IntToString(fm.dimensions.value[0]) + " " + IntToString(fm.dimensions.value[1])))]
  {
    match fm.dimensions
    case None => Ok([])
    case Some(d) =>
      if |d| < 2 then Err(IndexError)
      else Ok([("ows_size", Str(IntToString(d[0]) + " " + IntToString(d[1])))])
  }

  /** `layer['classgroup']`: the last `/` piece of the first style with the
      characters of `chars` stripped from both ends (`str.strip` takes a
      character set, not a suffix). No style raises `IndexError`. */
  function ClassGroup(styles: seq<string>, chars: set<char>): (r: Result<string, Error>)
    ensures r.Err? <==> styles == []
    ensures r.Ok? ==> '/' !in r.value
    ensures r.Ok? ==> r.value == [] || (r.value[0] !in chars && r.value[|r.value| - 1] !in chars)
    ensures r.Ok? ==> exists i, j | 0 <= i <= j <= |styles[0]| :: r.value == styles[0][i..j]
    ensures r.Ok? ==> r.value == Strip(LastPiece(styles[0], '/'), chars)
  {
    if styles == [] then Err(IndexError)
    else
      var r := Strip(LastPiece(styles[0], '/'), chars);
      StripOfLastPiece(styles[0], chars);
      Ok(r)
  }

  /** The class group of a style `dir/base` followed by a suffix made of
      stripped characters is `base` stripped at both ends: the suffix is
      not removed as a suffix, so with `.json` the style `rain.json`
      gives `rai`, and with `.inc` the style `cloud.inc` gives `loud`. */
  lemma ClassGroupOfStyle(dir: string, base: string, suffix: string, rest: seq<string>, chars: set<char>)
    requires '/' !in base && '/' !in suffix
    requires forall k | 0 <= k < |suffix| :: suffix[k] in chars
    ensures ClassGroup([dir + "/" + base + suffix] + rest, chars) == Ok(Strip(base, chars))
    ensures ClassGroup([base + suffix] + rest, chars) == Ok(Strip(base, chars))
  {
    assert '/' !in base + suffix by {
      forall k | 0 <= k < |base + suffix| ensures (base + suffix)[k] != '/' {
        if k >= |base| { assert (base + suffix)[k] == suffix[k - |base|]; }
      }
    }
    assert dir + "/" + base + suffix == dir + ['/'] + (base + suffix);
    LastPieceAfter(dir, base + suffix, '/');
    LastPieceWhole(base + suffix, '/');
    StripAppended(base, suffix, chars);
  }

  lemma StripOfLastPiece(s: string, chars: set<char>)
    ensures '/' !in Strip(LastPiece(s, '/'), chars)
    ensures exists i, j | 0 <= i <= j <= |s| :: Strip(LastPiece(s, '/'), chars) == s[i..j]
  {
    var piece := LastPiece(s, '/');
    var r := Strip(piece, chars);
    var i, j :| 0 <= i <= j <= |piece| && r == piece[i..j];
    assert '/' !in r by {
      forall t | 0 <= t < |r| ensures r[t] != '/' {
        assert r[t] == piece[i + t];
      }
    }
    var k :| 0 <= k <= |s| && s[k..] == piece;
    SliceOfSuffix(s, k, i, j);
  }

  lemma SliceOfSuffix(s: string, k: int, i: int, j: int)
    requires 0 <= k <= |s| && 0 <= i <= j <= |s| - k
    ensures s[k..][i..j] == s[k + i..k + j]
  {
  }

  /** The seven label and extent writes that open `layer['metadata']`. */
  function LabelWrites(info: LayerInfo, extent: Value): Dict<Value> {
    [("ows_extent", extent),
     ("ows_title", info.labelEn),
     ("ows_title_fr", info.labelFr),
     ("wms_layer_group", Str("/" + info.forecastModel.labelEn)),
     ("wms_layer_group_fr", Str("/" + info.forecastModel.labelFr)),
     ("wcs_label", info.labelEn),
     ("wcs_label_fr", info.labelFr)]
  }

  /** The cache lifetime in seconds: hours × 3600, else minutes × 60, else none. */
  function MaxAgeSeconds(fm: ForecastModel): (r: Option<int>)
    ensures fm.forecastHourInterval.Some? ==> r == Some(3600 * fm.forecastHourInterval.value)
    ensures fm.forecastHourInterval.None? && fm.observationsIntervalMin.Some? ==> r == Some(60 * fm.observationsIntervalMin.value)
    ensures r.None? <==> fm.forecastHourInterval.None? && fm.observationsIntervalMin.None?
  {
    if fm.forecastHourInterval.Some? then Some(fm.forecastHourInterval.value * 60 * 60)
    else if fm.observationsIntervalMin.Some? then Some(fm.observationsIntervalMin.value * 60)
    else None
  }

  /** The keys of the generic block that closes `layer['metadata']`. */
  const GenericNames: seq<string> := [
    "gml_include_items", "ows_authorityurl_name", "ows_authorityurl_href",
    "ows_identifier_authority", "ows_include_items", "ows_keywordlist_vocabulary",
    "ows_geomtype", "ows_metadataurl_format", "ows_metadataurl_type",
    "wcs_rangeset_name", "wcs_rangeset_label", "wfs_metadataurl_format"]

  /** The generic block; the two packages spell the range-set label
      differently (`default range`, `Default Range`). */
  function GenericWrites(rangeLabel: string): (w: Dict<Value>)
    ensures |w| == |GenericNames|
    ensures forall i | 0 <= i < |w| :: w[i].0 == GenericNames[i]
    ensures forall k :: HasKey(w, k) <==> k in GenericNames
  {
    Zip(GenericNames,
        [Str("all"), Str("msc"), Str("https://dd.weather.gc.ca"), Str("msc"), Str("all"),
         Str("http://purl.org/dc/terms/"), Str("Geometry"), Str("text/xml"), Str("TC211"),
         Str(rangeLabel), Str(rangeLabel), Str("XML")])
  }

  /** The generic block's keys are pairwise distinct. */
  lemma GenericNamesUnique()
    ensures forall i, j | 0 <= i < j < |GenericNames| :: GenericNames[i] != GenericNames[j]
  {
  }

  /** The metadata written before the version-specific time block: labels,
      then the layer's `metadata` entries, then the forecast model's, then
      `ows_size`. */
  function ConfigWrites(info: LayerInfo, extent: Value): (r: Result<Dict<Value>, Error>)
    ensures r.Ok? <==> MetadataWrites(info).Ok? && SizeWrites(info.forecastModel).Ok?
    ensures r.Ok? ==> r.value == LabelWrites(info, extent) + MetadataWrites(info).value + SizeWrites(info.forecastModel).value
  {
    var md :- MetadataWrites(info);
    var size :- SizeWrites(info.forecastModel);
    Ok(LabelWrites(info, extent) + md + size)
  }

  /** Forecast-model metadata overrides the layer's own: for a key the
      forecast model writes and `ows_size` does not, the configuration's
      contribution is the forecast model's last value for it. */
  lemma ModelMetadataWins(info: LayerInfo, extent: Value, k: string)
    requires ConfigWrites(info, extent).Ok?
    requires HasKey(PairWrites(info.forecastModel.metadata.GetOr([]), MetadataPair).value, k)
    requires k != "ows_size"
    ensures LastWrite(ConfigWrites(info, extent).value, k)
            == LastWrite(PairWrites(info.forecastModel.metadata.GetOr([]), MetadataPair).value, k)
  {
    var labels := LabelWrites(info, extent);
    var own := PairWrites(info.metadata.GetOr([]), MetadataPair).value;
    var model := PairWrites(info.forecastModel.metadata.GetOr([]), MetadataPair).value;
    var size := SizeWrites(info.forecastModel).value;
    assert labels + (own + model) + size == (labels + own) + model + size;
    assert !HasKey(size, k);
    LastWriteConcat((labels + own) + model, size, k);
    LastWriteConcat(labels + own, model, k);
  }

  /** The path `os.path.join(dir, name)` names: `name` itself when it is
      absolute or `dir` is empty, otherwise the two joined by one `/`. */
  function PathJoin(dir: string, name: string): (r: string)
    ensures StartsWith(name, "/") || dir == [] ==> r == name
    ensures !StartsWith(name, "/") && dir != [] && dir[|dir| - 1] == '/' ==> r == dir + name
    ensures !StartsWith(name, "/") && dir != [] && dir[|dir| - 1] != '/' ==> r == dir + "/" + name
    ensures !StartsWith(name, "/") && dir != [] ==> StartsWith(r, dir)
  {
    if StartsWith(name, "/") || dir == [] then name
    else if dir[|dir| - 1] == '/' then
      assert (dir + name)[..|dir|] == dir;
      dir + name
    else
      assert (dir + "/" + name)[..|dir|] == dir;
      dir + "/" + name
  }

  /** A parsed MCF record (YAML form): abstracts, keyword lists, the
      optional `gc_cst` keyword lists, the dataset URI and identifier. */
  datatype McfRecord = McfRecord(
    abstractEn: Value,
    abstractFr: Value,
    keywordsEn: seq<string>,
    keywordsFr: seq<string>,
    gcCst: Option<(seq<string>, seq<string>)>,
    datasetUri: Value,
    identifier: string)

  /** An MCF record that a file name stands for; a missing file raises. */
  function ReadMcf(files: map<string, McfRecord>, name: string): (r: Result<McfRecord, Error>)
    ensures r.Ok? <==> name in files
    ensures r.Ok? ==> r.value == files[name]
  {
    if name in files then Ok(files[name]) else Err(FileNotFoundError(name))
  }
}

=== FILE: patcher.dfy ===
/** `find_replace_wms_timedefault(mapfile)` of geomet_mapfile/mapfile.py:
    refresh the `wms_timedefault` of a serialised mapfile to the available
    interval nearest to now, as a rewrite of the text's lines. The two
    regular expressions `(.*"<key>".)(.*)(")` cannot match across a
    newline, so every match lies within one line and starts at its
    beginning. */
module Patcher {
  import opened Wrappers
  import opened Text
  import opened Errors
  import opened Timestamp
  import Temporal

  const TimeDefault: string := "wms_timedefault"
  const AvailableIntervals: string := "wms_available_intervals"

  /** A metadata key as it appears in the text, quotes included. */
  function Quoted(name: string): (k: string)
    ensures |k| == |name| + 2 && k[0] == '"' && k[|k| - 1] == '"'
  {
    "\"" + name + "\""
  }

  /** A key the rewrite can look for: a name without quotes. */
  predicate PlainName(name: string) {
    |name| > 0 && '"' !in name
  }

  /** The three groups of a match on a line: the text through the key and
      the one character after it, the value, and what follows the closing
      quote. */
  datatype Groups = Groups(prefix: string, value: string, rest: string)

  // ---------------------------------------------------------------------
  // Matching one line

  /** The index of the last quote of a line. */
  function LastQuote(line: string): (r: Option<nat>)
    ensures r.Some? ==> r.value < |line| && line[r.value] == '"'
    ensures r.Some? ==> forall j | r.value < j < |line| :: line[j] != '"'
    ensures r.None? ==> '"' !in line
  {
    if |line| == 0 then None
    else if line[|line| - 1] == '"' then Some(|line| - 1)
    else
      var r := LastQuote(line[..|line| - 1]);
      assert forall j | 0 <= j < |line| - 1 :: line[..|line| - 1][j] == line[j];
      r
  }

  /** The last start, up to `bound`, at which `key` occurs in `line`. */
  function LastKeyAtMost(line: string, key: string, bound: int): (r: Option<nat>)
    ensures r.Some? ==> r.value <= bound && OccursAt(line, key, r.value)
    ensures r.Some? ==> forall p | r.value < p <= bound :: !OccursAt(line, key, p)
    ensures r.None? ==> forall p | 0 <= p <= bound :: !OccursAt(line, key, p)
    decreases bound
  {
    if bound < 0 then None
    else if OccursAt(line, key, bound) then Some(bound)
    else LastKeyAtMost(line, key, bound - 1)
  }

  /** The line holds the key, any one character, and later a quote: what
      `(.*"<key>".)(.*)(")` needs to match from the line's start. */
  predicate Matches(line: string, name: string) {
    exists p, q | 0 <= p && p + |Quoted(name)| + 1 <= q < |line| :: OccursAt(line, Quoted(name), p) && line[q] == '"'
  }

  /** The match of `(.*"<name>".)(.*)(")` on one line: the last quote
      and the last key that leaves room for a character before it. */
  function MatchLine(line: string, name: string): Option<Groups> {
    var k := Quoted(name);
    var q := LastQuote(line);
    if q.None? then None
    else
      var p := LastKeyAtMost(line, k, q.value - |k| - 1);
      if p.None? then None
      else Some(Cut(line, |k|, p.value, q.value))
  }

  /** The groups of a line whose key of length `n` starts at `p` and whose
      closing quote is at `q`. */
  function Cut(line: string, n: nat, p: nat, q: nat): (g: Groups)
    requires p + n + 1 <= q < |line|
    ensures |g.prefix| == p + n + 1 && |g.value| == q - p - n - 1 && |g.rest| == |line| - q - 1
    ensures line == g.prefix + g.value + [line[q]] + g.rest
    ensures g.rest == line[q + 1..]
  {
    Groups(line[..p + n + 1], line[p + n + 1..q], line[q + 1..])
  }

  /** A line matches exactly when it holds the key, a character, and
      later a quote. */
  lemma MatchIff(line: string, name: string)
    ensures MatchLine(line, name).Some? <==> Matches(line, name)
  {
    var k := Quoted(name);
    if Matches(line, name) {
      var p, q :| 0 <= p && p + |k| + 1 <= q < |line| && OccursAt(line, k, p) && line[q] == '"';
      var last := LastQuote(line);
      assert last.Some? && q <= last.value;
      var key := LastKeyAtMost(line, k, last.value - |k| - 1);
      assert key.Some?;
    }
    if MatchLine(line, name).Some? {
      var q := LastQuote(line).value;
      var p := LastKeyAtMost(line, k, q - |k| - 1).value;
      assert 0 <= p && p + |k| + 1 <= q < |line| && OccursAt(line, k, p) && line[q] == '"';
    }
  }

  /** The groups of a match cut the line around its last quote, the
      prefix ends one character after the key, and both `.*` are greedy:
      the value runs to the line's last quote, and no later key leaves
      room for a character before that quote. */
  lemma MatchShape(line: string, name: string)
    requires MatchLine(line, name).Some?
    ensures var g := MatchLine(line, name).value;
            && line == g.prefix + g.value + "\"" + g.rest
            && '"' !in g.rest
            && |g.prefix| >= |Quoted(name)| + 1
            && OccursAt(g.prefix, Quoted(name), |g.prefix| - |Quoted(name)| - 1)
            && forall p | |g.prefix| - |Quoted(name)| - 1 < p && p + |Quoted(name)| + 1 <= |g.prefix| + |g.value|
                 :: !OccursAt(line, Quoted(name), p)
  {
    var q, p := MatchPositions(line, name);
    MatchLineFrom(line, name, q, p);
    CutShape(line, Quoted(name), p, q);
  }

  /** A matching line has a last quote and a last key before it. */
  lemma MatchPositions(line: string, name: string) returns (q: nat, p: nat)
    requires MatchLine(line, name).Some?
    ensures LastQuote(line) == Some(q)
    ensures LastKeyAtMost(line, Quoted(name), q - |Quoted(name)| - 1) == Some(p)
  {
    q := LastQuote(line).value;
    p := LastKeyAtMost(line, Quoted(name), q - |Quoted(name)| - 1).value;
  }

  /** The shape of the groups cut at the last quote and at the last key
      before it. */
  lemma CutShape(line: string, k: string, p: nat, q: nat)
    requires p + |k| + 1 <= q < |line|
    requires line[q] == '"' && forall j | q < j < |line| :: line[j] != '"'
    requires OccursAt(line, k, p)
    requires forall p' | p < p' <= q - |k| - 1 :: !OccursAt(line, k, p')
    ensures var g := Cut(line, |k|, p, q);
            && line == g.prefix + g.value + "\"" + g.rest
            && '"' !in g.rest
            && |g.prefix| >= |k| + 1
            && OccursAt(g.prefix, k, |g.prefix| - |k| - 1)
            && forall p' | |g.prefix| - |k| - 1 < p' && p' + |k| + 1 <= |g.prefix| + |g.value| :: !OccursAt(line, k, p')
  {
    var g := Cut(line, |k|, p, q);
    assert [line[q]] == "\"";
    assert forall j | 0 <= j < |g.rest| :: g.rest[j] == line[q + 1 + j];
    assert g.prefix == line[..p + |k| + 1];
    assert g.prefix[p..p + |k|] == line[p..p + |k|];
  }

  /** The match on each line. */
  function Matched(lines: seq<string>, name: string): (ms: seq<Option<Groups>>)
    ensures |ms| == |lines|
    ensures forall i | 0 <= i < |lines| :: ms[i] == MatchLine(lines[i], name)
  {
    seq(|lines|, i requires 0 <= i < |lines| => MatchLine(lines[i], name))
  }

  /** The index and groups of the first line that matches, as
      `re.search` finds them. */
  function FirstMatch(lines: seq<string>, name: string): (r: Option<(nat, Groups)>)
    ensures r.Some? ==> r.value.0 < |lines| && MatchLine(lines[r.value.0], name) == Some(r.value.1)
    ensures r.Some? ==> forall j | 0 <= j < r.value.0 :: MatchLine(lines[j], name).None?
    ensures r.None? ==> forall j | 0 <= j < |lines| :: MatchLine(lines[j], name).None?
  {
    FirstFrom(Matched(lines, name), 0)
  }

  /** The first present entry from index `i` on, with its index. */
  function FirstFrom<T>(ms: seq<Option<T>>, i: nat): (r: Option<(nat, T)>)
    requires i <= |ms|
    ensures r.Some? ==> i <= r.value.0 < |ms| && ms[r.value.0] == Some(r.value.1)
    ensures r.Some? ==> forall j | i <= j < r.value.0 :: ms[j].None?
    ensures r.None? ==> forall j | i <= j < |ms| :: ms[j].None?
    decreases |ms| - i
  {
    if i == |ms| then None
    else if ms[i].Some? then Some((i, ms[i].value))
    else FirstFrom(ms, i + 1)
  }

  // ---------------------------------------------------------------------
  // The intervals and the nearest one

  /** `[datetime.strptime(dt, DATEFORMAT) for dt in parts]` */
  function ParseAll(parts: seq<string>): (r: Result<seq<int>, Error>)
    ensures r.Ok? <==> forall i | 0 <= i < |parts| :: Parse(parts[i]).Some?
    ensures r.Err? ==> r.error.ValueError?
    ensures r.Ok? ==> |r.value| == |parts|
    ensures r.Ok? ==> forall i | 0 <= i < |parts| :: Parse(parts[i]) == Some(r.value[i])
  {
    ParseFrom(parts, 0)
  }

  /** The parsed instants of `parts[i..]`. */
  function ParseFrom(parts: seq<string>, i: nat): (r: Result<seq<int>, Error>)
    requires i <= |parts|
    ensures r.Ok? <==> forall j | i <= j < |parts| :: Parse(parts[j]).Some?
    ensures r.Err? ==> r.error.ValueError?
    ensures r.Ok? ==> |r.value| == |parts| - i
    ensures r.Ok? ==> forall j | i <= j < |parts| :: Parse(parts[j]) == Some(r.value[j - i])
    decreases |parts| - i
  {
    if i == |parts| then Ok([])
    else
      var t := Parse(parts[i]);
      if t.None? then Err(ValueError("time data does not match format"))
      else
        var rest := ParseFrom(parts, i + 1);
        if rest.Err? then rest else Ok([t.value] + rest.value)
  }

  /** The parsed intervals are valid instants, each spelled exactly as
      the text spelled it. */
  lemma ParsedSpellings(parts: seq<string>)
    requires ParseAll(parts).Ok?
    ensures forall i | 0 <= i < |parts| :: 0 <= ParseAll(parts).value[i] <= Calendar.MaxInstant
                                            && Format(ParseAll(parts).value[i]) == parts[i]
  {
    forall i | 0 <= i < |parts|
      ensures 0 <= ParseAll(parts).value[i] <= Calendar.MaxInstant && Format(ParseAll(parts).value[i]) == parts[i]
    {
      FormatParse(parts[i]);
    }
  }

  /** The smallest distance to now of the instants in `xs`. */
  function MinDistance(xs: seq<int>, nowMicros: int): (d: nat)
    requires |xs| > 0
    ensures forall x | x in xs :: d <= Temporal.Distance(x, nowMicros)
    ensures exists x | x in xs :: d == Temporal.Distance(x, nowMicros)
  {
    var here := Temporal.Distance(xs[0], nowMicros);
    if |xs| == 1 then here
    else
      var there := MinDistance(xs[1..], nowMicros);
      assert forall x | x in xs :: x == xs[0] || x in xs[1..];
      if here <= there then here else there
  }

  /** The instants of `xs` at distance `d`, in order. */
  function AtDistance(xs: seq<int>, nowMicros: int, d: nat): (r: seq<int>)
    ensures forall x :: x in r <==> x in xs && Temporal.Distance(x, nowMicros) == d
  {
    if |xs| == 0 then []
    else
      var rest := AtDistance(xs[1..], nowMicros, d);
      assert forall x | x in xs :: x == xs[0] || x in xs[1..];
      if Temporal.Distance(xs[0], nowMicros) == d then [xs[0]] + rest else rest
  }

  /** `get_nearest(intervals, now)`: an instant of minimal distance to
      now. Which one is chosen among equally near instants is not known,
      so `tie` selects it. */
  function Nearest(xs: seq<int>, nowMicros: int, tie: nat): (r: int)
    requires |xs| > 0
    ensures r in xs
    ensures forall x | x in xs :: Temporal.Distance(r, nowMicros) <= Temporal.Distance(x, nowMicros)
  {
    var candidates := AtDistance(xs, nowMicros, MinDistance(xs, nowMicros));
    candidates[tie % |candidates|]
  }

  /** Every instant of minimal distance is the choice of some `tie`, so
      the parameter covers every behaviour `get_nearest` may have. */
  lemma NearestCoversTies(xs: seq<int>, nowMicros: int, x: int)
    requires x in xs
    requires forall y | y in xs :: Temporal.Distance(x, nowMicros) <= Temporal.Distance(y, nowMicros)
    ensures exists tie: nat :: Nearest(xs, nowMicros, tie) == x
  {
    var d := MinDistance(xs, nowMicros);
    var y :| y in xs && d == Temporal.Distance(y, nowMicros);
    assert Temporal.Distance(x, nowMicros) == d;
    var candidates := AtDistance(xs, nowMicros, d);
    assert x in candidates;
    var i :| 0 <= i < |candidates| && candidates[i] == x;
    ModSmall(i, |candidates|);
    assert Nearest(xs, nowMicros, i) == x;
  }

  lemma ModSmall(i: nat, n: nat)
    requires i < n
    ensures i % n == i
  {
  }

  // ---------------------------------------------------------------------
  // The rewrite

  /** `re.sub` of the time-default expression: every matching line's
      match becomes `replacement`; what follows its last quote stays. */
  function Rewrite(lines: seq<string>, replacement: string): (r: seq<string>)
    ensures |r| == |lines|
    ensures forall i | 0 <= i < |lines| :: MatchLine(lines[i], TimeDefault).None? ==> r[i] == lines[i]
    ensures forall i | 0 <= i < |lines| :: MatchLine(lines[i], TimeDefault).Some?
              ==> r[i] == replacement + MatchLine(lines[i], TimeDefault).value.rest
  {
    seq(|lines|, i requires 0 <= i < |lines| =>
      match MatchLine(lines[i], TimeDefault)
      case Some(g) => replacement + g.rest
      case None => lines[i])
  }

  /** The prefix `re.sub` copies into its replacement holds no backslash,
      so the template is taken literally. */
  predicate LiteralTemplate(text: string) {
    var m := FirstMatch(Split(text, '\n'), TimeDefault);
    m.Some? ==> '\\' !in m.value.1.prefix
  }

  /** `find_replace_wms_timedefault(mapfile)`, at the instant `nowMicros`
      of `datetime.utcnow()`. */
  function FindReplaceTimeDefault(text: string, nowMicros: int, tie: nat): (r: Result<string, Error>)
    requires LiteralTemplate(text)
    ensures FirstMatch(Split(text, '\n'), AvailableIntervals).None? ==> r == Ok(text)
    ensures r.Err? ==> r.error.ValueError? || r.error.AttributeError?
    ensures FirstMatch(Split(text, '\n'), AvailableIntervals).Some? ==>
              var available := FirstMatch(Split(text, '\n'), AvailableIntervals).value.1;
              && (ParseAll(Split(available.value, ',')).Err? ==> r.Err? && r.error.ValueError?)
              && (ParseAll(Split(available.value, ',')).Ok? ==>
                    (r.Ok? <==> FirstMatch(Split(text, '\n'), TimeDefault).Some?))
  {
    var lines := Split(text, '\n');
    match FirstMatch(lines, AvailableIntervals)
    case None => Ok(text)
    case Some((_, available)) =>
      var intervals :- ParseAll(Split(available.value, ','));
      var nearest := Nearest(intervals, nowMicros, tie);
      match FirstMatch(lines, TimeDefault)
      case None => Err(AttributeError("'NoneType' object has no attribute 'group'"))
      case Some((_, default)) =>
        Ok(Join(Rewrite(lines, default.prefix + Format(nearest) + "\""), "\n"))
  }

  // ---------------------------------------------------------------------
  // Properties

  /** Absent entries before index `i` and a present one at `i` make `i`
      the first. */
  lemma {:induction false} FirstFromAt<T>(ms: seq<Option<T>>, i: nat, from: nat)
    requires from <= i < |ms|
    requires forall j | from <= j < i :: ms[j].None?
    requires ms[i].Some?
    ensures FirstFrom(ms, from) == Some((i, ms[i].value))
    decreases i - from
  {
    if from < i {
      FirstFromAt(ms, i, from + 1);
    }
  }

  /** Lines before index `i` that do not match and a match at `i` make
      `i` the first match. */
  lemma FirstMatchAt(lines: seq<string>, name: string, i: nat)
    requires i < |lines|
    requires forall j | 0 <= j < i :: MatchLine(lines[j], name).None?
    requires MatchLine(lines[i], name).Some?
    ensures FirstMatch(lines, name) == Some((i, MatchLine(lines[i], name).value))
  {
    FirstFromAt(Matched(lines, name), i, 0);
  }

  /** The match on a line, read off its last quote and the last key
      before it: the prefix ends one character after that key and the
      tail starts after that quote. */
  lemma MatchLineFrom(line: string, name: string, q: nat, p: nat)
    requires LastQuote(line) == Some(q)
    requires LastKeyAtMost(line, Quoted(name), q - |Quoted(name)| - 1) == Some(p)
    ensures p + |Quoted(name)| + 1 <= q < |line|
    ensures MatchLine(line, name) == Some(Cut(line, |Quoted(name)|, p, q))
  {
  }

  /** In a rebuilt line, no key starts between the prefix's key and the
      last quote: a key needs two quotes, and only the prefix's last two
      characters can hold one there. */
  lemma NoLaterKey(name: string, prefix: string, v: string, rest: string)
    requires PlainName(name)
    requires |prefix| >= |Quoted(name)| + 1 && OccursAt(prefix, Quoted(name), |prefix| - |Quoted(name)| - 1)
    requires '"' !in v
    ensures var line := prefix + v + "\"" + rest;
            forall p | |prefix| - |Quoted(name)| - 1 < p <= |prefix| + |v| - |Quoted(name)| - 1 :: !OccursAt(line, Quoted(name), p)
  {
    var k := Quoted(name);
    var line := prefix + v + "\"" + rest;
    var p0 := |prefix| - |k| - 1;
    forall p | p0 < p <= |prefix| + |v| - |k| - 1 ensures !OccursAt(line, k, p) {
      if p + |k| - 1 >= |prefix| {
        assert line[p + |k| - 1] == v[p + |k| - 1 - |prefix|];
      } else {
        assert line[p] == prefix[p0 + 1] == k[1];
      }
    }
  }

  /** The last key at most `bound` is `p0` when the key occurs at `p0`
      and at no later start up to `bound`. */
  lemma LastKeyIs(line: string, key: string, bound: int, p0: nat)
    requires p0 <= bound && OccursAt(line, key, p0)
    requires forall p | p0 < p <= bound :: !OccursAt(line, key, p)
    ensures LastKeyAtMost(line, key, bound) == Some(p0)
  {
  }

  /** In a line rebuilt from a match's prefix, a quote-free value and a
      quote-free tail, the match ends its prefix where the old prefix ends
      and its tail is the old tail. */
  lemma RematchBounds(name: string, prefix: string, v: string, rest: string)
    requires PlainName(name)
    requires |prefix| >= |Quoted(name)| + 1 && OccursAt(prefix, Quoted(name), |prefix| - |Quoted(name)| - 1)
    requires '"' !in v && '"' !in rest
    ensures var m := MatchLine(prefix + v + "\"" + rest, name);
            m.Some? && |m.value.prefix| == |prefix| && m.value.rest == rest
  {
    var k := Quoted(name);
    var line := prefix + v + "\"" + rest;
    var q := |prefix| + |v|;
    var p0 := |prefix| - |k| - 1;
    assert forall j | q < j < |line| :: line[j] == rest[j - q - 1];
    assert line[q] == '"';
    assert LastQuote(line) == Some(q);
    assert line[p0..p0 + |k|] == prefix[p0..p0 + |k|];
    NoLaterKey(name, prefix, v, rest);
    LastKeyIs(line, k, q - |k| - 1, p0);
    MatchLineFrom(line, name, q, p0);
    assert line[q + 1..] == rest;
  }

  /** A line rebuilt from a match's prefix, a quote-free value and a
      quote-free tail matches again with the new value: the key found is
      still the one the prefix ends with. */
  lemma Rematch(name: string, prefix: string, v: string, rest: string)
    requires PlainName(name)
    requires |prefix| >= |Quoted(name)| + 1 && OccursAt(prefix, Quoted(name), |prefix| - |Quoted(name)| - 1)
    requires '"' !in v && '"' !in rest
    ensures MatchLine(prefix + v + "\"" + rest, name) == Some(Groups(prefix, v, rest))
  {
    var line := prefix + v + "\"" + rest;
    RematchBounds(name, prefix, v, rest);
    var g := MatchLine(line, name).value;
    SameSplit(g.prefix, g.value, g.rest, prefix, v, rest);
  }

  /** A string cut around a quote at the same places twice gives the
      same pieces. */
  lemma SameSplit(a: string, b: string, c: string, a': string, b': string, c': string)
    requires a + b + "\"" + c == a' + b' + "\"" + c'
    requires |a| == |a'| && c == c'
    ensures a == a' && b == b'
  {
    var s := a + b + "\"" + c;
    assert a == s[..|a|] == a';
    assert b == s[|a|..|a| + |b|] == b';
  }

  /** The text of an interval holds no quote and no newline. */
  lemma FormatQuoteFree(t: int)
    requires 0 <= t <= Calendar.MaxInstant
    ensures '"' !in Format(t) && '\n' !in Format(t) && '\\' !in Format(t)
  {
    FormatAlphabet(t);
  }

  /** The pieces of a match on a line hold no newline. */
  lemma GroupsOnOneLine(line: string, name: string)
    requires '\n' !in line
    requires MatchLine(line, name).Some?
    ensures var g := MatchLine(line, name).value;
            '\n' !in g.prefix && '\n' !in g.value && '\n' !in g.rest
  {
    var g := MatchLine(line, name).value;
    MatchShape(line, name);
    assert forall j | 0 <= j < |g.prefix| :: g.prefix[j] == line[j];
    assert forall j | 0 <= j < |g.value| :: g.value[j] == line[|g.prefix| + j];
    assert forall j | 0 <= j < |g.rest| :: g.rest[j] == line[|g.prefix| + |g.value| + 1 + j];
  }

  /** The interval texts of the first `wms_available_intervals` value. */
  function IntervalParts(text: string): (parts: seq<string>)
    requires FirstMatch(Split(text, '\n'), AvailableIntervals).Some?
    ensures Join(parts, [',']) == FirstMatch(Split(text, '\n'), AvailableIntervals).value.1.value
  {
    Split(FirstMatch(Split(text, '\n'), AvailableIntervals).value.1.value, ',')
  }

  /** The nearest of parsed intervals is spelled as one of their texts,
      and no interval is nearer to now. */
  lemma NearestSpelled(parts: seq<string>, nowMicros: int, tie: nat)
    requires ParseAll(parts).Ok? && |parts| > 0
    ensures var t := Nearest(ParseAll(parts).value, nowMicros, tie);
            && 0 <= t <= Calendar.MaxInstant
            && Format(t) in parts
            && forall i | 0 <= i < |parts| :: Temporal.Distance(t, nowMicros) <= Temporal.Distance(ParseAll(parts).value[i], nowMicros)
  {
    var xs := ParseAll(parts).value;
    ParsedSpellings(parts);
    var i :| 0 <= i < |xs| && xs[i] == Nearest(xs, nowMicros, tie);
    assert Format(xs[i]) == parts[i];
  }

  /** The instant a successful refresh writes: the available interval
      `get_nearest` picks. */
  function Chosen(text: string, nowMicros: int, tie: nat): (t: int)
    requires FirstMatch(Split(text, '\n'), AvailableIntervals).Some?
    requires ParseAll(IntervalParts(text)).Ok?
    ensures 0 <= t <= Calendar.MaxInstant
  {
    NearestSpelled(IntervalParts(text), nowMicros, tie);
    Nearest(ParseAll(IntervalParts(text)).value, nowMicros, tie)
  }

  /** The chosen instant is one of the available intervals, spelled as the
      text spells it, and no available interval is nearer to now. */
  lemma ChosenIsNearest(text: string, nowMicros: int, tie: nat)
    requires FirstMatch(Split(text, '\n'), AvailableIntervals).Some?
    requires ParseAll(IntervalParts(text)).Ok?
    ensures var parts := IntervalParts(text);
            && Format(Chosen(text, nowMicros, tie)) in parts
            && forall i | 0 <= i < |parts| :: Temporal.Distance(Chosen(text, nowMicros, tie), nowMicros)
                                              <= Temporal.Distance(ParseAll(parts).value[i], nowMicros)
  {
    NearestSpelled(IntervalParts(text), nowMicros, tie);
  }

  /** A successful refresh is the rewrite of the text's lines with the
      first `wms_timedefault` prefix, the chosen interval and a quote; its
      lines are the rewritten lines. */
  lemma RefreshIsRewrite(text: string, nowMicros: int, tie: nat)
    requires LiteralTemplate(text)
    requires FirstMatch(Split(text, '\n'), AvailableIntervals).Some?
    requires FindReplaceTimeDefault(text, nowMicros, tie).Ok?
    ensures var lines := Split(text, '\n');
            && ParseAll(IntervalParts(text)).Ok?
            && FirstMatch(lines, TimeDefault).Some?
            && Split(FindReplaceTimeDefault(text, nowMicros, tie).value, '\n')
               == Rewrite(lines, FirstMatch(lines, TimeDefault).value.1.prefix + Format(Chosen(text, nowMicros, tie)) + "\"")
  {
    var lines := Split(text, '\n');
    var first := FirstMatch(lines, TimeDefault).value.1;
    var n := Format(Chosen(text, nowMicros, tie));
    var rewritten := Rewrite(lines, first.prefix + n + "\"");
    assert FindReplaceTimeDefault(text, nowMicros, tie).value == Join(rewritten, "\n");
    FormatQuoteFree(Chosen(text, nowMicros, tie));
    GroupsOnOneLine(lines[FirstMatch(lines, TimeDefault).value.0], TimeDefault);
    forall i | 0 <= i < |rewritten| ensures '\n' !in rewritten[i] {
      if MatchLine(lines[i], TimeDefault).Some? {
        GroupsOnOneLine(lines[i], TimeDefault);
      }
    }
    SplitJoin(rewritten, '\n');
  }

  /** A refresh rewrites exactly the lines holding `wms_timedefault`:
      each becomes the first such line's prefix, the chosen interval and
      a quote, followed by its own tail; every other line is unchanged. */
  lemma RefreshRewritesDefaults(text: string, nowMicros: int, tie: nat)
    requires LiteralTemplate(text)
    requires FirstMatch(Split(text, '\n'), AvailableIntervals).Some?
    requires FindReplaceTimeDefault(text, nowMicros, tie).Ok?
    ensures var lines := Split(text, '\n');
            var out := Split(FindReplaceTimeDefault(text, nowMicros, tie).value, '\n');
            var first := FirstMatch(lines, TimeDefault).value.1;
            && ParseAll(IntervalParts(text)).Ok?
            && |out| == |lines|
            && (forall i | 0 <= i < |lines| :: MatchLine(lines[i], TimeDefault).None? ==> out[i] == lines[i])
            && (forall i | 0 <= i < |lines| :: MatchLine(lines[i], TimeDefault).Some? ==>
                  out[i] == first.prefix + Format(Chosen(text, nowMicros, tie)) + "\"" + MatchLine(lines[i], TimeDefault).value.rest)
  {
    RefreshIsRewrite(text, nowMicros, tie);
  }

  /** Reading `wms_timedefault` back from rewritten lines gives the new
      value, on the line of the first match and with its tail. */
  lemma RewriteReadsBack(lines: seq<string>, n: string)
    requires FirstMatch(lines, TimeDefault).Some?
    requires '"' !in n
    ensures var before := FirstMatch(lines, TimeDefault).value;
            FirstMatch(Rewrite(lines, before.1.prefix + n + "\""), TimeDefault)
            == Some((before.0, Groups(before.1.prefix, n, before.1.rest)))
  {
    var before := FirstMatch(lines, TimeDefault).value;
    var out := Rewrite(lines, before.1.prefix + n + "\"");
    MatchShape(lines[before.0], TimeDefault);
    assert forall j | 0 <= j < before.0 :: out[j] == lines[j];
    assert out[before.0] == before.1.prefix + n + "\"" + before.1.rest;
    Rematch(TimeDefault, before.1.prefix, n, before.1.rest);
    FirstMatchAt(out, TimeDefault, before.0);
  }

  /** Reading `wms_timedefault` back from the refreshed text gives the
      chosen interval, on the same line as before. */
  lemma RefreshReadsBack(text: string, nowMicros: int, tie: nat)
    requires LiteralTemplate(text)
    requires FirstMatch(Split(text, '\n'), AvailableIntervals).Some?
    requires FindReplaceTimeDefault(text, nowMicros, tie).Ok?
    ensures var lines := Split(text, '\n');
            var out := Split(FindReplaceTimeDefault(text, nowMicros, tie).value, '\n');
            var before := FirstMatch(lines, TimeDefault).value;
            && ParseAll(IntervalParts(text)).Ok?
            && FirstMatch(out, TimeDefault)
               == Some((before.0, Groups(before.1.prefix, Format(Chosen(text, nowMicros, tie)), before.1.rest)))
  {
    RefreshIsRewrite(text, nowMicros, tie);
    FormatQuoteFree(Chosen(text, nowMicros, tie));
    RewriteReadsBack(Split(text, '\n'), Format(Chosen(text, nowMicros, tie)));
  }
}

=== FILE: rendering.dfy ===
/** `str()` and `repr()` of the values a mapfile holds, as CPython
    spells them, and readers that take the spellings back. */
module Rendering {
  import opened Wrappers
  import opened Text
  import opened Dicts
  import opened Values

  // ---------------------------------------------------------------------
  // repr of a string

  /** `0123456789abcdef`: the digits `\x` escapes use. */
  function HexDigit(n: nat): (c: char)
    requires n < 16
    ensures IsHexDigit(c) && HexValue(c) == n
  {
    if n < 10 then (48 + n) as char else (87 + n) as char
  }

  predicate IsHexDigit(c: char) {
    '0' <= c <= '9' || 'a' <= c <= 'f'
  }

  function HexValue(c: char): (n: nat)
    requires IsHexDigit(c)
    ensures n < 16
  {
    if c <= '9' then c as int - 48 else c as int - 87
  }

  /** The characters `repr` writes as `\xhh`: the C0 controls other than
      tab, newline and carriage return, DEL, the C1 controls, the
      no-break space and the soft hyphen. */
  predicate HexEscaped(c: char) {
    (c < ' ' && c != '\t' && c != '\n' && c != '\r') || ('\U{7F}' <= c <= '\U{A0}') || c == '\U{AD}'
  }

  /** The quote `repr` puts around `s`: a double quote when `s` holds a
      single quote and no double quote, a single quote otherwise. */
  function QuoteFor(s: string): (q: char)
    ensures q == '\'' || q == '"'
    ensures q == '"' ==> '"' !in s
  {
    if '\'' in s && '"' !in s then '"' else '\''
  }

  /** How `repr` writes one character inside quotes `q`. */
  function EscapeChar(c: char, q: char): string {
    if c == q || c == '\\' then ['\\', c]
    else if c == '\t' then "\\t"
    else if c == '\n' then "\\n"
    else if c == '\r' then "\\r"
    else if HexEscaped(c) then ['\\', 'x', HexDigit(c as int / 16), HexDigit(c as int % 16)]
    else [c]
  }

  function EscapeAll(s: string, q: char): string {
    if |s| == 0 then "" else EscapeChar(s[0], q) + EscapeAll(s[1..], q)
  }

  /** `repr(s)` for a string. */
  function StrRepr(s: string): (r: string)
    ensures |r| >= 2 && r[0] == r[|r| - 1] == QuoteFor(s)
  {
    [QuoteFor(s)] + EscapeAll(s, QuoteFor(s)) + [QuoteFor(s)]
  }

  /** Reads a quoted literal as `repr` writes it: the escapes `\\`, `\'`,
      `\"`, `\t`, `\n`, `\r` and `\xhh`. */
  function ReadStrLiteral(t: string): Option<string> {
    if |t| < 2 || !(t[0] == '\'' || t[0] == '"') then None else ReadBody(t[1..], t[0])
  }

  /** Reads up to the closing quote `q`, which must end the text. */
  function ReadBody(t: string, q: char): Option<string>
    decreases |t|
  {
    if |t| == 0 then None
    else if t[0] == q then (if |t| == 1 then Some("") else None)
    else if t[0] != '\\' then Prepend(t[0], ReadBody(t[1..], q))
    else if |t| < 2 then None
    else if t[1] == '\\' || t[1] == '\'' || t[1] == '"' then Prepend(t[1], ReadBody(t[2..], q))
    else if t[1] == 't' then Prepend('\t', ReadBody(t[2..], q))
    else if t[1] == 'n' then Prepend('\n', ReadBody(t[2..], q))
    else if t[1] == 'r' then Prepend('\r', ReadBody(t[2..], q))
    else if t[1] == 'x' && |t| >= 4 && IsHexDigit(t[2]) && IsHexDigit(t[3]) then
      Prepend((16 * HexValue(t[2]) + HexValue(t[3])) as char, ReadBody(t[4..], q))
    else None
  }

  function Prepend(c: char, rest: Option<string>): Option<string> {
    match rest
    case Some(s) => Some([c] + s)
    case None => None
  }

  /** Reading a string's `repr` gives the string back. */
  lemma StrReprRoundTrip(s: string)
    ensures ReadStrLiteral(StrRepr(s)) == Some(s)
  {
    var q := QuoteFor(s);
    assert StrRepr(s)[1..] == EscapeAll(s, q) + [q];
    BodyRoundTrip(s, q);
  }

  lemma {:induction false} BodyRoundTrip(s: string, q: char)
    requires q == '\'' || q == '"'
    requires q == '"' ==> '"' !in s
    ensures ReadBody(EscapeAll(s, q) + [q], q) == Some(s)
  {
    if |s| == 0 {
      assert EscapeAll(s, q) + [q] == [q];
    } else {
      assert '"' in s ==> '"' in s[1..] || s[0] == '"';
      BodyRoundTrip(s[1..], q);
      var rest := EscapeAll(s[1..], q) + [q];
      assert EscapeAll(s, q) + [q] == EscapeChar(s[0], q) + rest;
      CharRoundTrip(s[0], q, rest);
      assert [s[0]] + s[1..] == s;
    }
  }

  /** One escaped character reads back as itself. */
  lemma CharRoundTrip(c: char, q: char, rest: string)
    requires q == '\'' || q == '"'
    requires q == '"' ==> c != '"'
    ensures ReadBody(EscapeChar(c, q) + rest, q) == Prepend(c, ReadBody(rest, q))
  {
    var t := EscapeChar(c, q) + rest;
    if c == q || c == '\\' {
      assert t[2..] == rest;
    } else if c == '\t' || c == '\n' || c == '\r' {
      assert t[2..] == rest;
    } else if HexEscaped(c) {
      var n := c as int;
      assert t[4..] == rest;
      assert 16 * HexValue(t[2]) + HexValue(t[3]) == n;
      assert (n as char) == c;
    } else {
      assert t[1..] == rest;
    }
  }

  // ---------------------------------------------------------------------
  // str and repr of any value

  /** `repr(v)`: `None`, `True`/`False`, decimal integers, quoted strings,
      `[a, b]` lists and `{'k': v}` dicts. */
  function Repr(v: Value): string
    decreases v
  {
    match v
    case Null => "None"
    case Bool(b) => if b then "True" else "False"
    case Int(i) => IntToString(i)
    case Str(s) => StrRepr(s)
    case List(items) =>
      "[" + Join(seq(|items|, k requires 0 <= k < |items| => Repr(items[k])), ", ") + "]"
    case Obj(fields) =>
      "{" + Join(seq(|fields|, k requires 0 <= k < |fields| => FieldRepr(v, fields[k])), ", ") + "}"
  }

  /** One `'key': value` entry of a dict's `repr`. */
  function FieldRepr(d: Value, f: (string, Value)): string
    requires d.Obj? && f in d.fields
    decreases d, 0
  {
    StrRepr(f.0) + ": " + Repr(f.1)
  }

  /** `str(v)`: a string is itself, every other value is spelled as its
      `repr`. `str` never raises on these values. */
  function Render(v: Value): (r: string)
    ensures v.Str? ==> r == v.s
    ensures v.Null? ==> r == "None"
    ensures v.Bool? ==> r == (if v.b then "True" else "False")
    ensures v.Int? ==> r == IntToString(v.i)
    ensures v.List? ==> |r| >= 2 && r[0] == '[' && r[|r| - 1] == ']'
    ensures v.Obj? ==> |r| >= 2 && r[0] == '{' && r[|r| - 1] == '}'
  {
    if v.Str? then v.s else Repr(v)
  }

  // ---------------------------------------------------------------------
  // Reading integers back

  /** `int(t)` for the spellings `str` gives integers. */
  function ReadInt(t: string): Option<int> {
    if |t| > 1 && t[0] == '-' && AllDigits(t[1..]) then Some(0 - DecimalValue(t[1..]))
    else if |t| > 0 && AllDigits(t) then Some(DecimalValue(t))
    else None
  }

  predicate AllDigits(t: string) {
    forall k | 0 <= k < |t| :: IsDigit(t[k])
  }

  /** Reading an integer's spelling gives the integer back. */
  lemma IntRoundTrip(i: int)
    ensures ReadInt(IntToString(i)) == Some(i)
  {
    if i < 0 {
      var t := IntToString(i);
      assert t[1..] == NatToString(-i);
    }
  }

  // ---------------------------------------------------------------------
  // Iteration

  /** The items `for x in v` visits: a list's elements, a string's
      characters, a dict's keys; any other value is not iterable. */
  function Iterate(v: Value): (r: Result<seq<Value>, Errors.Error>)
    ensures r.Err? <==> v.Null? || v.Bool? || v.Int?
    ensures v.List? ==> r == Ok(v.items)
    ensures v.Str? ==> r.Ok? && |r.value| == |v.s| && forall k | 0 <= k < |v.s| :: r.value[k] == Str([v.s[k]])
    ensures v.Obj? ==> r.Ok? && |r.value| == |v.fields| && forall k | 0 <= k < |v.fields| :: r.value[k] == Str(v.fields[k].0)
  {
    match v
    case List(items) => Ok(items)
    case Str(s) => Ok(seq(|s|, k requires 0 <= k < |s| => Str([s[k]])))
    case Obj(fields) => Ok(seq(|fields|, k requires 0 <= k < |fields| => Str(fields[k].0)))
    case _ => Err(Errors.TypeError("object is not iterable"))
  }
}

=== FILE: request.dfy ===
/** The request decisions of the WMS/WCS handler (geomet_mapfile/wsgi.py)
    that are plain string logic: language, layer, service, the tile id of
    `get_data_path`, the time fallback, the mapfile to load and the
    query-string rewrite. */
module Request {
  import opened Wrappers
  import opened Text
  import opened Errors
  import opened Seqs
  import Documents
  import LayerConfig

  // ---------------------------------------------------------------------
  // Parameters

  /** `LANG`: `fr` for `f`, `fr` or `fra`, `en` for anything else. */
  function Lang(lang: Option<string>): (r: string)
    ensures r == "fr" <==> lang.Some? && lang.value in ["f", "fr", "fra"]
    ensures r != "fr" ==> r == "en"
  {
    if lang.Some? && lang.value in ["f", "fr", "fra"] then "fr" else "en"
  }

  /** The layer a request names: `LAYERS`, else `LAYER`, else `COVERAGEID`;
      a parameter given empty names no layer. */
  function SelectLayer(layers: Option<string>, layer: Option<string>, coverageId: Option<string>): (r: Option<string>)
    ensures r.Some? ==> r.value != ""
    ensures layers.Some? ==> r == (if layers.value == "" then None else layers)
    ensures layers.None? && layer.Some? ==> r == (if layer.value == "" then None else layer)
    ensures layers.None? && layer.None? ==> r == (if coverageId == Some("") then None else coverageId)
  {
    var chosen := if layers.Some? then layers else if layer.Some? then layer else coverageId;
    if chosen.Some? && |chosen.value| == 0 then None else chosen
  }

  /** `SERVICE`, `WMS` when absent. */
  function Service(service: Option<string>): (r: string)
    ensures service.Some? ==> r == service.value
    ensures service.None? ==> r == "WMS"
  {
    service.GetOr("WMS")
  }

  /** The cached capabilities document for a `GetCapabilities` request
      without a layer, `os.path.join(BASEDIR, 'mapfile', filename)`; only
      `WMS` assigns the file name, so any other service reads an unbound
      `cached_caps`. */
  function CachedCapabilities(basedir: string, service: string, lang: string): (r: Result<string, Error>)
    ensures r.Ok? <==> service == "WMS"
    ensures r.Ok? && basedir != [] && basedir[|basedir| - 1] != '/' ==>
              r.value == basedir + "/mapfile/" + CapabilitiesName(lang)
    ensures r.Ok? && basedir != [] && basedir[|basedir| - 1] == '/' ==>
              r.value == basedir + "mapfile/" + CapabilitiesName(lang)
    ensures r.Ok? && basedir == [] ==> r.value == "mapfile/" + CapabilitiesName(lang)
  {
    if service == "WMS" then
      CapabilitiesPath(basedir, lang);
      Ok(LayerConfig.PathJoin(LayerConfig.PathJoin(basedir, "mapfile"), CapabilitiesName(lang)))
    else Err(UnboundLocalError("cached_caps"))
  }

  /** Joining `mapfile` and then the file name onto `basedir`. */
  lemma CapabilitiesPath(basedir: string, lang: string)
    ensures var p := LayerConfig.PathJoin(LayerConfig.PathJoin(basedir, "mapfile"), CapabilitiesName(lang));
            && (basedir != [] && basedir[|basedir| - 1] != '/' ==> p == basedir + "/mapfile/" + CapabilitiesName(lang))
            && (basedir != [] && basedir[|basedir| - 1] == '/' ==> p == basedir + "mapfile/" + CapabilitiesName(lang))
            && (basedir == [] ==> p == "mapfile/" + CapabilitiesName(lang))
  {
    var name := CapabilitiesName(lang);
    var dir := LayerConfig.PathJoin(basedir, "mapfile");
    CapabilitiesNameRelative(lang);
    MapfileDirEnds(basedir);
    if basedir == [] {
    } else if basedir[|basedir| - 1] == '/' {
      assert basedir + "mapfile" + "/" + name == basedir + "mapfile/" + name;
    } else {
      assert basedir + "/" + "mapfile" + "/" + name == basedir + "/mapfile/" + name;
    }
  }

  /** The capabilities file name is relative: it starts with `g`. */
  lemma CapabilitiesNameRelative(lang: string)
    ensures !StartsWith(CapabilitiesName(lang), "/")
  {
    var head := "geomet-weather-1.3.0-capabilities-";
    assert CapabilitiesName(lang) == head + (lang + ".xml");
    assert CapabilitiesName(lang)[0] == head[0];
  }

  /** Whatever the base, the joined `mapfile` directory ends in `e`. */
  lemma MapfileDirEnds(basedir: string)
    ensures var dir := LayerConfig.PathJoin(basedir, "mapfile"); dir != [] && dir[|dir| - 1] == 'e'
  {
  }

  /** The cached capabilities file name for a language. */
  function CapabilitiesName(lang: string): string {
    "geomet-weather-1.3.0-capabilities-" + lang + ".xml"
  }

  // ---------------------------------------------------------------------
  // Tile id

  /** The id `get_data_path(layer, fh, mr)` looks up in the tile index:
      the digits of the model run and of the forecast time, joined to the
      layer name by dashes, the model run left out when it has no digits. */
  function DataId(layer: string, fh: string, mr: string): (r: string)
    ensures var modelRun := KeepDigits(mr);
            var forecast := KeepDigits(fh);
            StartsWith(r, layer + "-")
            && Split(r[|layer| + 1..], '-') == (if modelRun != "" then [modelRun, forecast] else [forecast])
  {
    var modelRun := KeepDigits(mr);
    var forecast := KeepDigits(fh);
    var tail := if modelRun != "" then modelRun + "-" + forecast else forecast;
    DataIdTail(modelRun, forecast);
    DashJoined(layer, tail);
    layer + "-" + tail
  }

  /** `{layer}-{tail}` starts with the layer and a dash, then `tail`. */
  lemma DashJoined(layer: string, tail: string)
    ensures StartsWith(layer + "-" + tail, layer + "-")
    ensures (layer + "-" + tail)[|layer| + 1..] == tail
  {
    var r := layer + "-" + tail;
    assert r[..|layer| + 1] == layer + "-";
  }

  lemma NoDashInDigits(s: string)
    requires forall i | 0 <= i < |s| :: IsDigit(s[i])
    ensures '-' !in s
  {
  }

  /** The part after the layer splits back into the digit groups. */
  lemma DataIdTail(modelRun: string, forecast: string)
    requires forall i | 0 <= i < |modelRun| :: IsDigit(modelRun[i])
    requires forall i | 0 <= i < |forecast| :: IsDigit(forecast[i])
    ensures Split(modelRun + "-" + forecast, '-') == [modelRun, forecast]
    ensures Split(forecast, '-') == [forecast]
  {
    NoDashInDigits(modelRun);
    NoDashInDigits(forecast);
    SplitNoSep(forecast, '-');
    SplitJoin([modelRun, forecast], '-');
    assert Join([modelRun, forecast], "-") == modelRun + "-" + Join([forecast], "-");
  }

  // ---------------------------------------------------------------------
  // Time parameters

  /** What the handler does with `TIME` and `DIM_REFERENCE_TIME`. */
  datatype TimeOutcome =
    | MissingValue
    | Times(time: Option<string>, refTime: Option<string>)

  /** An empty `TIME` or `DIM_REFERENCE_TIME` is the missing-value service
      exception; an absent one falls back to the layer's
      `wms_timedefault` / `wms_reference_time_default` metadata. */
  function ResolveTimes(time: Option<string>, refTime: Option<string>,
                        timeDefault: Option<string>, refTimeDefault: Option<string>): (r: TimeOutcome)
    ensures r.MissingValue? <==> time == Some("") || refTime == Some("")
    ensures r.Times? ==> r.time == (if time.Some? then time else timeDefault)
    ensures r.Times? ==> r.refTime == (if refTime.Some? then refTime else refTimeDefault)
  {
    if time == Some("") || refTime == Some("") then MissingValue
    else Times(if time.None? then timeDefault else time, if refTime.None? then refTimeDefault else refTime)
  }

  // ---------------------------------------------------------------------
  // Query string

  /** `'time' in x.lower()` */
  predicate MentionsTime(x: string) {
    Contains(AsciiLower(x), "time")
  }

  /** The items that do not mention time, in order. */
  function KeepTimeless(items: seq<string>): (r: seq<string>)
    ensures |r| <= |items|
    ensures forall i | 0 <= i < |r| :: !MentionsTime(r[i]) && r[i] in items
    ensures forall x | x in items && !MentionsTime(x) :: x in r
    ensures SubSeq(r, items) && KeptCounts(r, items, MentionsTime)
  {
    if |items| == 0 then []
    else
      var rest := KeepTimeless(items[1..]);
      SubSeqCons(items[0], rest, items[1..]);
      assert items == [items[0]] + items[1..];
      if MentionsTime(items[0]) then rest
      else [items[0]] + rest
  }

  /** The query string handed to MapServer: when it mentions time, every
      `&`-separated item that mentions time is dropped; otherwise it is
      passed through. */
  function StripTimeParams(qs: string): (r: string)
    ensures !MentionsTime(qs) ==> r == qs
    ensures MentionsTime(qs) ==> r == Join(KeepTimeless(Split(qs, '&')), "&")
  {
    if MentionsTime(qs) then Join(KeepTimeless(Split(qs, '&')), "&") else qs
  }

  lemma AsciiLowerAppend(a: string, b: string)
    ensures AsciiLower(a + b) == AsciiLower(a) + AsciiLower(b)
  {
    var s := a + b;
    var l, r := AsciiLower(s), AsciiLower(a) + AsciiLower(b);
    forall i | 0 <= i < |l| ensures l[i] == r[i] {
      if i < |a| {
        assert s[i] == a[i];
      } else {
        assert s[i] == b[i - |a|];
      }
    }
  }

  /** A string that mentions time still does with anything appended. */
  lemma MentionsTimeBefore(x: string, y: string)
    requires MentionsTime(x)
    ensures MentionsTime(x + y)
  {
    AsciiLowerAppend(x, y);
    var l := AsciiLower(x + y);
    assert l[0..|x|] == AsciiLower(x);
    ContainsInfix(l, 0, |x|, "time");
  }

  /** A string that mentions time still does with anything prepended. */
  lemma MentionsTimeAfter(x: string, y: string)
    requires MentionsTime(y)
    ensures MentionsTime(x + y)
  {
    AsciiLowerAppend(x, y);
    ContainsAfter(AsciiLower(x), AsciiLower(y), "time");
  }

  /** An item of a joined list that mentions time makes the whole string
      mention time. */
  lemma {:induction false} MentionsTimeJoin(parts: seq<string>, sep: string, i: int)
    requires 0 <= i < |parts| && MentionsTime(parts[i])
    ensures MentionsTime(Join(parts, sep))
  {
    if |parts| > 1 {
      var tail := Join(parts[1..], sep);
      assert Join(parts, sep) == parts[0] + sep + tail;
      if i == 0 {
        MentionsTimeBefore(parts[0], sep);
        MentionsTimeBefore(parts[0] + sep, tail);
      } else {
        MentionsTimeJoin(parts[1..], sep, i - 1);
        MentionsTimeAfter(parts[0] + sep, tail);
      }
    }
  }

  /** Keeping every item of a list leaves it unchanged. */
  lemma {:induction false} KeepTimelessAll(items: seq<string>)
    requires forall i | 0 <= i < |items| :: !MentionsTime(items[i])
    ensures KeepTimeless(items) == items
  {
    if |items| > 0 {
      KeepTimelessAll(items[1..]);
    }
  }

  /** The `'time' in ...` test on the whole string is only a shortcut: the
      result is always the timeless items joined back together. */
  lemma StripTimeParamsIsFilter(qs: string)
    ensures StripTimeParams(qs) == Join(KeepTimeless(Split(qs, '&')), "&")
  {
    if !MentionsTime(qs) {
      var parts := Split(qs, '&');
      forall i | 0 <= i < |parts| ensures !MentionsTime(parts[i]) {
        if MentionsTime(parts[i]) {
          MentionsTimeJoin(parts, "&", i);
        }
      }
      KeepTimelessAll(parts);
    }
  }

  // ---------------------------------------------------------------------
  // Which mapfile serves the request

  /** How the handler proceeds once the parameters are read. */
  datatype Route =
    | Banner                      // the `GODS` easter egg
    | BadRequest                  // no mapfile: 400 Unsupported service
    | Serve(mapfile: string)      // a path (file mode) or a document (store mode)

  /** A single layer, as the per-layer mapfile needs: present, without a comma. */
  predicate SingleLayer(layer: Option<string>) {
    layer.Some? && ',' !in layer.value
  }

  function LayerMapfilePath(basedir: string, layer: string): string {
    basedir + "/mapfile/geomet-weather-" + layer + ".map"
  }

  function GlobalMapfilePath(basedir: string): string {
    basedir + "/mapfile/geomet-weather.map"
  }

  /** File mode: the layer's own mapfile when it names one layer and the
      file exists, else the global mapfile when it exists, else none. */
  function FileRoute(basedir: string, layer: Option<string>, exists_: set<string>): (r: Route)
    ensures layer == Some("GODS") ==> r == Banner
    ensures layer != Some("GODS") && SingleLayer(layer) && LayerMapfilePath(basedir, layer.value) in exists_
            ==> r == Serve(LayerMapfilePath(basedir, layer.value))
    ensures layer != Some("GODS") && !(SingleLayer(layer) && LayerMapfilePath(basedir, layer.value) in exists_)
            ==> r == (if GlobalMapfilePath(basedir) in exists_ then Serve(GlobalMapfilePath(basedir)) else BadRequest)
  {
    if layer == Some("GODS") then Banner
    else
      var mapfile :=
        if SingleLayer(layer) then Some(LayerMapfilePath(basedir, layer.value)) else None;
      var mapfile' :=
        if mapfile.None? || mapfile.value !in exists_ then GlobalMapfilePath(basedir) else mapfile.value;
      if mapfile' !in exists_ then BadRequest else Serve(mapfile')
  }

  /** `store.get_key(key)` without `raw`: the key is looked up behind
      the store's namespace prefix. */
  function StoreGet(st: map<string, string>, key: string): (r: Option<string>)
    ensures r.Some? <==> "geomet-mapfile_" + key in st
    ensures r.Some? ==> r.value == st["geomet-mapfile_" + key]
  {
    var k := Documents.StoreKey(key);
    if k in st then Some(st[k]) else None
  }

  /** Store mode: the layer's stored mapfile when it names one layer and
      the key exists, else the stored global mapfile; a missing or empty
      document is a bad request. */
  function StoreRoute(st: map<string, string>, layer: Option<string>): (r: Route)
    ensures layer == Some("GODS") ==> r == Banner
    ensures layer != Some("GODS") && SingleLayer(layer) && StoreGet(st, layer.value + "_mapfile").Some?
            ==> r == (if StoreGet(st, layer.value + "_mapfile").value == "" then BadRequest
                      else Serve(StoreGet(st, layer.value + "_mapfile").value))
    ensures layer != Some("GODS") && (!SingleLayer(layer) || StoreGet(st, layer.value + "_mapfile").None?)
            ==> r == match StoreGet(st, "geomet-weather_mapfile")
                     case Some(m) => if m == "" then BadRequest else Serve(m)
                     case None => BadRequest
    ensures r.Serve? ==> r.mapfile != ""
                         && (Some(r.mapfile) == StoreGet(st, "geomet-weather_mapfile")
                             || (SingleLayer(layer) && Some(r.mapfile) == StoreGet(st, layer.value + "_mapfile")))
  {
    if layer == Some("GODS") then Banner
    else
      var mapfile := if SingleLayer(layer) then StoreGet(st, layer.value + "_mapfile") else None;
      var mapfile' := if mapfile.None? then StoreGet(st, "geomet-weather_mapfile") else mapfile;
      if mapfile'.None? || mapfile'.value == "" then BadRequest else Serve(mapfile'.value)
  }
}

=== FILE: seqs.dfy ===
/** Facts about sub-sequences, shared by the filters of the model
    (`str.replace` chains, list comprehensions with a condition). */
module Seqs {
  /** `a` lists elements of `b` in the order `b` has them. */
  predicate SubSeq<T(==)>(a: seq<T>, b: seq<T>)
    decreases |b|
  {
    a == [] || (|b| > 0 && ((a[0] == b[0] && SubSeq(a[1..], b[1..])) || SubSeq(a, b[1..])))
  }

  /** A kept head extends a sub-sequence; a dropped one leaves it one. */
  lemma SubSeqCons<T>(x: T, r: seq<T>, s: seq<T>)
    requires SubSeq(r, s)
    ensures SubSeq([x] + r, [x] + s)
    ensures SubSeq(r, [x] + s)
  {
    assert ([x] + r)[1..] == r;
    assert ([x] + s)[1..] == s;
  }

  /** `a` holds each element of `s` that `drop` rejects exactly as often
      as `s` does, and no element `drop` accepts. */
  ghost predicate KeptCounts<T(!new)>(a: seq<T>, s: seq<T>, drop: T -> bool) {
    forall x :: multiset(a)[x] == if drop(x) then 0 else multiset(s)[x]
  }

  /** Order and multiplicities fix the sub-sequence: two sub-sequences of
      `s` with the same multiset that keep all of some elements and none
      of the others are equal. */
  lemma {:induction false} SubSeqUnique<T(!new)>(a: seq<T>, b: seq<T>, s: seq<T>, drop: T -> bool)
    requires SubSeq(a, s) && SubSeq(b, s)
    requires KeptCounts(a, s, drop) && KeptCounts(b, s, drop)
    ensures a == b
    decreases |s|
  {
    if |s| == 0 {
    } else {
      var x := s[0];
      assert s == [x] + s[1..];
      SubSeqSplit(a, s, drop);
      SubSeqSplit(b, s, drop);
      if drop(x) {
        SubSeqUnique(a, b, s[1..], drop);
      } else {
        SubSeqUnique(a[1..], b[1..], s[1..], drop);
        assert a == [a[0]] + a[1..];
        assert b == [b[0]] + b[1..];
      }
    }
  }

  /** How a sub-sequence with the kept multiplicities starts: with `s[0]`
      when `s[0]` is kept, and otherwise inside `s[1..]`. */
  lemma SubSeqSplit<T(!new)>(a: seq<T>, s: seq<T>, drop: T -> bool)
    requires |s| > 0 && SubSeq(a, s)
    requires KeptCounts(a, s, drop)
    ensures drop(s[0]) ==> SubSeq(a, s[1..]) && KeptCounts(a, s[1..], drop)
    ensures !drop(s[0]) ==> |a| > 0 && a[0] == s[0] && SubSeq(a[1..], s[1..]) && KeptCounts(a[1..], s[1..], drop)
  {
    var x := s[0];
    assert s == [x] + s[1..];
    if drop(x) {
      if a != [] {
        assert multiset(a)[a[0]] > 0;
      }
    } else {
      assert multiset(s)[x] == multiset(s[1..])[x] + 1;
      if !(a != [] && a[0] == x && SubSeq(a[1..], s[1..])) {
        SubSeqMultiset(a, s[1..]);
        assert false;
      }
      assert a == [a[0]] + a[1..];
    }
  }

  /** A sub-sequence of `s` holds no element more often than `s` does. */
  lemma {:induction false} SubSeqMultiset<T>(a: seq<T>, s: seq<T>)
    requires SubSeq(a, s)
    ensures multiset(a) <= multiset(s)
    decreases |s|
  {
    if a == [] {
    } else {
      assert s == [s[0]] + s[1..];
      if a[0] == s[0] && SubSeq(a[1..], s[1..]) {
        SubSeqMultiset(a[1..], s[1..]);
        assert a == [a[0]] + a[1..];
      } else {
        SubSeqMultiset(a, s[1..]);
      }
    }
  }

  /** No element of `s` occurs twice. */
  predicate Distinct<T(==)>(s: seq<T>) {
    forall i, j | 0 <= i < j < |s| :: s[i] != s[j]
  }

  /** No element of `a` occurs in `b`. */
  predicate Apart<T(==)>(a: seq<T>, b: seq<T>) {
    forall i, j | 0 <= i < |a| && 0 <= j < |b| :: a[i] != b[j]
  }

  lemma DistinctConcat<T>(a: seq<T>, b: seq<T>)
    requires Distinct(a) && Distinct(b) && Apart(a, b)
    ensures Distinct(a + b)
  {
  }

  /** The parts joined end to end, in order. */
  function Concat<T>(parts: seq<seq<T>>): seq<T> {
    if |parts| == 0 then [] else parts[0] + Concat(parts[1..])
  }
}

=== FILE: temporal.dfy ===
/** The temporal resolver `layer_time_config` (geomet_mapfile/mapfile.py):
    reads a layer's time keys from the data-registry store, decodes the
    `start/end/period` extent, enumerates its instants and picks the one
    nearest to the generator's frozen `NOW`. */
module Temporal {
  import opened Wrappers
  import opened Text
  import opened Calendar
  import opened Timestamp
  import opened Errors

  /** Microseconds per second: `NOW` carries microseconds, instants do not. */
  const Micro: int := 1000000

  /** The largest whole number of seconds a `timedelta` can hold
      (999999999 days, 23:59:59). */
  const MaxDeltaSeconds: int := 86400 * 1000000000 - 1

  // ---------------------------------------------------------------------
  // The store

  /** The data-registry store as seen through `get_key(..., raw=True)`:
      an absent key reads as `None`. */
  type Store = map<string, string>

  function RawGet(st: Store, key: string): (r: Option<string>)
    ensures r.Some? <==> key in st
    ensures r.Some? ==> r.value == st[key]
  {
    if key in st then Some(st[key]) else None
  }

  /** Python truthiness of what `get_key` returns: neither `None` nor `''`. */
  predicate Truthy(v: Option<string>) {
    v.Some? && v.value != ""
  }

  /** `f'geomet-data-registry_{layer_name}_{suffix}'` */
  function RegistryKey(layer: string, suffix: string): string {
    "geomet-data-registry_" + layer + "_" + suffix
  }

  // ---------------------------------------------------------------------
  // The period regex `^P(T?)(\d+)(.)`

  /** The three groups of a match. */
  datatype PeriodMatch = PeriodMatch(timePart: string, digits: string, unit: char)

  /** The regex matches `s` with `tl` characters in group 1 and `n` in
      group 2: a `P`, an optional `T`, one or more digits, then any
      character but a newline. */
  predicate IsMatch(s: string, tl: int, n: int) {
    && 0 <= tl <= 1 && 1 <= n && 1 + tl + n < |s|
    && s[0] == 'P' && (tl == 1 ==> s[1] == 'T')
    && (forall k | 1 + tl <= k < 1 + tl + n :: IsDigit(s[k]))
    && s[1 + tl + n] != '\n'
  }

  /** The groups a match with those lengths captures. */
  function Denote(s: string, tl: int, n: int): PeriodMatch
    requires 0 <= tl && 1 <= n && 1 + tl + n < |s|
  {
    PeriodMatch(s[1..1 + tl], s[1 + tl..1 + tl + n], s[1 + tl + n])
  }

  /** Length of the run of digits at the start of `s`. */
  function DigitRun(s: string): (n: nat)
    ensures n <= |s|
    ensures forall k | 0 <= k < n :: IsDigit(s[k])
    ensures n == |s| || !IsDigit(s[n])
  {
    if |s| == 0 || !IsDigit(s[0]) then 0 else 1 + DigitRun(s[1..])
  }

  /** The regex engine with group 1 fixed to `tl` characters: `\d+` first
      takes every digit, then gives one back if `.` has nothing to match. */
  function MatchFrom(s: string, tl: int): (r: Option<PeriodMatch>)
    requires 0 <= tl <= 1 && 1 + tl <= |s|
    ensures r.Some? ==> && r.value.timePart == s[1..1 + tl] && |r.value.digits| >= 1
                        && AllDigits(r.value.digits) && r.value.unit != '\n'
  {
    var rest := s[1 + tl..];
    var n := DigitRun(rest);
    assert forall k | 0 <= k <= n && 1 + tl + k <= |s| :: s[1 + tl..1 + tl + k] == rest[..k];
    if n == 0 then None
    else if 1 + tl + n < |s| && s[1 + tl + n] != '\n' then Some(Denote(s, tl, n))
    else if n >= 2 then
      assert s[tl + n] == rest[n - 1];
      Some(Denote(s, tl, n - 1))
    else None
  }

  /** `re.search('^P(T?)(\\d+)(.)', s)`: the greedy `T?` is tried with the
      `T` first and without it only when that fails. */
  function MatchPeriod(s: string): (r: Option<PeriodMatch>)
    ensures r.Some? ==> r.value.timePart in {"", "T"} && |r.value.digits| >= 1
                        && AllDigits(r.value.digits) && r.value.unit != '\n'
  {
    assert |s| >= 2 ==> s[1..2] == [s[1]];
    if |s| == 0 || s[0] != 'P' then None
    else if |s| >= 2 && s[1] == 'T' && MatchFrom(s, 1).Some? then MatchFrom(s, 1)
    else MatchFrom(s, 0)
  }

  /** `m` is what the regex captures with group 1 of `tl` characters and
      the longest group 2 that matches. */
  ghost predicate LongestMatch(s: string, tl: int, m: PeriodMatch) {
    exists n :: IsMatch(s, tl, n) && m == Denote(s, tl, n)
                && forall n' :: IsMatch(s, tl, n') ==> n' <= n
  }

  /** `MatchFrom` finds the longest digit run the regex can match with that
      group 1, and nothing when there is none. */
  lemma MatchFromSpec(s: string, tl: int)
    requires 0 <= tl <= 1 && 1 + tl <= |s|
    requires s[0] == 'P' && (tl == 1 ==> s[1] == 'T')
    ensures MatchFrom(s, tl).None? <==> forall n :: !IsMatch(s, tl, n)
    ensures MatchFrom(s, tl).Some? ==> LongestMatch(s, tl, MatchFrom(s, tl).value)
  {
    var run := DigitRun(s[1 + tl..]);
    MatchBound(s, tl);
    RunDigits(s, tl);
    if run >= 1 && 1 + tl + run < |s| && s[1 + tl + run] != '\n' {
      assert IsMatch(s, tl, run);
      assert MatchFrom(s, tl) == Some(Denote(s, tl, run));
    } else if run >= 2 {
      assert IsMatch(s, tl, run - 1);
      assert MatchFrom(s, tl) == Some(Denote(s, tl, run - 1));
    } else {
      assert forall n :: !IsMatch(s, tl, n);
    }
  }

  /** The digit run after group 1, read in `s` itself. */
  lemma RunDigits(s: string, tl: int)
    requires 0 <= tl <= 1 && 1 + tl <= |s|
    ensures forall k | 1 + tl <= k < 1 + tl + DigitRun(s[1 + tl..]) :: IsDigit(s[k])
  {
    var rest := s[1 + tl..];
    forall k | 1 + tl <= k < 1 + tl + DigitRun(rest) ensures IsDigit(s[k]) {
      assert s[k] == rest[k - 1 - tl];
    }
  }

  /** No match has more digits than the run after group 1. */
  lemma MatchBound(s: string, tl: int)
    requires 0 <= tl <= 1 && 1 + tl <= |s|
    ensures forall n :: IsMatch(s, tl, n) ==> n <= DigitRun(s[1 + tl..])
  {
    var rest := s[1 + tl..];
    var run := DigitRun(rest);
    assert run < |rest| ==> s[1 + tl + run] == rest[run];
  }

  /** `MatchPeriod` returns exactly the match Python's backtracking regex
      engine reports: some match exists iff it returns one, and the one it
      returns prefers a `T` in group 1 and then the longest group 2. */
  lemma MatchPeriodSpec(s: string)
    ensures MatchPeriod(s).None? <==> forall tl, n :: !IsMatch(s, tl, n)
    ensures MatchPeriod(s).Some? ==>
              exists tl, n :: IsMatch(s, tl, n) && MatchPeriod(s).value == Denote(s, tl, n)
                              && forall tl', n' :: IsMatch(s, tl', n') ==> tl' < tl || (tl' == tl && n' <= n)
  {
    if |s| == 0 || s[0] != 'P' {
      return;
    }
    if |s| >= 2 && s[1] == 'T' {
      MatchFromSpec(s, 1);
      assert forall n :: IsMatch(s, 0, n) ==> IsDigit(s[1]);
      if MatchFrom(s, 1).None? {
        assert MatchFrom(s, 0).None? by {
          assert s[1..][0] == 'T';
        }
      }
    } else {
      MatchFromSpec(s, 0);
      assert forall n :: !IsMatch(s, 1, n);
    }
  }

  // ---------------------------------------------------------------------
  // The step

  /** The step `relative_delta` holds, or `Unbound` when no branch assigned
      it (a unit other than `H` or `M`). */
  datatype Step = Step(seconds: int) | Unbound

  /** `timedelta(seconds=secs)`, which overflows past `timedelta.max`. */
  function Delta(secs: int): (r: Result<Step, Error>)
    requires secs >= 0
    ensures r.Ok? <==> secs <= MaxDeltaSeconds
    ensures r.Ok? ==> r.value == Step(secs)
    ensures r.Err? ==> r.error == OverflowError
  {
    if secs > MaxDeltaSeconds then Err(OverflowError) else Ok(Step(secs))
  }

  /** The step a matched period denotes. Group 1 is never `None`, so the
      time branch always runs: `H` is hours and `M` is minutes, with or
      without the `T`. */
  function PeriodStep(m: PeriodMatch): (r: Result<Step, Error>)
    requires AllDigits(m.digits)
    ensures m.unit == 'H' && DecimalValue(m.digits) * 3600 <= MaxDeltaSeconds
            ==> r == Ok(Step(DecimalValue(m.digits) * 3600))
    ensures m.unit == 'M' && DecimalValue(m.digits) * 60 <= MaxDeltaSeconds
            ==> r == Ok(Step(DecimalValue(m.digits) * 60))
    ensures m.unit != 'H' && m.unit != 'M' ==> r == Ok(Unbound)
    ensures r.Err? ==> r.error == OverflowError
  {
    var count := DecimalValue(m.digits);
    if m.unit == 'H' then Delta(count * 3600)
    else if m.unit == 'M' then Delta(count * 60)
    else Ok(Unbound)
  }

  // ---------------------------------------------------------------------
  // Enumeration

  /** `xs` is the arithmetic progression from `start` with step `d`
      that stops at the last term not after `end`. */
  predicate IsProgression(xs: seq<int>, start: int, end: int, d: int) {
    && (start <= end ==> |xs| >= 1 && xs[0] == start && xs[|xs| - 1] + d > end)
    && (start > end ==> xs == [])
    && (forall i | 0 <= i < |xs| :: start <= xs[i] <= end)
    && (forall i | 0 <= i < |xs| - 1 :: xs[i + 1] == xs[i] + d)
  }

  /** The `while start <= end` loop: each instant is appended, then
      `start += relative_delta` leaves the `datetime` range
      (`OverflowError`) once it passes 9999-12-31T23:59:59. */
  function Enumerate(start: int, end: int, d: int): (r: Result<seq<int>, Error>)
    requires 0 <= start <= MaxInstant && end <= MaxInstant && d > 0
    ensures r.Ok? ==> IsProgression(r.value, start, end, d)
    ensures r.Err? ==> r.error == OverflowError
    decreases end - start + 1
  {
    if start > end then Ok([])
    else if start + d > MaxInstant then Err(OverflowError)
    else
      var rest :- Enumerate(start + d, end, d);
      Ok([start] + rest)
  }

  /** The progression is unique: whatever satisfies `IsProgression` is the
      enumeration, and the enumeration fails exactly when the instant
      after the progression's last term is past the `datetime` range. */
  lemma {:induction false} EnumerateUnique(xs: seq<int>, start: int, end: int, d: int)
    requires 0 <= start <= MaxInstant && end <= MaxInstant && d > 0
    requires IsProgression(xs, start, end, d)
    ensures Enumerate(start, end, d).Ok? <==> (xs == [] || xs[|xs| - 1] + d <= MaxInstant)
    ensures Enumerate(start, end, d).Ok? ==> Enumerate(start, end, d).value == xs
    decreases end - start + 1
  {
    if start <= end {
      EnumerateStep(start, end, d);
      if |xs| == 1 {
        assert xs == [start];
        if start + d <= MaxInstant {
          assert Enumerate(start + d, end, d) == Ok([]);
        }
      } else {
        ProgressionTail(xs, start, end, d);
        var tail := xs[1..];
        assert tail[|tail| - 1] == xs[|xs| - 1];
        EnumerateUnique(tail, start + d, end, d);
        assert xs == [start] + tail;
      }
    }
  }

  /** One turn of the loop: the start is kept, unless the next instant
      overflows. */
  lemma EnumerateStep(start: int, end: int, d: int)
    requires 0 <= start <= end <= MaxInstant && d > 0
    ensures start + d > MaxInstant ==> Enumerate(start, end, d) == Err(OverflowError)
    ensures start + d <= MaxInstant ==>
              && (Enumerate(start, end, d).Ok? <==> Enumerate(start + d, end, d).Ok?)
              && (Enumerate(start, end, d).Ok? ==> Enumerate(start, end, d).value == [start] + Enumerate(start + d, end, d).value)
  {
  }

  /** Dropping the first term leaves the progression from the next step. */
  lemma ProgressionTail(xs: seq<int>, start: int, end: int, d: int)
    requires d > 0 && start <= end && IsProgression(xs, start, end, d) && |xs| >= 2
    ensures IsProgression(xs[1..], start + d, end, d)
    ensures xs[1..][|xs[1..]| - 1] == xs[|xs| - 1]
  {
    var tail := xs[1..];
    assert tail[0] == start + d;
    forall i | 0 <= i < |tail| ensures start + d <= tail[i] {
      ProgressionAbove(xs, start, end, d, i + 1);
    }
  }

  /** Terms after the first are at least one step past `start`. */
  lemma {:induction false} ProgressionAbove(xs: seq<int>, start: int, end: int, d: int, i: int)
    requires d > 0 && IsProgression(xs, start, end, d)
    requires 1 <= i < |xs|
    ensures xs[i] >= start + d
  {
    if i > 1 {
      ProgressionAbove(xs, start, end, d, i - 1);
    } else {
      assert xs[0] == start;
    }
  }

  // ---------------------------------------------------------------------
  // Nearest instant

  /** `abs(interval - NOW)` in microseconds. */
  function Distance(t: int, nowMicros: int): nat {
    var diff := t * Micro - nowMicros;
    if diff < 0 then -diff else diff
  }

  /** The index `min(xs, key=lambda t: abs(t - NOW))` picks: the first of
      the elements at minimal distance. */
  function FirstNearest(xs: seq<int>, nowMicros: int): (i: nat)
    requires |xs| > 0
    ensures i < |xs|
    ensures forall j | 0 <= j < |xs| :: Distance(xs[i], nowMicros) <= Distance(xs[j], nowMicros)
    ensures forall j | 0 <= j < i :: Distance(xs[j], nowMicros) > Distance(xs[i], nowMicros)
  {
    if |xs| == 1 then 0
    else
      var k := FirstNearest(xs[1..], nowMicros) + 1;
      if Distance(xs[0], nowMicros) <= Distance(xs[k], nowMicros) then 0 else k
  }

  // ---------------------------------------------------------------------
  // The resolver

  /** The dictionary `layer_time_config` returns. */
  datatype TimeConfig = TimeConfig(
    defaultTime: string,
    availableIntervals: seq<int>,
    timeExtent: string,
    modelRunExtent: Option<string>,
    defaultModelRun: Option<string>)

  /** `datetime.strptime(text, DATEFORMAT)` */
  function StrpTime(text: string): (r: Result<int, Error>)
    ensures r.Ok? <==> Parse(text).Some?
    ensures r.Ok? ==> r.value == Parse(text).value
  {
    match Parse(text)
    case Some(t) => Ok(t)
    case None => Err(ValueError("time data does not match format"))
  }

  /** A decoded extent `start/end/period`. */
  datatype Extent = Extent(start: int, end: int, step: Step)

  predicate ValidExtent(x: Extent) {
    && 0 <= x.start <= MaxInstant && 0 <= x.end <= MaxInstant
    && (x.step.Step? ==> x.step.seconds >= 0)
  }

  /** `start, end, interval = time_extent.split('/')`, the two `strptime`
      calls, the regex search and the step. */
  function DecodeExtent(extent: string): (r: Result<Extent, Error>)
    ensures r.Ok? ==> ValidExtent(r.value)
    ensures r.Ok? <==>
              var parts := Split(extent, '/');
              && |parts| == 3 && Parse(parts[0]).Some? && Parse(parts[1]).Some?
              && MatchPeriod(parts[2]).Some? && PeriodStep(MatchPeriod(parts[2]).value).Ok?
    ensures r.Ok? ==>
              var parts := Split(extent, '/');
              && Parse(parts[0]) == Some(r.value.start) && Parse(parts[1]) == Some(r.value.end)
              && PeriodStep(MatchPeriod(parts[2]).value) == Ok(r.value.step)
  {
    var parts := Split(extent, '/');
    if |parts| != 3 then Err(ValueError("not enough or too many values to unpack"))
    else
      var start :- StrpTime(parts[0]);
      var end :- StrpTime(parts[1]);
      var m :- (match MatchPeriod(parts[2])
                case Some(m) => Ok(m)
                case None => Err(AttributeError("'NoneType' object has no attribute 'group'")));
      var step :- PeriodStep(m);
      Ok(Extent(start, end, step))
  }

  /** The rest of the full branch: `(default_time, available_intervals)`. */
  function Resolve(x: Extent, nowMicros: int): (r: Result<(string, seq<int>), Error>)
    requires ValidExtent(x)
    ensures r.Ok? ==> forall i | 0 <= i < |r.value.1| :: 0 <= r.value.1[i] <= MaxInstant
  {
    if x.start != x.end && x.step != Step(0) then
      if x.step.Unbound? then Err(UnboundLocalError("relative_delta"))
      else
        var intervals :- Enumerate(x.start, x.end, x.step.seconds);
        if |intervals| == 0 then Err(ValueError("min() arg is an empty sequence"))
        else Ok((Format(intervals[FirstNearest(intervals, nowMicros)]), intervals))
    else Ok((Format(x.end), []))
  }

  /** `layer_time_config(layer_name)` against store `st`, with `NOW`
      passed in as `nowMicros` (microseconds since 0001-01-01). */
  function LayerTimeConfig(st: Store, layer: string, nowMicros: int): (r: Result<TimeConfig, Error>)
    ensures r.Err? && r.error.LayerTimeConfigError? <==> !Truthy(RawGet(st, RegistryKey(layer, "time_extent")))
    ensures r.Ok? ==> Some(r.value.timeExtent) == RawGet(st, RegistryKey(layer, "time_extent"))
    ensures r.Ok? ==> r.value.modelRunExtent == RawGet(st, RegistryKey(layer, "model_run_extent"))
    ensures r.Ok? ==> r.value.defaultModelRun == RawGet(st, RegistryKey(layer, "default_model_run"))
    ensures r.Ok? ==> forall i | 0 <= i < |r.value.availableIntervals| :: 0 <= r.value.availableIntervals[i] <= MaxInstant
    ensures Truthy(RawGet(st, RegistryKey(layer, "time_extent"))) && !Shortcut(st, layer) ==>
              var decoded := DecodeExtent(st[RegistryKey(layer, "time_extent")]);
              && (r.Ok? <==> decoded.Ok? && Resolve(decoded.value, nowMicros).Ok?)
              && (r.Ok? ==> (r.value.defaultTime, r.value.availableIntervals) == Resolve(decoded.value, nowMicros).value)
              && (r.Err? && decoded.Err? ==> r.error == decoded.error)
  {
    var timeExtent := RawGet(st, RegistryKey(layer, "time_extent"));
    var defaultTime := RawGet(st, RegistryKey(layer, "default_time"));
    var modelRunExtent := RawGet(st, RegistryKey(layer, "model_run_extent"));
    var defaultModelRun := RawGet(st, RegistryKey(layer, "default_model_run"));
    if !Truthy(timeExtent) then Err(LayerTimeConfigError(layer))
    else if Shortcut(st, layer) then
      Ok(TimeConfig(defaultTime.value, [], timeExtent.value, modelRunExtent, defaultModelRun))
    else
      var extent :- DecodeExtent(timeExtent.value);
      var resolved :- Resolve(extent, nowMicros);
      Ok(TimeConfig(resolved.0, resolved.1, timeExtent.value, modelRunExtent, defaultModelRun))
  }

  /** The single-axis shortcut applies: a stored default time, and not
      both model-run keys. */
  predicate Shortcut(st: Store, layer: string) {
    && Truthy(RawGet(st, RegistryKey(layer, "default_time")))
    && !(Truthy(RawGet(st, RegistryKey(layer, "model_run_extent")))
         && Truthy(RawGet(st, RegistryKey(layer, "default_model_run"))))
  }

  /** Outside the shortcut, a stored extent `start/end/period` with
      distinct ends and a positive step gives the whole progression from
      `start` to `end` as the intervals and the first instant nearest to
      `NOW` as the default; `start` after `end` fails in `min()`. */
  lemma EnumeratedConfig(st: Store, layer: string, nowMicros: int)
    requires Truthy(RawGet(st, RegistryKey(layer, "time_extent"))) && !Shortcut(st, layer)
    requires DecodeExtent(st[RegistryKey(layer, "time_extent")]).Ok?
    requires var x := DecodeExtent(st[RegistryKey(layer, "time_extent")]).value;
             x.start != x.end && x.step.Step? && x.step.seconds > 0
    ensures var x := DecodeExtent(st[RegistryKey(layer, "time_extent")]).value;
            var r := LayerTimeConfig(st, layer, nowMicros);
            && (x.start > x.end ==> r == Err(ValueError("min() arg is an empty sequence")))
            && (r.Ok? ==> && IsProgression(r.value.availableIntervals, x.start, x.end, x.step.seconds)
                          && |r.value.availableIntervals| > 0
                          && SpellsNearest(r.value.defaultTime, r.value.availableIntervals, nowMicros))
  {
    var x := DecodeExtent(st[RegistryKey(layer, "time_extent")]).value;
    EnumeratedExtentFails(x, nowMicros);
    if LayerTimeConfig(st, layer, nowMicros).Ok? {
      EnumeratedExtent(x, nowMicros);
    }
  }

  /** Outside the shortcut, a stored extent with equal ends or a zero
      step gives its end as the default and no intervals. */
  lemma DegenerateConfig(st: Store, layer: string, nowMicros: int)
    requires Truthy(RawGet(st, RegistryKey(layer, "time_extent"))) && !Shortcut(st, layer)
    requires DecodeExtent(st[RegistryKey(layer, "time_extent")]).Ok?
    requires var x := DecodeExtent(st[RegistryKey(layer, "time_extent")]).value;
             x.start == x.end || x.step == Step(0)
    ensures var x := DecodeExtent(st[RegistryKey(layer, "time_extent")]).value;
            LayerTimeConfig(st, layer, nowMicros).Ok?
            && LayerTimeConfig(st, layer, nowMicros).value.defaultTime == Format(x.end)
            && LayerTimeConfig(st, layer, nowMicros).value.availableIntervals == []
  {
    DegenerateExtent(DecodeExtent(st[RegistryKey(layer, "time_extent")]).value, nowMicros);
  }

  /** Single-axis shortcut: a stored default time is returned verbatim,
      with no intervals, unless the layer also has both model-run keys. */
  lemma SingleAxisShortcut(st: Store, layer: string, nowMicros: int)
    requires Truthy(RawGet(st, RegistryKey(layer, "time_extent")))
    requires Shortcut(st, layer)
    ensures LayerTimeConfig(st, layer, nowMicros).Ok?
    ensures LayerTimeConfig(st, layer, nowMicros).value.defaultTime == st[RegistryKey(layer, "default_time")]
    ensures LayerTimeConfig(st, layer, nowMicros).value.availableIntervals == []
  {
  }

  /** A single instant, or a zero step: the default is `end` and there are
      no intervals, even when the unit left the step unbound. */
  lemma DegenerateExtent(x: Extent, nowMicros: int)
    requires ValidExtent(x)
    requires x.start == x.end || x.step == Step(0)
    ensures Resolve(x, nowMicros) == Ok((Format(x.end), []))
  {
  }

  /** A step that no `H`/`M` branch assigned fails on distinct ends. */
  lemma UnboundStep(x: Extent, nowMicros: int)
    requires ValidExtent(x)
    requires x.start != x.end && x.step == Unbound
    ensures Resolve(x, nowMicros) == Err(UnboundLocalError("relative_delta"))
  {
  }

  /** With distinct ends and a positive step the intervals are the
      progression from `start` to `end`, and the default is the formatted
      first interval nearest to `NOW`. */
  lemma EnumeratedExtent(x: Extent, nowMicros: int)
    requires ValidExtent(x)
    requires x.start != x.end && x.step.Step? && x.step.seconds > 0
    requires Resolve(x, nowMicros).Ok?
    ensures var r := Resolve(x, nowMicros).value;
            && IsProgression(r.1, x.start, x.end, x.step.seconds) && |r.1| > 0
            && SpellsNearest(r.0, r.1, nowMicros)
  {
    var r := Resolve(x, nowMicros).value;
    ResolveEnumerates(x, nowMicros);
    NearestWitness(r.1, nowMicros, r.0);
  }

  /** `s` spells an instant of `xs` at minimal distance from `NOW`, and
      every earlier instant of `xs` is strictly farther: the instant
      `min` picks with a distance key. */
  predicate SpellsNearest(s: string, xs: seq<int>, nowMicros: int) {
    exists i | 0 <= i < |xs| ::
      && 0 <= xs[i] <= MaxInstant && s == Format(xs[i])
      && (forall j | 0 <= j < |xs| :: Distance(xs[i], nowMicros) <= Distance(xs[j], nowMicros))
      && (forall j | 0 <= j < i :: Distance(xs[j], nowMicros) > Distance(xs[i], nowMicros))
  }

  /** The spelling of the first nearest instant is a nearest spelling. */
  lemma NearestWitness(xs: seq<int>, nowMicros: int, s: string)
    requires |xs| > 0 && 0 <= xs[FirstNearest(xs, nowMicros)] <= MaxInstant
    requires s == Format(xs[FirstNearest(xs, nowMicros)])
    ensures SpellsNearest(s, xs, nowMicros)
  {
    var i := FirstNearest(xs, nowMicros);
    assert s == Format(xs[i]);
  }

  /** With distinct ends and a positive step, a resolved extent lists the
      enumeration and spells its first nearest instant. */
  lemma ResolveEnumerates(x: Extent, nowMicros: int)
    requires ValidExtent(x)
    requires x.start != x.end && x.step.Step? && x.step.seconds > 0
    requires Resolve(x, nowMicros).Ok?
    ensures var r := Resolve(x, nowMicros).value;
            && Enumerate(x.start, x.end, x.step.seconds) == Ok(r.1) && |r.1| > 0
            && 0 <= r.1[FirstNearest(r.1, nowMicros)] <= MaxInstant
            && r.0 == Format(r.1[FirstNearest(r.1, nowMicros)])
  {
  }

  /** Distinct ends with a positive step fail in exactly two ways: `start`
      after `end` leaves `min` an empty list, and a progression that runs
      into the end of year 9999 overflows. */
  lemma EnumeratedExtentFails(x: Extent, nowMicros: int)
    requires ValidExtent(x)
    requires x.start != x.end && x.step.Step? && x.step.seconds > 0
    ensures x.start > x.end ==> Resolve(x, nowMicros) == Err(ValueError("min() arg is an empty sequence"))
    ensures Resolve(x, nowMicros) == Err(OverflowError) <==> Enumerate(x.start, x.end, x.step.seconds).Err?
    ensures Resolve(x, nowMicros).Err? ==> x.start > x.end || Enumerate(x.start, x.end, x.step.seconds).Err?
  {
  }
}

=== FILE: text.dfy ===
/** The Python `str` operations the generator relies on, over `seq<char>`.
    Each one is the exact CPython behaviour for the arguments it is used
    with here (a one-character separator, a set of characters to strip). */
module Text {
  import opened Seqs

  /** `c in "0123456789"`: ASCII decimal digit. */
  predicate IsDigit(c: char) {
    '0' <= c <= '9'
  }

  function DigitValue(c: char): (n: nat)
    requires IsDigit(c)
    ensures n < 10
  {
    c as int - '0' as int
  }

  function DigitChar(n: nat): (c: char)
    requires n < 10
    ensures IsDigit(c) && DigitValue(c) == n
  {
    (n + '0' as int) as char
  }

  /** `text.startswith(prefix)` */
  predicate StartsWith(text: string, prefix: string) {
    |prefix| <= |text| && text[..|prefix|] == prefix
  }

  /** `needle` occurs in `haystack` starting at index `i`. */
  predicate OccursAt(haystack: string, needle: string, i: int) {
    0 <= i <= |haystack| - |needle| && haystack[i..i + |needle|] == needle
  }

  /** `needle in haystack` for two strings: `needle` occurs as a contiguous
      substring. */
  predicate Contains(haystack: string, needle: string) {
    exists i | 0 <= i <= |haystack| - |needle| :: OccursAt(haystack, needle, i)
  }

  lemma ContainsSelf(s: string)
    ensures Contains(s, s)
  {
    assert OccursAt(s, s, 0);
  }

  /** A substring of the second part is a substring of the whole. */
  lemma ContainsAfter(a: string, b: string, needle: string)
    requires Contains(b, needle)
    ensures Contains(a + b, needle)
  {
    var k :| 0 <= k <= |b| - |needle| && OccursAt(b, needle, k);
    assert (a + b)[|a| + k..|a| + k + |needle|] == b[k..k + |needle|];
    assert OccursAt(a + b, needle, |a| + k);
  }

  /** A substring of a part is a substring of the whole. */
  lemma ContainsInfix(s: string, i: int, j: int, needle: string)
    requires 0 <= i <= j <= |s|
    requires Contains(s[i..j], needle)
    ensures Contains(s, needle)
  {
    var k :| 0 <= k <= |s[i..j]| - |needle| && OccursAt(s[i..j], needle, k);
    var a, b := s[i..j][k..k + |needle|], s[i + k..i + k + |needle|];
    assert forall t | 0 <= t < |needle| :: a[t] == b[t];
    assert a == b;
    assert OccursAt(s, needle, i + k);
  }

  /** `sep.join(parts)` */
  function Join(parts: seq<string>, sep: string): string {
    if |parts| == 0 then ""
    else if |parts| == 1 then parts[0]
    else parts[0] + sep + Join(parts[1..], sep)
  }

  /** `s.split(sep)` for a one-character separator: the maximal pieces
      between separators, always at least one (`"".split(",") == [""]`). */
  function Split(s: string, sep: char): (parts: seq<string>)
    ensures |parts| >= 1
    ensures forall i :: 0 <= i < |parts| ==> sep !in parts[i]
    ensures Join(parts, [sep]) == s
  {
    if |s| == 0 then [""]
    else
      var rest := Split(s[1..], sep);
      if s[0] == sep then
        [""] + rest
      else
        [[s[0]] + rest[0]] + rest[1..]
  }

  /** Splitting a join of separator-free parts gives the parts back: the
      other half of the round trip `Split` states. */
  lemma {:induction false} SplitJoin(parts: seq<string>, sep: char)
    requires |parts| >= 1
    requires forall i :: 0 <= i < |parts| ==> sep !in parts[i]
    ensures Split(Join(parts, [sep]), sep) == parts
  {
    if |parts| == 1 {
      SplitNoSep(parts[0], sep);
    } else {
      SplitJoin(parts[1..], sep);
      SplitPrefix(parts[0], Join(parts[1..], [sep]), sep);
      assert Join(parts, [sep]) == parts[0] + [sep] + Join(parts[1..], [sep]);
      assert [parts[0]] + parts[1..] == parts;
    }
  }

  lemma {:induction false} SplitNoSep(s: string, sep: char)
    requires sep !in s
    ensures Split(s, sep) == [s]
  {
    if |s| > 0 {
      SplitNoSep(s[1..], sep);
      assert [s[0]] + s[1..] == s;
    }
  }

  lemma {:induction false} SplitPrefix(head: string, tail: string, sep: char)
    requires sep !in head
    ensures Split(head + [sep] + tail, sep) == [head] + Split(tail, sep)
  {
    if |head| == 0 {
      assert head + [sep] + tail == [sep] + tail;
      assert ([sep] + tail)[1..] == tail;
    } else {
      SplitPrefix(head[1..], tail, sep);
      assert (head + [sep] + tail)[1..] == head[1..] + [sep] + tail;
      assert [head[0]] + head[1..] == head;
    }
  }

  /** `s.split(sep)[-1]`: the text after the last separator, or all of
      `s` when it has none. */
  function LastPiece(s: string, sep: char): (r: string)
    ensures sep !in r
    ensures exists i | 0 <= i <= |s| :: s[i..] == r && (i == 0 || s[i - 1] == sep)
  {
    var parts := Split(s, sep);
    LastPieceSuffix(parts, sep);
    parts[|parts| - 1]
  }

  lemma {:induction false} LastPieceSuffix(parts: seq<string>, sep: char)
    requires |parts| >= 1
    ensures exists i | 0 <= i <= |Join(parts, [sep])| ::
              Join(parts, [sep])[i..] == parts[|parts| - 1] && (i == 0 || Join(parts, [sep])[i - 1] == sep)
  {
    var s := Join(parts, [sep]);
    if |parts| == 1 {
      assert s[0..] == parts[0];
    } else {
      LastPieceSuffix(parts[1..], sep);
      var t := Join(parts[1..], [sep]);
      var i :| 0 <= i <= |t| && t[i..] == parts[1..][|parts[1..]| - 1] && (i == 0 || t[i - 1] == sep);
      var off := |parts[0]| + 1;
      assert s == parts[0] + [sep] + t;
      assert s[off + i..] == t[i..];
      assert s[off + i - 1] == sep;
    }
  }

  /** `s.strip(chars)`: drop every leading and trailing character that is
      in `chars`; interior characters are kept. */
  function Strip(s: string, chars: set<char>): (r: string)
    ensures exists i, j | 0 <= i <= j <= |s| :: r == s[i..j]
                                               && (forall k | 0 <= k < i :: s[k] in chars)
                                               && (forall k | j <= k < |s| :: s[k] in chars)
    ensures r == [] || (r[0] !in chars && r[|r| - 1] !in chars)
  {
    var i := LeadingCount(s, chars);
    var j := |s| - TrailingCount(s[i..], chars);
    assert s[i..][..|s[i..]| - TrailingCount(s[i..], chars)] == s[i..j];
    s[i..j]
  }

  /** Number of leading characters of `s` that belong to `chars`. */
  function LeadingCount(s: string, chars: set<char>): (n: nat)
    ensures n <= |s|
    ensures forall k | 0 <= k < n :: s[k] in chars
    ensures n == |s| || s[n] !in chars
  {
    if |s| == 0 || s[0] !in chars then 0 else 1 + LeadingCount(s[1..], chars)
  }

  /** Number of trailing characters of `s` that belong to `chars`. */
  function TrailingCount(s: string, chars: set<char>): (n: nat)
    ensures n <= |s|
    ensures forall k | |s| - n <= k < |s| :: s[k] in chars
    ensures n == |s| || s[|s| - n - 1] !in chars
  {
    if |s| == 0 || s[|s| - 1] !in chars then 0 else 1 + TrailingCount(s[..|s| - 1], chars)
  }

  /** The last piece is what follows the last separator, wherever the
      earlier separators are. */
  lemma LastPieceAfter(a: string, b: string, sep: char)
    requires sep !in b
    ensures LastPiece(a + [sep] + b, sep) == b
  {
    var x := a + [sep] + b;
    var r := LastPiece(x, sep);
    var i :| 0 <= i <= |x| && x[i..] == r && (i == 0 || x[i - 1] == sep);
    var p := |a| + 1;
    assert x[p..] == b && x[p - 1] == sep;
    assert forall k | i <= k < |x| :: x[k] == r[k - i];
    assert forall k | p <= k < |x| :: x[k] == b[k - p];
    assert i == p;
  }

  /** A text without the separator is its own last piece. */
  lemma LastPieceWhole(s: string, sep: char)
    requires sep !in s
    ensures LastPiece(s, sep) == s
  {
    SplitNoSep(s, sep);
  }

  /** Characters of `chars` appended to `base` change nothing in
      `base.strip(chars)`: `strip` removes characters, not a suffix. */
  lemma StripAppended(base: string, suffix: string, chars: set<char>)
    requires forall k | 0 <= k < |suffix| :: suffix[k] in chars
    ensures Strip(base + suffix, chars) == Strip(base, chars)
  {
    var x := base + suffix;
    var l := LeadingCount(base, chars);
    if l < |base| {
      LeadingAppended(base, suffix, chars);
      assert x[l..] == base[l..] + suffix;
      TrailingAppended(base[l..], suffix, chars);
      var y := base[l..];
      assert x[l..][..|x[l..]| - TrailingCount(x[l..], chars)] == y[..|y| - TrailingCount(y, chars)];
    } else {
      LeadingAll(base, suffix, chars);
    }
  }

  lemma {:induction false} LeadingAppended(x: string, suffix: string, chars: set<char>)
    requires LeadingCount(x, chars) < |x|
    ensures LeadingCount(x + suffix, chars) == LeadingCount(x, chars)
  {
    if x[0] in chars {
      assert (x + suffix)[1..] == x[1..] + suffix;
      LeadingAppended(x[1..], suffix, chars);
    }
  }

  lemma {:induction false} LeadingAll(x: string, suffix: string, chars: set<char>)
    requires LeadingCount(x, chars) == |x|
    requires forall k | 0 <= k < |suffix| :: suffix[k] in chars
    ensures LeadingCount(x + suffix, chars) == |x + suffix|
    decreases |x + suffix|
  {
    if |x| > 0 {
      assert (x + suffix)[1..] == x[1..] + suffix;
      LeadingAll(x[1..], suffix, chars);
    } else if |suffix| > 0 {
      assert x + suffix == suffix && [] + suffix[1..] == suffix[1..];
      LeadingAll([], suffix[1..], chars);
    }
  }

  lemma {:induction false} TrailingAppended(y: string, suffix: string, chars: set<char>)
    requires forall k | 0 <= k < |suffix| :: suffix[k] in chars
    ensures TrailingCount(y + suffix, chars) == |suffix| + TrailingCount(y, chars)
    decreases |suffix|
  {
    if |suffix| == 0 {
      assert y + suffix == y;
    } else {
      var n := |suffix|;
      assert (y + suffix)[..|y + suffix| - 1] == y + suffix[..n - 1];
      TrailingAppended(y, suffix[..n - 1], chars);
    }
  }

  /** `c.isspace()` for the characters CPython classifies as whitespace. */
  predicate IsSpace(c: char) {
    c == ' ' || ('\t' <= c <= '\r') || ('\U{1C}' <= c <= '\U{1F}') || c == '\U{85}' || c == '\U{A0}'
    || c == '\U{1680}' || ('\U{2000}' <= c <= '\U{200A}') || c == '\U{2028}' || c == '\U{2029}'
    || c == '\U{202F}' || c == '\U{205F}' || c == '\U{3000}'
  }

  /** `s.split()` with no argument: the maximal runs of non-whitespace. */
  function SplitWhitespace(s: string): (words: seq<string>)
    ensures forall i :: 0 <= i < |words| ==> |words[i]| > 0
    ensures forall i, k :: 0 <= i < |words| && 0 <= k < |words[i]| ==> !IsSpace(words[i][k])
    decreases |s|
  {
    var lead := SpaceRun(s);
    if lead == |s| then []
    else
      var rest := s[lead..];
      var w := WordRun(rest);
      var word, tail := rest[..w], SplitWhitespace(rest[w..]);
      assert forall k | 0 <= k < |word| :: !IsSpace(word[k]);
      var r := [word] + tail;
      assert forall i | 1 <= i < |r| :: r[i] == tail[i - 1];
      r
  }

  function SpaceRun(s: string): (n: nat)
    ensures n <= |s|
    ensures n == |s| || !IsSpace(s[n])
  {
    if |s| == 0 || !IsSpace(s[0]) then 0 else 1 + SpaceRun(s[1..])
  }

  function WordRun(s: string): (n: nat)
    ensures n <= |s|
    ensures forall k | 0 <= k < n :: !IsSpace(s[k])
    ensures |s| > 0 && !IsSpace(s[0]) ==> n > 0
  {
    if |s| == 0 || IsSpace(s[0]) then 0 else 1 + WordRun(s[1..])
  }

  /** `s.lower()` on the ASCII letters. */
  function AsciiLower(s: string): (r: string)
    ensures |r| == |s|
    ensures forall i | 0 <= i < |s| :: r[i] == LowerChar(s[i])
  {
    seq(|s|, i requires 0 <= i < |s| => LowerChar(s[i]))
  }

  /** `c.lower()` for one character: `A`..`Z` become `a`..`z`. */
  function LowerChar(c: char): (l: char)
    ensures 'A' <= c <= 'Z' ==> 'a' <= l <= 'z' && l as int == c as int + 32
    ensures !('A' <= c <= 'Z') ==> l == c
  {
    if 'A' <= c <= 'Z' then (c as int + 32) as char else c
  }

  /** `re.sub("[^0-9]", "", s)`: the digits of `s`, in order. */
  function KeepDigits(s: string): (r: string)
    ensures forall i | 0 <= i < |r| :: IsDigit(r[i])
    ensures |r| <= |s|
    ensures (forall i | 0 <= i < |s| :: IsDigit(s[i])) ==> r == s
    ensures SubSeq(r, s) && KeptCounts(r, s, NotDigit)
  {
    if |s| == 0 then []
    else
      var rest := KeepDigits(s[1..]);
      SubSeqCons(s[0], rest, s[1..]);
      assert s == [s[0]] + s[1..];
      if IsDigit(s[0]) then [s[0]] + rest
      else rest
  }

  predicate NotDigit(c: char) {
    !IsDigit(c)
  }

  /** `s` with every character of `chars` deleted (chained `str.replace(c, "")`). */
  function RemoveChars(s: string, chars: set<char>): (r: string)
    ensures forall i | 0 <= i < |r| :: r[i] !in chars
    ensures (forall i | 0 <= i < |s| :: s[i] !in chars) ==> r == s
    ensures SubSeq(r, s) && KeptCounts(r, s, InSet(chars))
  {
    if |s| == 0 then []
    else
      var rest := RemoveChars(s[1..], chars);
      SubSeqCons(s[0], rest, s[1..]);
      assert s == [s[0]] + s[1..];
      if s[0] in chars then rest
      else [s[0]] + rest
  }

  /** Membership in `chars`, as a test. */
  function InSet(chars: set<char>): char -> bool {
    c => c in chars
  }

  /** `str(n)` for a natural number. */
  function NatToString(n: nat): (r: string)
    ensures |r| > 0
    ensures forall i | 0 <= i < |r| :: IsDigit(r[i])
    ensures DecimalValue(r) == n
  {
    if n < 10 then [DigitChar(n)]
    else
      var r := NatToString(n / 10) + [DigitChar(n % 10)];
      DecimalValueSnoc(NatToString(n / 10), DigitChar(n % 10));
      r
  }

  /** The number a string of decimal digits denotes. */
  function DecimalValue(s: string): nat
    requires forall i | 0 <= i < |s| :: IsDigit(s[i])
  {
    if |s| == 0 then 0 else 10 * DecimalValue(s[..|s| - 1]) + DigitValue(s[|s| - 1])
  }

  lemma DecimalValueSnoc(s: string, c: char)
    requires forall i | 0 <= i < |s| :: IsDigit(s[i])
    requires IsDigit(c)
    ensures DecimalValue(s + [c]) == 10 * DecimalValue(s) + DigitValue(c)
  {
    assert (s + [c])[..|s + [c]| - 1] == s;
  }

  /** `str(i)` for an integer. */
  function IntToString(i: int): (r: string)
    ensures |r| > 0
    ensures i >= 0 ==> r == NatToString(i)
    ensures i < 0 ==> r == "-" + NatToString(-i)
  {
    if i >= 0 then NatToString(i) else "-" + NatToString(-i)
  }

  /** Joining with one more part at the end. */
  lemma {:induction false} JoinSnoc(parts: seq<string>, last: string, sep: string)
    requires |parts| >= 1
    ensures Join(parts + [last], sep) == Join(parts, sep) + sep + last
  {
    if |parts| == 1 {
      assert (parts + [last])[1..] == [last];
    } else {
      JoinSnoc(parts[1..], last, sep);
      assert (parts + [last])[1..] == parts[1..] + [last];
    }
  }

  /** `f.readlines()` with the line ends dropped: the text between
      newlines, without the empty piece after a final newline. */
  function ReadLines(text: string): (lines: seq<string>)
    ensures forall i | 0 <= i < |lines| :: '\n' !in lines[i]
    ensures text == [] ==> lines == []
    ensures |text| > 0 && text[|text| - 1] == '\n' ==> Join(lines, "\n") + "\n" == text
    ensures |text| > 0 && text[|text| - 1] != '\n' ==> Join(lines, "\n") == text
  {
    var parts := Split(text, '\n');
    ReadLinesJoin(parts);
    if parts[|parts| - 1] == "" then parts[..|parts| - 1] else parts
  }

  lemma ReadLinesJoin(parts: seq<string>)
    requires |parts| >= 1
    requires forall i :: 0 <= i < |parts| ==> '\n' !in parts[i]
    ensures var text := Join(parts, "\n");
            && (parts[|parts| - 1] == "" && |parts| > 1 ==> Join(parts[..|parts| - 1], "\n") + "\n" == text)
            && (parts[|parts| - 1] == "" && |parts| > 1 ==> |text| > 0 && text[|text| - 1] == '\n')
            && (parts[|parts| - 1] == "" && |parts| == 1 ==> text == [])
            && (parts[|parts| - 1] != "" ==> |text| > 0 && text[|text| - 1] != '\n')
  {
    var text := Join(parts, "\n");
    var init, last := parts[..|parts| - 1], parts[|parts| - 1];
    assert init + [last] == parts;
    if |parts| > 1 {
      JoinSnoc(init, last, "\n");
      if last != "" {
        assert text[|text| - 1] == last[|last| - 1];
      }
    } else if last != "" {
      assert text == last;
    }
  }

  /** Two words separated by one space split back into the two words. */
  lemma SplitTwoWords(a: string, b: string)
    requires |a| > 0 && |b| > 0
    requires forall k | 0 <= k < |a| :: !IsSpace(a[k])
    requires forall k | 0 <= k < |b| :: !IsSpace(b[k])
    ensures SplitWhitespace(a + " " + b) == [a, b]
  {
    assert a + " " + b == a + (" " + b);
    assert (" " + b)[0] == ' ';
    SplitWordThen(a, " " + b);
    SplitSpaceThen(b);
  }

  /** A word followed by whitespace-led text: the word comes first. */
  lemma SplitWordThen(w: string, t: string)
    requires |w| > 0 && (t == [] || IsSpace(t[0]))
    requires forall k | 0 <= k < |w| :: !IsSpace(w[k])
    ensures SplitWhitespace(w + t) == [w] + SplitWhitespace(t)
  {
    var s := w + t;
    WordRunPrefix(w, t);
    assert s[0..] == s;
    assert s[..|w|] == w && s[|w|..] == t;
  }

  /** One space then a word. */
  lemma SplitSpaceThen(b: string)
    requires |b| > 0
    requires forall k | 0 <= k < |b| :: !IsSpace(b[k])
    ensures SplitWhitespace(" " + b) == [b]
  {
    var s := " " + b;
    WordRunPrefix(b, "");
    assert b + "" == b;
    assert s[1..] == b;
    assert SpaceRun(s) == 1;
    SplitWordThen(b, "");
    assert SplitWhitespace(s) == SplitWhitespace(s[1..]);
  }

  /** The word run of a word followed by a space or nothing is the word. */
  lemma {:induction false} WordRunPrefix(w: string, t: string)
    requires forall k | 0 <= k < |w| :: !IsSpace(w[k])
    requires t == [] || IsSpace(t[0])
    ensures WordRun(w + t) == |w|
    ensures |w| > 0 ==> SpaceRun(w + t) == 0
  {
    if |w| > 0 {
      WordRunPrefix(w[1..], t);
      assert (w + t)[1..] == w[1..] + t;
    } else {
      assert w + t == t;
    }
  }

  /** Joining two non-empty lists of parts is joining each and putting the
      separator between. */
  lemma {:induction false} JoinAppend(a: seq<string>, b: seq<string>, sep: string)
    requires |a| > 0 && |b| > 0
    ensures Join(a + b, sep) == Join(a, sep) + sep + Join(b, sep)
  {
    if |a| == 1 {
      assert (a + b)[1..] == b;
    } else {
      JoinAppend(a[1..], b, sep);
      assert (a + b)[1..] == a[1..] + b;
    }
  }

  predicate EndsWith(s: string, suffix: string) {
    |suffix| <= |s| && s[|s| - |suffix|..] == suffix
  }
}

=== FILE: timestamp.dfy ===
/** The `DATEFORMAT` codec `%Y-%m-%dT%H:%M:%SZ` (geomet_mapfile/util.py):
    `strftime` of an instant and `strptime` of its canonical text. */
module Timestamp {
  import opened Wrappers
  import opened Text
  import opened Calendar

  predicate AllDigits(s: string) {
    forall i | 0 <= i < |s| :: IsDigit(s[i])
  }

  /** `%02d` */
  function Pad2(n: nat): (r: string)
    requires n < 100
    ensures |r| == 2 && AllDigits(r) && DecimalValue(r) == n
  {
    var r := [DigitChar(n / 10), DigitChar(n % 10)];
    DecimalValue2(r);
    r
  }

  /** `%04d` */
  function Pad4(n: nat): (r: string)
    requires n < 10000
    ensures |r| == 4 && AllDigits(r) && DecimalValue(r) == n
  {
    var hi := Pad2(n / 100);
    var lo := Pad2(n % 100);
    DecimalValueAppend2(hi, lo);
    hi + lo
  }

  lemma DecimalValue2(s: string)
    requires |s| == 2 && AllDigits(s)
    ensures DecimalValue(s) == 10 * DigitValue(s[0]) + DigitValue(s[1])
  {
    DecimalValueSnoc([], s[0]);
    assert [] + [s[0]] == [s[0]];
    DecimalValueSnoc([s[0]], s[1]);
    assert [s[0]] + [s[1]] == s;
  }

  lemma DecimalValueAppend2(a: string, b: string)
    requires AllDigits(a) && AllDigits(b) && |b| == 2
    ensures AllDigits(a + b)
    ensures DecimalValue(a + b) == 100 * DecimalValue(a) + DecimalValue(b)
  {
    DecimalValueSnoc(a, b[0]);
    assert a + b == a + [b[0]] + [b[1]];
    DecimalValueSnoc(a + [b[0]], b[1]);
    DecimalValue2(b);
  }

  /** Two digits are determined by the number they denote. */
  lemma Pad2Inverse(s: string)
    requires |s| == 2 && AllDigits(s)
    ensures DecimalValue(s) < 100
    ensures Pad2(DecimalValue(s)) == s
  {
    DecimalValue2(s);
    assert (DigitValue(s[0]) + '0' as int) as char == s[0];
    assert (DigitValue(s[1]) + '0' as int) as char == s[1];
  }

  /** Four digits are determined by the number they denote. */
  lemma Pad4Inverse(s: string)
    requires |s| == 4 && AllDigits(s)
    ensures DecimalValue(s) < 10000
    ensures Pad4(DecimalValue(s)) == s
  {
    var hi, lo := s[..2], s[2..];
    assert s == hi + lo;
    DecimalValueAppend2(hi, lo);
    Pad2Inverse(hi);
    Pad2Inverse(lo);
    var h, l := DecimalValue(hi), DecimalValue(lo);
    Hundreds(h, l);
    assert Pad4(100 * h + l) == Pad2(h) + Pad2(l);
  }

  lemma Hundreds(h: nat, l: nat)
    requires l < 100
    ensures (100 * h + l) / 100 == h && (100 * h + l) % 100 == l
  {
  }

  /** `dt.strftime(DATEFORMAT)` for an instant `datetime` can hold. */
  function Format(t: int): (s: string)
    requires 0 <= t <= MaxInstant
    ensures |s| == 20
  {
    var dt := FromInstant(t);
    Pad4(dt.year) + "-" + Pad2(dt.month) + "-" + Pad2(dt.day) + "T"
      + Pad2(dt.hour) + ":" + Pad2(dt.minute) + ":" + Pad2(dt.second) + "Z"
  }

  /** The text has the shape of a `DATEFORMAT` string: digits with the
      separators in place. */
  predicate Shaped(s: string) {
    && |s| == 20
    && s[4] == '-' && s[7] == '-' && s[10] == 'T'
    && s[13] == ':' && s[16] == ':' && s[19] == 'Z'
    && AllDigits(s[0..4]) && AllDigits(s[5..7]) && AllDigits(s[8..10])
    && AllDigits(s[11..13]) && AllDigits(s[14..16]) && AllDigits(s[17..19])
  }

  /** The date-time fields a shaped string spells, valid or not. */
  function Fields(s: string): DateTime
    requires Shaped(s)
  {
    DateTime(DecimalValue(s[0..4]), DecimalValue(s[5..7]), DecimalValue(s[8..10]),
             DecimalValue(s[11..13]), DecimalValue(s[14..16]), DecimalValue(s[17..19]))
  }

  /** `datetime.strptime(s, DATEFORMAT)` on canonical text: `None` where
      `strptime` raises `ValueError`. */
  function Parse(s: string): (r: Option<int>)
    ensures r.Some? ==> 0 <= r.value <= MaxInstant
    ensures r.Some? <==> Shaped(s) && Valid(Fields(s))
  {
    if Shaped(s) && Valid(Fields(s)) then Some(ToInstant(Fields(s))) else None
  }

  /** Formatting an instant and parsing the text gives the instant back. */
  lemma ParseFormat(t: int)
    requires 0 <= t <= MaxInstant
    ensures Parse(Format(t)) == Some(t)
  {
    var dt := FromInstant(t);
    var s := Format(t);
    assert s[0..4] == Pad4(dt.year);
    assert s[5..7] == Pad2(dt.month);
    assert s[8..10] == Pad2(dt.day);
    assert s[11..13] == Pad2(dt.hour);
    assert s[14..16] == Pad2(dt.minute);
    assert s[17..19] == Pad2(dt.second);
    assert Fields(s) == dt;
  }

  /** Text that parses is exactly the formatting of the instant it denotes:
      the codec has one spelling per instant. */
  lemma FormatParse(s: string)
    requires Parse(s).Some?
    ensures Format(Parse(s).value) == s
  {
    var dt := Fields(s);
    FromToInstant(dt);
    Pad4Inverse(s[0..4]);
    Pad2Inverse(s[5..7]);
    Pad2Inverse(s[8..10]);
    Pad2Inverse(s[11..13]);
    Pad2Inverse(s[14..16]);
    Pad2Inverse(s[17..19]);
    assert s == s[0..4] + "-" + s[5..7] + "-" + s[8..10] + "T" + s[11..13] + ":" + s[14..16] + ":" + s[17..19] + "Z";
  }

  /** Distinct instants format to distinct text. */
  lemma FormatInjective(t1: int, t2: int)
    requires 0 <= t1 <= MaxInstant && 0 <= t2 <= MaxInstant
    requires Format(t1) == Format(t2)
    ensures t1 == t2
  {
    ParseFormat(t1);
    ParseFormat(t2);
  }

  /** Formatted instants use only digits and the separators `-`, `T`, `:`
      and `Z`; in particular no `,`, so a comma-joined list of them splits
      back apart. */
  lemma FormatAlphabet(t: int)
    requires 0 <= t <= MaxInstant
    ensures forall i | 0 <= i < |Format(t)| :: IsDigit(Format(t)[i]) || Format(t)[i] in {'-', 'T', ':', 'Z'}
  {
    var s := Format(t);
    ParseFormat(t);
    assert Shaped(s);
    forall i | 0 <= i < 20 ensures IsDigit(s[i]) || s[i] in {'-', 'T', ':', 'Z'} {
      if i < 4 { assert s[0..4][i] == s[i]; }
      else if 4 < i < 7 { assert s[5..7][i - 5] == s[i]; }
      else if 7 < i < 10 { assert s[8..10][i - 8] == s[i]; }
      else if 10 < i < 13 { assert s[11..13][i - 11] == s[i]; }
      else if 13 < i < 16 { assert s[14..16][i - 14] == s[i]; }
      else if 16 < i < 19 { assert s[17..19][i - 17] == s[i]; }
    }
  }
}

=== FILE: util.dfy ===
/** The small pure helpers of geomet_mapfile/util.py. */
module Util {
  import opened Wrappers
  import opened Text
  import opened Errors
  import opened Values

  /** The strings `str2bool` reads as true, after lower-casing. */
  const TrueWords: seq<string> := ["yes", "true", "t", "1", "on"]

  /** `str2bool(value)`: a `bool` is returned unchanged; a string is true
      iff its lower-case form is one of `TrueWords`; anything else has no
      `.lower()` and raises. */
  function Str2Bool(value: Value): (r: Result<bool, Error>)
    ensures value.Bool? ==> r == Ok(value.b)
    ensures value.Str? ==> r.Ok? && (r.value <==> AsciiLower(value.s) in TrueWords)
    ensures r.Err? <==> !value.Bool? && !value.Str?
  {
    match value
    case Bool(b) => Ok(b)
    case Str(s) => Ok(AsciiLower(s) in TrueWords)
    case _ => Err(AttributeError("object has no attribute 'lower'"))
  }

  /** `s` spells `word` with any of its letters in upper case. */
  predicate CaseVariant(s: string, word: string) {
    |s| == |word| && forall i | 0 <= i < |s| :: s[i] == word[i] || ('a' <= word[i] <= 'z' && s[i] as int == word[i] as int - 32)
  }

  /** The strings `str2bool` accepts are exactly the case variants of the
      true words: `"Yes"`, `"TRUE"`, `"oN"` are true, `"y"` or `"no"` are not. */
  lemma Str2BoolCaseVariants(s: string)
    ensures Str2Bool(Str(s)) == Ok(exists w | w in TrueWords :: CaseVariant(s, w))
  {
    var lower := AsciiLower(s);
    if lower in TrueWords {
      assert CaseVariant(s, lower);
    }
    forall w | w in TrueWords && CaseVariant(s, w) ensures lower == w {
      assert forall i | 0 <= i < |w| :: 'A' <= w[i] <= 'Z' ==> false;
      assert forall i | 0 <= i < |s| :: lower[i] == w[i];
    }
  }

  /** `remove_prefix(text, prefix)` */
  function RemovePrefix(text: string, prefix: string): (r: string)
    ensures StartsWith(text, prefix) ==> prefix + r == text
    ensures !StartsWith(text, prefix) ==> r == text
    ensures |r| <= |text|
  {
    if StartsWith(text, prefix) then
      assert text == text[..|prefix|] + text[|prefix|..];
      text[|prefix|..]
    else text
  }

  /** Removing a prefix that was put in front gives the text back, and the
      empty prefix changes nothing. */
  lemma RemovePrefixInverse(prefix: string, rest: string)
    ensures RemovePrefix(prefix + rest, prefix) == rest
    ensures RemovePrefix(rest, "") == rest
  {
    assert (prefix + rest)[..|prefix|] == prefix;
    assert rest[..0] == "";
  }
}

=== FILE: values.dfy ===
/** The exceptions the Python code can raise, named after their Python
    classes. `LayerTimeConfigError` is the only one the generator catches. */
module Errors {

  datatype Error =
    | LayerTimeConfigError(layer: string)
    | KeyError(key: string)
    | IndexError
    | TypeError(reason: string)
    | ValueError(reason: string)
    | AttributeError(reason: string)
    | UnboundLocalError(name: string)
    | OverflowError
    | FileNotFoundError(path: string)
}

/** The Python values (from YAML, JSON or built in code) that make up layer
    records and mapfile documents. An `Obj` is a `dict` with insertion order. */
module Values {
  import opened Wrappers
  import opened Dicts
  import opened Errors

  datatype Value =
    | Null
    | Bool(b: bool)
    | Int(i: int)
    | Str(s: string)
    | List(items: seq<Value>)
    | Obj(fields: Dict<Value>)

  /** `v[k]` on a value that should be a dict. */
  function Lookup(v: Value, k: string): (r: Result<Value, Error>)
    ensures r.Ok? <==> v.Obj? && HasKey(v.fields, k)
    ensures r.Ok? ==> Get(v.fields, k) == Some(r.value)
  {
    if !v.Obj? then Err(TypeError("not a dict"))
    else match Get(v.fields, k)
      case Some(x) => Ok(x)
      case None => Err(KeyError(k))
  }

  /** `[str(x) for x in ss]` for a list of strings. */
  function Strs(ss: seq<string>): (r: seq<Value>)
    ensures |r| == |ss|
    ensures forall i | 0 <= i < |ss| :: r[i] == Str(ss[i])
  {
    if |ss| == 0 then [] else [Str(ss[0])] + Strs(ss[1..])
  }
}

=== FILE: webmeta.dfy ===
/** `gen_web_metadata`, the MAP.WEB.METADATA block, as written in both
    geomet_mapfile/mapfile.py and geomet3_mapfile/mapfile.py. The two
    differ only in the package version in the titles and in geomet3
    assigning `ows_addresstype` twice. */
module WebMetadata {
  import opened Wrappers
  import opened Text
  import opened Dicts
  import opened Errors
  import opened Values
  import opened Calendar
  import opened Timestamp
  import opened Rendering
  import opened Seqs

  /** The per-language part of the configuration's `metadata` section. */
  datatype LangBlock = LangBlock(
    deliveryPoint: Value,
    keywords: seq<string>,
    instructions: Value,
    contactName: Value,
    position: Value,
    organization: Value,
    summary: Value,
    serviceUrl: Value,
    title: Value,
    hours: Value,
    stateOrProvince: Value,
    city: Value,
    country: Value,
    attributionTitle: Value,
    attributionUrl: Value)

  /** The configuration's `metadata` section, with every key the generator
      reads present. */
  datatype ServiceConfig = ServiceConfig(
    fees: Value,
    accessConstraints: Value,
    role: Value,
    postalCode: Value,
    email: Value,
    voice: Value,
    fax: Value,
    logoFormat: Value,
    logoWidth: Value,
    logoHeight: Value,
    logoHref: Value,
    en: LangBlock,
    fr: LangBlock)

  /** Package versions the titles carry. */
  const Version1: string := "0.1.dev0"
  const Version3: string := "0.0.dev0"

  /** The keys written once per language, unsuffixed for `en` and with
      `_fr` for `fr`, in the order the loop writes them. */
  const BilingualNames: seq<string> := [
    "ows_onlineresource", "ows_address", "ows_keywordlist_http://purl.org/dc/terms/_items",
    "ows_contactinstructions", "ows_contactperson", "ows_contactposition",
    "ows_contactorganization", "ows_abstract", "ows_service_onlineresource", "ows_title",
    "wcs_label", "ows_hoursofservice", "ows_stateorprovince", "ows_city", "ows_country",
    "wms_attribution_title", "wms_attribution_onlineresource", "wcs_description",
    "ows_keywordlist"]

  function Suffix(fr: bool): string {
    if fr then "_fr" else ""
  }

  /** The value the loop writes under `name + Suffix(fr)`. */
  function FieldValue(c: ServiceConfig, url: string, version: string, fr: bool, name: string): Value {
    var b := if fr then c.fr else c.en;
    if name == "ows_onlineresource" then Str(if fr then url + "?lang=fr" else url)
    else if name == "ows_address" then b.deliveryPoint
    else if name == "ows_keywordlist_http://purl.org/dc/terms/_items" then Str(Join(b.keywords, ","))
    else if name == "ows_contactinstructions" then b.instructions
    else if name == "ows_contactperson" then b.contactName
    else if name == "ows_contactposition" then b.position
    else if name == "ows_contactorganization" then b.organization
    else if name == "ows_abstract" then b.summary
    else if name == "ows_service_onlineresource" then b.serviceUrl
    else if name == "ows_title" || name == "wcs_label" then Str(Render(b.title) + " " + version)
    else if name == "ows_hoursofservice" then b.hours
    else if name == "ows_stateorprovince" then b.stateOrProvince
    else if name == "ows_city" then b.city
    else if name == "ows_country" then b.country
    else if name == "wms_attribution_title" then b.attributionTitle
    else if name == "wms_attribution_onlineresource" then b.attributionUrl
    else if name == "wcs_description" then b.summary
    else Str(Join(b.keywords, ","))
  }

  /** One pass of `for lang in ['en', 'fr']`. */
  function LangWrites(c: ServiceConfig, url: string, version: string, fr: bool): (w: Dict<Value>)
    ensures |w| == |BilingualNames|
    ensures forall i | 0 <= i < |w| :: w[i] == (BilingualNames[i] + Suffix(fr), FieldValue(c, url, version, fr, BilingualNames[i]))
  {
    seq(|BilingualNames|, i requires 0 <= i < |BilingualNames| =>
      (BilingualNames[i] + Suffix(fr), FieldValue(c, url, version, fr, BilingualNames[i])))
  }

  /** `[str(x) for x in items]`. */
  function RenderAll(items: seq<Value>): (r: seq<string>)
    ensures |r| == |items|
    ensures forall i | 0 <= i < |items| :: r[i] == Render(items[i])
  {
    seq(|items|, i requires 0 <= i < |items| => Render(items[i]))
  }

  /** The extent a base mapfile's integer bounds give `ows_extent` reads
      back, piece by piece, as those bounds. */
  lemma IntExtentRoundTrip(bounds: seq<int>)
    requires |bounds| >= 1
    ensures var pieces := Split(Join(RenderAll(seq(|bounds|, i requires 0 <= i < |bounds| => Int(bounds[i]))), ","), ',');
            && |pieces| == |bounds|
            && forall i | 0 <= i < |bounds| :: ReadInt(pieces[i]) == Some(bounds[i])
  {
    var items := seq(|bounds|, i requires 0 <= i < |bounds| => Int(bounds[i]));
    var parts := RenderAll(items);
    forall i | 0 <= i < |parts| ensures ',' !in parts[i] && ReadInt(parts[i]) == Some(bounds[i]) {
      IntRoundTrip(bounds[i]);
      var t := NatToString(if bounds[i] >= 0 then bounds[i] else -bounds[i]);
      assert bounds[i] < 0 ==> parts[i] == "-" + t;
      assert ',' !in t;
    }
    SplitJoin(parts, ',');
  }

  /** The keys written before `ows_addresstype`, in order. */
  const HeadNames: seq<string> := [
    "__type__", "ows_keywordlist_vocabulary", "ows_fees", "ows_accessconstraints",
    "wms_getmap_formatlist", "ows_extent", "ows_role", "ows_http_max_age",
    "ows_updatesequence", "encoding", "ows_srs"]

  /** The writes before `ows_addresstype`. */
  function HeadWrites(c: ServiceConfig, extent: string, srs: Value, stamp: string): (w: Dict<Value>)
    ensures |w| == 11
    ensures w[5] == ("ows_extent", Str(extent)) && w[7] == ("ows_http_max_age", Int(604800))
    ensures w[8] == ("ows_updatesequence", Str(stamp))
    ensures forall i | 0 <= i < |w| :: w[i].0 == HeadNames[i]
  {
    Zip(HeadNames,
        [Str("metadata"), Str("http://purl.org/dc/terms/"), c.fees, c.accessConstraints,
         Str("image/png,image/jpeg"), Str(extent), c.role, Int(604800), Str(stamp),
         Str("UTF-8"), srs])
  }

  const AddressType: (string, Value) := ("ows_addresstype", Str("postal"))

  /** geomet3 assigns `ows_addresstype` twice in a row. */
  function AddressTypeWrites(doubleAddressType: bool): Dict<Value> {
    if doubleAddressType then [AddressType, AddressType] else [AddressType]
  }

  /** The keys written after `ows_addresstype`, in order. */
  const TailNames: seq<string> := [
    "ows_postcode", "ows_contactelectronicmailaddress", "ows_contactvoicetelephone",
    "ows_contactfacsimiletelephone", "wms_enable_request", "wms_getfeatureinfo_formatlist",
    "wms_attribution_logourl_format", "wms_attribution_logourl_width",
    "wms_attribution_logourl_height", "wms_attribution_logourl_href", "wcs_enable_request"]

  /** The writes after `ows_addresstype`. */
  function TailWrites(c: ServiceConfig): (w: Dict<Value>)
    ensures forall k :: HasKey(w, k) <==> k in TailNames
  {
    Zip(TailNames,
        [c.postalCode, c.email, c.voice, c.fax, Str("*"),
         Str("text/plain,application/json,application/vnd.ogc.gml"),
         c.logoFormat, c.logoWidth, c.logoHeight, c.logoHref, Str("*")])
  }

  /** What `gen_web_metadata` reads from the base mapfile `m`: the items
      of its `extent`, each put through `str` and comma-joined, and
      `web.metadata.ows_srs`. A missing key raises `KeyError` and a
      scalar extent `TypeError`, the extent first. */
  function BaseFacts(m: Value): (r: Result<(string, Value), Error>)
    ensures r.Ok? <==> && m.Obj? && HasKey(m.fields, "extent")
                       && Iterate(Get(m.fields, "extent").value).Ok?
                       && SrsOf(m).Ok?
    ensures r.Ok? ==> r.value == (Join(RenderAll(Iterate(Get(m.fields, "extent").value).value), ","), SrsOf(m).value)
    ensures m.Obj? && !HasKey(m.fields, "extent") ==> r == Err(KeyError("extent"))
    ensures m.Obj? && HasKey(m.fields, "extent") && Iterate(Get(m.fields, "extent").value).Err? ==> r.Err? && r.error.TypeError?
  {
    var extentValue :- Lookup(m, "extent");
    var items :- Iterate(extentValue);
    var srs :- SrsOf(m);
    Ok((Join(RenderAll(items), ","), srs))
  }

  /** `m['web']['metadata']['ows_srs']`. */
  function SrsOf(m: Value): (r: Result<Value, Error>)
    ensures r.Ok? <==> && m.Obj? && HasKey(m.fields, "web")
                       && Get(m.fields, "web").value.Obj? && HasKey(Get(m.fields, "web").value.fields, "metadata")
                       && var w := Get(Get(m.fields, "web").value.fields, "metadata").value;
                          w.Obj? && HasKey(w.fields, "ows_srs")
    ensures r.Ok? ==> r.value == Get(Get(Get(m.fields, "web").value.fields, "metadata").value.fields, "ows_srs").value
  {
    var web :- Lookup(m, "web");
    var webMetadata :- Lookup(web, "metadata");
    Lookup(webMetadata, "ows_srs")
  }

  /** The writes before the language loop, in order. */
  function CommonWrites(c: ServiceConfig, extent: string, srs: Value, stamp: string, doubleAddressType: bool): Dict<Value> {
    HeadWrites(c, extent, srs, stamp) + AddressTypeWrites(doubleAddressType) + TailWrites(c)
  }

  /** All writes of `gen_web_metadata`, in order. */
  function AllWrites(c: ServiceConfig, url: string, version: string, extent: string, srs: Value, stamp: string,
                     doubleAddressType: bool): Dict<Value> {
    CommonWrites(c, extent, srs, stamp, doubleAddressType) + LangWrites(c, url, version, false) + LangWrites(c, url, version, true)
  }

  /** `gen_web_metadata(m, c, url)` with the clock read as `now`. */
  function GenWebMetadata(m: Value, c: ServiceConfig, url: string, version: string, now: int,
                          doubleAddressType: bool): (r: Result<Dict<Value>, Error>)
    requires 0 <= now <= MaxInstant
    ensures r.Ok? <==> BaseFacts(m).Ok?
    ensures r.Ok? ==> UniqueKeys(r.value)
    ensures r.Ok? ==> Get(r.value, "ows_updatesequence") == Some(Str(Format(now)))
  {
    var base :- BaseFacts(m);
    var writes := AllWrites(c, url, version, base.0, base.1, Format(now), doubleAddressType);
    UpdateSequence(c, url, version, base.0, base.1, Format(now), doubleAddressType);
    Ok(FromWrites(writes))
  }

  lemma UpdateSequence(c: ServiceConfig, url: string, version: string, extent: string, srs: Value, stamp: string, dbl: bool)
    ensures LastWrite(AllWrites(c, url, version, extent, srs, stamp, dbl), "ows_updatesequence") == Some(Str(stamp))
  {
    ServiceWideKeys();
    CommonWins(c, url, version, extent, srs, stamp, dbl, "ows_updatesequence");
    HeadWins(c, extent, srs, stamp, dbl, 8);
  }

  /** The service-wide keys `ows_extent`, `ows_http_max_age` and
      `ows_updatesequence` are none of the bilingual keys. */
  lemma ServiceWideKeys()
    ensures "ows_extent" !in BilingualNames && !EndsFr("ows_extent")
    ensures "ows_http_max_age" !in BilingualNames && !EndsFr("ows_http_max_age")
    ensures "ows_updatesequence" !in BilingualNames && !EndsFr("ows_updatesequence")
  {
    ServiceWideKey("ows_extent");
    ServiceWideKey("ows_http_max_age");
    ServiceWideKey("ows_updatesequence");
  }

  /** One of the service-wide keys is none of the bilingual keys. */
  lemma ServiceWideKey(k: string)
    requires k == "ows_extent" || k == "ows_http_max_age" || k == "ows_updatesequence"
    ensures k !in BilingualNames && !EndsFr(k)
  {
    assert k[|k| - 3..] != "_fr";
    forall i | 0 <= i < |BilingualNames| ensures BilingualNames[i] != k {
      assert BilingualNames[i][..4] != k[..4] || |BilingualNames[i]| != |k| || BilingualNames[i][4] != k[4];
    }
  }

  /** The head writes whose keys nothing after them writes again. */
  lemma HeadWins(c: ServiceConfig, extent: string, srs: Value, stamp: string, dbl: bool, i: int)
    requires i == 5 || i == 7 || i == 8
    ensures LastWrite(CommonWrites(c, extent, srs, stamp, dbl), HeadWrites(c, extent, srs, stamp)[i].0)
            == Some(HeadWrites(c, extent, srs, stamp)[i].1)
  {
    var head := HeadWrites(c, extent, srs, stamp);
    HeadNotLater(c, dbl, i);
    LastWriteAt(head, i);
    SkippedTwice(head, AddressTypeWrites(dbl), TailWrites(c), HeadNames[i]);
  }

  /** `ows_extent`, `ows_http_max_age` and `ows_updatesequence` are
      written once in the head and not after it. */
  lemma HeadNotLater(c: ServiceConfig, dbl: bool, i: int)
    requires i == 5 || i == 7 || i == 8
    ensures forall j | i < j < |HeadNames| :: HeadNames[j] != HeadNames[i]
    ensures !HasKey(AddressTypeWrites(dbl), HeadNames[i]) && !HasKey(TailWrites(c), HeadNames[i])
  {
    assert HeadNames[i] !in TailNames;
  }

  /** A key outside the bilingual names keeps the value the common writes
      give it. */
  lemma CommonWins(c: ServiceConfig, url: string, version: string, extent: string, srs: Value, stamp: string, dbl: bool, k: string)
    requires k !in BilingualNames && !EndsFr(k)
    ensures LastWrite(AllWrites(c, url, version, extent, srs, stamp, dbl), k)
            == LastWrite(CommonWrites(c, extent, srs, stamp, dbl), k)
  {
    LangSkips(c, url, version, false, k);
    LangSkips(c, url, version, true, k);
    SkippedTwice(CommonWrites(c, extent, srs, stamp, dbl), LangWrites(c, url, version, false), LangWrites(c, url, version, true), k);
  }

  /** Neither pass of the language loop writes a key outside the
      bilingual names. */
  lemma LangSkips(c: ServiceConfig, url: string, version: string, fr: bool, k: string)
    requires k !in BilingualNames && !EndsFr(k)
    ensures !HasKey(LangWrites(c, url, version, fr), k)
  {
    var w := LangWrites(c, url, version, fr);
    forall j | 0 <= j < |w| ensures w[j].0 != k {
      var name := BilingualNames[j];
      if fr {
        assert w[j].0 == name + "_fr";
        assert (name + "_fr")[|name + "_fr"| - 3..] == "_fr";
      } else {
        assert w[j].0 == name + "" == name;
      }
    }
  }

  /** A name written by the loop lands under its language's key with that
      language's value. */
  lemma LangWritesLookup(c: ServiceConfig, url: string, version: string, fr: bool, i: int)
    requires 0 <= i < |BilingualNames|
    ensures LastWrite(LangWrites(c, url, version, fr), BilingualNames[i] + Suffix(fr))
            == Some(FieldValue(c, url, version, fr, BilingualNames[i]))
  {
    var w := LangWrites(c, url, version, fr);
    var k := BilingualNames[i] + Suffix(fr);
    assert w[i].0 == k;
    var v := LastWrite(w, k).value;
    var j :| 0 <= j < |w| && w[j] == (k, v);
    assert BilingualNames[j] + Suffix(fr) == k;
    assert BilingualNames[j] == k[..|k| - |Suffix(fr)|] == BilingualNames[i];
  }

  predicate EndsFr(k: string) {
    |k| >= 3 && k[|k| - 3..] == "_fr"
  }

  /** No bilingual name ends in `_fr`: the two passes never write the same key. */
  lemma NoNameEndsFr(i: int)
    requires 0 <= i < |BilingualNames|
    ensures !EndsFr(BilingualNames[i])
  {
  }

  lemma FrKeysEndFr(c: ServiceConfig, url: string, version: string, k: string)
    requires HasKey(LangWrites(c, url, version, true), k)
    ensures EndsFr(k)
  {
    var w := LangWrites(c, url, version, true);
    var j :| 0 <= j < |w| && w[j].0 == k;
    assert k == BilingualNames[j] + "_fr";
  }

  /** Every bilingual key is written unsuffixed with the `en` value and with
      `_fr` with the `fr` value: `ows_country` is the English country and
      `ows_country_fr` the French one, `ows_onlineresource_fr` is
      `url?lang=fr`. */
  lemma Bilingual(m: Value, c: ServiceConfig, url: string, version: string, now: int, dbl: bool, i: int)
    requires 0 <= now <= MaxInstant
    requires 0 <= i < |BilingualNames|
    requires GenWebMetadata(m, c, url, version, now, dbl).Ok?
    ensures Get(GenWebMetadata(m, c, url, version, now, dbl).value, BilingualNames[i])
            == Some(FieldValue(c, url, version, false, BilingualNames[i]))
    ensures Get(GenWebMetadata(m, c, url, version, now, dbl).value, BilingualNames[i] + "_fr")
            == Some(FieldValue(c, url, version, true, BilingualNames[i]))
  {
    var base := BaseFacts(m).value;
    var common := CommonWrites(c, base.0, base.1, Format(now), dbl);
    var en := LangWrites(c, url, version, false);
    var fr := LangWrites(c, url, version, true);
    var name := BilingualNames[i];
    assert common + en + fr == (common + en) + fr;
    LangWritesLookup(c, url, version, false, i);
    LangWritesLookup(c, url, version, true, i);
    assert name + Suffix(false) == name;
    if HasKey(fr, name) {
      FrKeysEndFr(c, url, version, name);
      NoNameEndsFr(i);
    }
    LastWriteConcat(common + en, fr, name);
    LastWriteConcat(common, en, name);
    LastWriteConcat(common + en, fr, name + "_fr");
  }

  /** The repeated `ows_addresstype` assignment of geomet3 leaves the same
      dictionary as a single one. */
  lemma DoubleAddressTypeHarmless(m: Value, c: ServiceConfig, url: string, version: string, now: int)
    requires 0 <= now <= MaxInstant
    ensures GenWebMetadata(m, c, url, version, now, true) == GenWebMetadata(m, c, url, version, now, false)
  {
    if BaseFacts(m).Ok? {
      var base := BaseFacts(m).value;
      DoubleWritesSame(c, url, version, base.0, base.1, Format(now));
    }
  }

  /** The writes with `ows_addresstype` repeated build the same dictionary
      as the writes with it once. */
  lemma DoubleWritesSame(c: ServiceConfig, url: string, version: string, extent: string, srs: Value, stamp: string)
    ensures FromWrites(AllWrites(c, url, version, extent, srs, stamp, true))
            == FromWrites(AllWrites(c, url, version, extent, srs, stamp, false))
  {
    var head := HeadWrites(c, extent, srs, stamp);
    var rest := TailWrites(c) + LangWrites(c, url, version, false) + LangWrites(c, url, version, true);
    assert AllWrites(c, url, version, extent, srs, stamp, false) == head + [AddressType] + rest;
    assert AllWrites(c, url, version, extent, srs, stamp, true) == head + [AddressType, AddressType] + rest;
    RepeatedWrite([], head, AddressType, rest);
  }

  // ---------------------------------------------------------------------
  // The whole dictionary

  /** The keys one pass of the language loop writes, in order. */
  function LangNames(fr: bool): (ks: seq<string>)
    ensures |ks| == |BilingualNames|
    ensures forall i | 0 <= i < |ks| :: ks[i] == BilingualNames[i] + Suffix(fr)
  {
    seq(|BilingualNames|, i requires 0 <= i < |BilingualNames| => BilingualNames[i] + Suffix(fr))
  }

  /** The keys written before the language loop, in order. */
  const CommonNames: seq<string> := HeadNames + [AddressType.0] + TailNames

  /** Every key `gen_web_metadata` writes, in the order it first writes it. */
  function MetadataNames(): seq<string> {
    CommonNames + LangNames(false) + LangNames(true)
  }

  lemma HeadDistinct() ensures Distinct(HeadNames) {}
  lemma TailDistinct() ensures Distinct(TailNames) {}
  lemma BilingualDistinct() ensures Distinct(BilingualNames) {
    var a, b := BilingualNames[..10], BilingualNames[10..];
    assert Distinct(a);
    assert Distinct(b);
    assert Apart(a, b);
    DistinctConcat(a, b);
    assert a + b == BilingualNames;
  }
  lemma HeadApartTail() ensures Apart(HeadNames, TailNames) {}
  lemma HeadApartBilingual() ensures Apart(HeadNames, BilingualNames) {}
  lemma TailApartBilingual() ensures Apart(TailNames, BilingualNames) {}
  lemma AddressTypeApart() ensures Apart([AddressType.0], HeadNames + TailNames + BilingualNames) {}

  /** No key written before the language loop ends in `_fr`. */
  lemma CommonNotFr()
    ensures forall i | 0 <= i < |CommonNames| :: !EndsFr(CommonNames[i])
  {
  }

  /** The common keys are distinct and none is a bilingual name. */
  lemma CommonDistinct()
    ensures Distinct(CommonNames) && Apart(CommonNames, BilingualNames)
  {
    HeadDistinct();
    TailDistinct();
    HeadApartTail();
    HeadApartBilingual();
    TailApartBilingual();
    AddressTypeApart();
    var a := [AddressType.0];
    assert forall i | 0 <= i < |HeadNames| :: (HeadNames + TailNames + BilingualNames)[i] == HeadNames[i];
    assert forall i | 0 <= i < |TailNames| :: (HeadNames + TailNames + BilingualNames)[|HeadNames| + i] == TailNames[i];
    assert forall i | 0 <= i < |BilingualNames| :: (HeadNames + TailNames + BilingualNames)[|HeadNames| + |TailNames| + i] == BilingualNames[i];
    DistinctConcat(HeadNames, a);
    DistinctConcat(HeadNames + a, TailNames);
  }

  /** `gen_web_metadata` writes no key twice, apart from geomet3's
      repeated `ows_addresstype`. */
  lemma MetadataNamesDistinct()
    ensures Distinct(MetadataNames())
  {
    CommonDistinct();
    CommonNotFr();
    BilingualDistinct();
    var en := LangNames(false);
    var fr := LangNames(true);
    forall i | 0 <= i < |en| ensures en[i] == BilingualNames[i] {
      assert BilingualNames[i] + "" == BilingualNames[i];
    }
    forall i, j | 0 <= i < j < |fr| ensures fr[i] != fr[j] {
      assert fr[i][..|fr[i]| - 3] == BilingualNames[i];
      assert fr[j][..|fr[j]| - 3] == BilingualNames[j];
    }
    forall i | 0 <= i < |fr| ensures EndsFr(fr[i]) {
      assert fr[i][|fr[i]| - 3..] == "_fr";
    }
    forall i | 0 <= i < |en| ensures !EndsFr(en[i]) {
      NoNameEndsFr(i);
    }
    DistinctConcat(CommonNames, en);
    assert forall i | 0 <= i < |CommonNames + en| :: !EndsFr((CommonNames + en)[i]);
    DistinctConcat(CommonNames + en, fr);
  }

  /** The keys of the writes are the metadata names. */
  lemma WriteKeys(c: ServiceConfig, url: string, version: string, extent: string, srs: Value, stamp: string)
    ensures KeyList(AllWrites(c, url, version, extent, srs, stamp, false)) == MetadataNames()
  {
    var w := AllWrites(c, url, version, extent, srs, stamp, false);
    var names := MetadataNames();
    var head := HeadWrites(c, extent, srs, stamp);
    var tail := TailWrites(c);
    assert |w| == |names|;
    forall i | 0 <= i < |w| ensures w[i].0 == names[i] {
      if i < 11 {
        assert w[i] == head[i];
      } else if i == 11 {
        assert w[i] == AddressType;
      } else if i < 23 {
        assert w[i] == tail[i - 12];
        assert w[i].0 == TailNames[i - 12];
      } else if i < 42 {
        assert w[i] == LangWrites(c, url, version, false)[i - 23];
      } else {
        assert w[i] == LangWrites(c, url, version, true)[i - 42];
      }
    }
  }

  /** `gen_web_metadata` never overwrites a key, so its dictionary is its
      writes in the order the code makes them (geomet3's repeated
      `ows_addresstype` included), and its keys are the metadata names in
      that order. */
  lemma MetadataInWriteOrder(m: Value, c: ServiceConfig, url: string, version: string, now: int, dbl: bool)
    requires 0 <= now <= MaxInstant
    requires GenWebMetadata(m, c, url, version, now, dbl).Ok?
    ensures var d := GenWebMetadata(m, c, url, version, now, dbl).value;
            && d == AllWrites(c, url, version, BaseFacts(m).value.0, SrsOf(m).value, Format(now), false)
            && KeyList(d) == HeadNames + ["ows_addresstype"] + TailNames + LangNames(false) + LangNames(true)
  {
    var base := BaseFacts(m).value;
    var w := AllWrites(c, url, version, base.0, base.1, Format(now), false);
    DoubleAddressTypeHarmless(m, c, url, version, now);
    WriteKeys(c, url, version, base.0, base.1, Format(now));
    MetadataNamesDistinct();
    assert UniqueKeys(w);
    FromWritesDistinct(w);
  }

  /** Each write of `gen_web_metadata` is what its key reads afterwards. */
  lemma WrittenValue(m: Value, c: ServiceConfig, url: string, version: string, now: int, dbl: bool, i: int)
    requires 0 <= now <= MaxInstant
    requires GenWebMetadata(m, c, url, version, now, dbl).Ok?
    requires 0 <= i < |MetadataNames()|
    ensures var w := AllWrites(c, url, version, BaseFacts(m).value.0, SrsOf(m).value, Format(now), false);
            |w| == |MetadataNames()| && Get(GenWebMetadata(m, c, url, version, now, dbl).value, w[i].0) == Some(w[i].1)
  {
    var base := BaseFacts(m).value;
    var w := AllWrites(c, url, version, base.0, base.1, Format(now), false);
    MetadataInWriteOrder(m, c, url, version, now, dbl);
    GetAt(w, i);
  }

  /** The service identification keys hold the fixed values, the
      configuration's fees, access constraints and role, and the base
      mapfile's `ows_srs`. */
  lemma IdentificationValues(m: Value, c: ServiceConfig, url: string, version: string, now: int, dbl: bool)
    requires 0 <= now <= MaxInstant
    requires GenWebMetadata(m, c, url, version, now, dbl).Ok?
    ensures var d := GenWebMetadata(m, c, url, version, now, dbl).value;
            && Get(d, "__type__") == Some(Str("metadata"))
            && Get(d, "ows_keywordlist_vocabulary") == Some(Str("http://purl.org/dc/terms/"))
            && Get(d, "ows_fees") == Some(c.fees)
            && Get(d, "ows_accessconstraints") == Some(c.accessConstraints)
            && Get(d, "wms_getmap_formatlist") == Some(Str("image/png,image/jpeg"))
            && Get(d, "ows_role") == Some(c.role)
            && Get(d, "encoding") == Some(Str("UTF-8"))
            && Get(d, "ows_srs") == Some(SrsOf(m).value)
  {
    var base := BaseFacts(m).value;
    MetadataInWriteOrder(m, c, url, version, now, dbl);
    HeadValues(GenWebMetadata(m, c, url, version, now, dbl).value, c, url, version, base.0, base.1, Format(now));
  }

  /** The first eleven writes, read back from the dictionary they build. */
  lemma HeadValues(d: Dict<Value>, c: ServiceConfig, url: string, version: string, extent: string, srs: Value, stamp: string)
    requires UniqueKeys(d) && d == AllWrites(c, url, version, extent, srs, stamp, false)
    ensures && Get(d, "__type__") == Some(Str("metadata"))
            && Get(d, "ows_keywordlist_vocabulary") == Some(Str("http://purl.org/dc/terms/"))
            && Get(d, "ows_fees") == Some(c.fees)
            && Get(d, "ows_accessconstraints") == Some(c.accessConstraints)
            && Get(d, "wms_getmap_formatlist") == Some(Str("image/png,image/jpeg"))
            && Get(d, "ows_role") == Some(c.role)
            && Get(d, "encoding") == Some(Str("UTF-8"))
            && Get(d, "ows_srs") == Some(srs)
  {
    var head := HeadWrites(c, extent, srs, stamp);
    assert d[..11] == head;
    assert head[0] == ("__type__", Str("metadata"));
    assert head[1] == ("ows_keywordlist_vocabulary", Str("http://purl.org/dc/terms/"));
    assert head[2] == ("ows_fees", c.fees);
    assert head[3] == ("ows_accessconstraints", c.accessConstraints);
    assert head[4] == ("wms_getmap_formatlist", Str("image/png,image/jpeg"));
    assert head[6] == ("ows_role", c.role);
    assert head[9] == ("encoding", Str("UTF-8"));
    assert head[10] == ("ows_srs", srs);
    GetAt(d, 0); GetAt(d, 1); GetAt(d, 2); GetAt(d, 3);
    GetAt(d, 4); GetAt(d, 6); GetAt(d, 9); GetAt(d, 10);
  }
  /** The contact keys hold `postal`, the configuration's address,
      telephone and logo values, and the fixed request and format lists. */
  lemma ContactValues(m: Value, c: ServiceConfig, url: string, version: string, now: int, dbl: bool)
    requires 0 <= now <= MaxInstant
    requires GenWebMetadata(m, c, url, version, now, dbl).Ok?
    ensures var d := GenWebMetadata(m, c, url, version, now, dbl).value;
            && Get(d, "ows_addresstype") == Some(Str("postal"))
            && Get(d, "ows_postcode") == Some(c.postalCode)
            && Get(d, "ows_contactelectronicmailaddress") == Some(c.email)
            && Get(d, "ows_contactvoicetelephone") == Some(c.voice)
            && Get(d, "ows_contactfacsimiletelephone") == Some(c.fax)
            && Get(d, "wms_enable_request") == Some(Str("*"))
            && Get(d, "wms_getfeatureinfo_formatlist") == Some(Str("text/plain,application/json,application/vnd.ogc.gml"))
            && Get(d, "wms_attribution_logourl_format") == Some(c.logoFormat)
            && Get(d, "wms_attribution_logourl_width") == Some(c.logoWidth)
            && Get(d, "wms_attribution_logourl_height") == Some(c.logoHeight)
            && Get(d, "wms_attribution_logourl_href") == Some(c.logoHref)
            && Get(d, "wcs_enable_request") == Some(Str("*"))
  {
    var base := BaseFacts(m).value;
    MetadataInWriteOrder(m, c, url, version, now, dbl);
    TailValues(GenWebMetadata(m, c, url, version, now, dbl).value, c, url, version, base.0, base.1, Format(now));
  }

  /** `ows_addresstype` and the eleven writes after it, read back. */
  lemma TailValues(d: Dict<Value>, c: ServiceConfig, url: string, version: string, extent: string, srs: Value, stamp: string)
    requires UniqueKeys(d) && d == AllWrites(c, url, version, extent, srs, stamp, false)
    ensures && Get(d, "ows_addresstype") == Some(Str("postal"))
            && Get(d, "ows_postcode") == Some(c.postalCode)
            && Get(d, "ows_contactelectronicmailaddress") == Some(c.email)
            && Get(d, "ows_contactvoicetelephone") == Some(c.voice)
            && Get(d, "ows_contactfacsimiletelephone") == Some(c.fax)
            && Get(d, "wms_enable_request") == Some(Str("*"))
            && Get(d, "wms_getfeatureinfo_formatlist") == Some(Str("text/plain,application/json,application/vnd.ogc.gml"))
            && Get(d, "wms_attribution_logourl_format") == Some(c.logoFormat)
            && Get(d, "wms_attribution_logourl_width") == Some(c.logoWidth)
            && Get(d, "wms_attribution_logourl_height") == Some(c.logoHeight)
            && Get(d, "wms_attribution_logourl_href") == Some(c.logoHref)
            && Get(d, "wcs_enable_request") == Some(Str("*"))
  {
    var tail := TailWrites(c);
    assert d[11] == AddressType;
    assert d[12..23] == tail;
    assert tail[0] == ("ows_postcode", c.postalCode);
    assert tail[1] == ("ows_contactelectronicmailaddress", c.email);
    assert tail[2] == ("ows_contactvoicetelephone", c.voice);
    assert tail[3] == ("ows_contactfacsimiletelephone", c.fax);
    assert tail[4] == ("wms_enable_request", Str("*"));
    assert tail[5] == ("wms_getfeatureinfo_formatlist", Str("text/plain,application/json,application/vnd.ogc.gml"));
    assert tail[6] == ("wms_attribution_logourl_format", c.logoFormat);
    assert tail[7] == ("wms_attribution_logourl_width", c.logoWidth);
    assert tail[8] == ("wms_attribution_logourl_height", c.logoHeight);
    assert tail[9] == ("wms_attribution_logourl_href", c.logoHref);
    assert tail[10] == ("wcs_enable_request", Str("*"));
    GetAt(d, 11); GetAt(d, 12); GetAt(d, 13); GetAt(d, 14); GetAt(d, 15); GetAt(d, 16);
    GetAt(d, 17); GetAt(d, 18); GetAt(d, 19); GetAt(d, 20); GetAt(d, 21); GetAt(d, 22);
  }



  /** `ows_extent` is the comma-join of the base mapfile's extent, and the
      service advertises a one-week cache. */
  lemma ExtentAndMaxAge(m: Value, c: ServiceConfig, url: string, version: string, now: int, dbl: bool)
    requires 0 <= now <= MaxInstant
    requires GenWebMetadata(m, c, url, version, now, dbl).Ok?
    ensures m.Obj? && HasKey(m.fields, "extent")
    ensures var e := Get(m.fields, "extent").value;
            && Iterate(e).Ok?
            && Get(GenWebMetadata(m, c, url, version, now, dbl).value, "ows_extent") == Some(Str(Join(RenderAll(Iterate(e).value), ",")))
    ensures Get(GenWebMetadata(m, c, url, version, now, dbl).value, "ows_http_max_age") == Some(Int(604800))
  {
    var base := BaseFacts(m).value;
    var stamp := Format(now);
    var d := GenWebMetadata(m, c, url, version, now, dbl).value;
    var writes := AllWrites(c, url, version, base.0, base.1, stamp, dbl);
    assert d == FromWrites(writes);
    ServiceWideKeys();
    CommonWins(c, url, version, base.0, base.1, stamp, dbl, "ows_extent");
    CommonWins(c, url, version, base.0, base.1, stamp, dbl, "ows_http_max_age");
    HeadWins(c, base.0, base.1, stamp, dbl, 5);
    HeadWins(c, base.0, base.1, stamp, dbl, 7);
    assert Get(d, "ows_extent") == LastWrite(writes, "ows_extent");
    assert Get(d, "ows_http_max_age") == LastWrite(writes, "ows_http_max_age");
  }
}

=== FILE: wrappers.dfy ===
/** Failure-compatible Option and Result datatypes used throughout the model.
    `Result` carries the exception a Python call would raise as its `error`. */
module Wrappers {

  datatype Option<+T> = None | Some(value: T) {

    predicate IsFailure() {
      None?
    }

    function PropagateFailure<U>(): Option<U>
      requires None?
    {
      None
    }

    function Extract(): T
      requires Some?
    {
      value
    }

    function GetOr(default: T): T {
      match this
      case Some(v) => v
      case None => default
    }
  }

  datatype Result<+T, +E> = Ok(value: T) | Err(error: E) {

    predicate IsFailure() {
      Err?
    }

    function PropagateFailure<U>(): Result<U, E>
      requires Err?
    {
      Err(error)
    }

    function Extract(): T
      requires Ok?
    {
      value
    }
  }
}
